=== FILE: README.md ===
# Kozani MakeMSIX in Dafny

This project models the decision logic of the Kozani MakeMSIX tool. The tool turns an MSIX/APPX
package or bundle into a "Kozani" package: a trimmed package that keeps only the manifest, the
files its visible resources need and a re-indexed `resources.pri`, and that is hosted by the
Kozani host runtime. The external machinery is represented by plain values:

- the XML DOM and XPath become an element tree (`Xml.Node`) with fixed local-name paths;
- the MRM resource indexer becomes a dumped PRI (`PriReindexer.PriDump`) going in and a log of
  `IndexFile`/`IndexString` calls coming out;
- the file system becomes sets of directories and regular files;
- makeappx.exe runs become a list of planned invocations (`MakeMsixManager.Invocation`);
- process, registry and temporary-directory results become parameters.

One module per source file:

| module | file | what it holds |
|---|---|---|
| `Outcomes` | outcomes.dfy | `Option`, `Result` and the error codes the tool returns |
| `Text` | text.dfy | case folding, prefix/suffix tests, character replacement, joining |
| `Xml` | xml.dfy | element tree, first-match path selection, `FindNodeTextValue` |
| `Constants` | constants.dfy | the tool's constant strings, prefixes and queries |
| `ResourceExtractor` | resource_extractor.dfy | which manifest values are resource references, and their URIs |
| `PriReindexer` | pri_reindexer.dfy | qualifier strings and the walk over a dumped PRI |
| `PackageLayout` | package_layout.dfy | building the trimmed layout and copying the required files |
| `ManifestConverter` | manifest_converter.dfy | the manifest rewrite as a tree transformation |
| `FileSystemUtilities` | file_system.dfy | package-type detection, manifest paths, file predicates |
| `AppxPackaging` | appx_packaging.dfy | quad versions, package identity and information, block extraction |
| `ContentTypes` | content_type.dfy | the extension table and the footprint-file content types |
| `MakeMsixManager` | make_msix.dfy | makeappx argument lists, command line, launch and conversion plans |

Three facts about the code shape the model:

- `CreateKozaniPackageLayout` never calls `ModifyManifest`: the layout keeps the original
  manifest. A package without `resources.pri` is not skipped; the missing dump is an error
  (`FileNotFound`).
- The check that every named resource was found is compiled only into debug builds, so it is
  a `debugBuild` parameter.
- `IsFileWithPackageExtension` accepts `.appx` and `.msix` only; the bundle extensions are not
  package extensions.

## Model

| member | source | states |
|---|---|---|
| Text.CaseInsensitiveStartsWithChars | dev/Kozani/Microsoft.Kozani.MakeMSIX/ManifestConverter.cpp:20-27 | a string shorter than the prefix never matches; otherwise it matches exactly when every leading character agrees after folding |
| Text.StartsWithIsCaseInsensitiveStartsWith | dev/Kozani/Microsoft.Kozani.MakeMSIX/CreateKozaniPackageProvider.cpp:17-24 | an exact prefix is also a case-insensitive prefix |
| Text.LowerIdempotent | dev/Kozani/Microsoft.Kozani.MakeMSIX/CreateKozaniPackageProvider.cpp:229-230 | folding a folded string changes nothing |
| Text.ReplaceCharRoundTrip | dev/Kozani/Microsoft.Kozani.MakeMSIX/CreateKozaniPackageProvider.cpp:34-45 | the forward-slash and backslash conversions undo each other on strings that do not already hold the target character |
| Xml.FindNodeTextValue | dev/Kozani/Microsoft.Kozani.MakeMSIX/CreateKozaniPackageProvider.cpp:234-246 | the text of the first selected node, else the incoming text; an XML parse error exactly when the value is required and ends up empty |
| Xml.SelectMissingChild | dev/Kozani/Microsoft.Kozani.MakeMSIX/CreateKozaniPackageProvider.cpp:236-240 | a query whose second step names no child of the root selects nothing, so the incoming text is kept |
| ResourceExtractor.EvaluateString | dev/Kozani/Microsoft.Kozani.MakeMSIX/CreateKozaniPackageProvider.cpp:248-280 | the value adds exactly its string-resource URI or its file URI to the named resources, and its own path to the required files when it is an image |
| ResourceExtractor.EvaluateStringBranches | dev/Kozani/Microsoft.Kozani.MakeMSIX/CreateKozaniPackageProvider.cpp:254-279 | an empty value changes nothing; an `ms-resource:` value adds only `ms-resource://<pkg>/Resources/<rest>`; an image value adds itself and its `Files/` URI with forward slashes; anything else changes nothing |
| ResourceExtractor.SupportedExtensionIgnoresCase | dev/Kozani/Microsoft.Kozani.MakeMSIX/CreateKozaniPackageProvider.cpp:216-232 | `EndsWithSupportedExtension` does not depend on letter case: a name passes exactly when its lower-cased form does |
| ResourceExtractor.SupportedExtensionExamples | dev/Kozani/Microsoft.Kozani.MakeMSIX/CreateKozaniPackageProvider.cpp:218-231 | `EndsWithSupportedExtension` needs more than four characters and looks only at the last four: a bare `.png` and `x.jpeg` fail, `Assets\Logo.PNG` passes |
| ResourceExtractor.ReferenceSetsAppend | dev/Kozani/Microsoft.Kozani.MakeMSIX/CreateKozaniPackageProvider.cpp:314-322 | the references found in two lists of values are the union of the references of each |
| ResourceExtractor.EvaluateValues | dev/Kozani/Microsoft.Kozani.MakeMSIX/CreateKozaniPackageProvider.cpp:314-322 | evaluating the values in order adds exactly the reference sets of the whole list |
| ResourceExtractor.FindResourceInfoInManifest | dev/Kozani/Microsoft.Kozani.MakeMSIX/CreateKozaniPackageProvider.cpp:305-325 | fails with an XML parse error exactly when the identity name is missing or empty; otherwise returns that name and adds the references of the first match of each of the sixteen queries |
| PriReindexer.GetResourceQualifierString | dev/Kozani/Microsoft.Kozani.MakeMSIX/CreateKozaniPackageProvider.cpp:47-70 | the `_`-join of the kept `name-value` pairs in order; a parse error when none is kept; a null dereference when a score is missing |
| PriReindexer.AppendQualifiersJoins | dev/Kozani/Microsoft.Kozani.MakeMSIX/CreateKozaniPackageProvider.cpp:49-64 | the loop's accumulator extends by exactly the kept pairs, and is non-empty once one pair is kept |
| PriReindexer.IndexCandidatesSucceeds | dev/Kozani/Microsoft.Kozani.MakeMSIX/CreateKozaniPackageProvider.cpp:137-185 | the candidates of one resource index without error exactly when the qualifier lists of the indexable candidates resolve and, if one is a file path, the URI is long enough to hold the file prefix |
| PriReindexer.IndexCandidateEffect | dev/Kozani/Microsoft.Kozani.MakeMSIX/CreateKozaniPackageProvider.cpp:139-184 | a `Path` or `String` candidate removes the URI from the pending set and appends its call; other candidate types change neither |
| PriReindexer.IndexCandidatesEffect | dev/Kozani/Microsoft.Kozani.MakeMSIX/CreateKozaniPackageProvider.cpp:137-185 | the URI leaves the pending set exactly when some candidate is indexable, and the calls appended are one per indexable candidate, in order |
| PriReindexer.IndexCandidatesRequired | dev/Kozani/Microsoft.Kozani.MakeMSIX/CreateKozaniPackageProvider.cpp:161-170 | for a resource with file-path candidates the required files become (S with every resolved value) minus the unresolved path; the erase comes after the inserts; otherwise S is unchanged |
| PriReindexer.CallsForFacts | dev/Kozani/Microsoft.Kozani.MakeMSIX/CreateKozaniPackageProvider.cpp:171-183 | every call of one resource names its URI, and each indexable candidate has its call |
| PriReindexer.IndexResourcesPending | dev/Kozani/Microsoft.Kozani.MakeMSIX/CreateKozaniPackageProvider.cpp:127-148 | after the walk, the pending set is the original minus the URIs some resource can serve |
| PriReindexer.IndexResourcesCalls | dev/Kozani/Microsoft.Kozani.MakeMSIX/CreateKozaniPackageProvider.cpp:127-186 | the walk only appends calls, and the URIs indexed are exactly the pending URIs that some resource can serve; resources not pending are skipped |
| PriReindexer.IndexResourcesCallLog | dev/Kozani/Microsoft.Kozani.MakeMSIX/CreateKozaniPackageProvider.cpp:127-186 | the walk appends, for each resource still pending when the walk reaches it, in dump order, one call per file-path or string candidate in candidate order: `IndexFile` for a path and `IndexString` for a string, each with the resource URI, the resolved value and that candidate's qualifier string; skipped resources and other candidates add nothing |
| PriReindexer.IndexResourcesRequired | dev/Kozani/Microsoft.Kozani.MakeMSIX/CreateKozaniPackageProvider.cpp:161-170 | the walk adds only resolved file-path values, and removes a required file only when it is the unresolved path of a pending URI |
| PriReindexer.FileUriRoundTrip | dev/Kozani/Microsoft.Kozani.MakeMSIX/CreateKozaniPackageProvider.cpp:168 | stripping the file prefix and turning slashes back gives the manifest path its file URI came from, when that path holds no forward slash |
| PriReindexer.IndexResourcesErrors | dev/Kozani/Microsoft.Kozani.MakeMSIX/CreateKozaniPackageProvider.cpp:153-168 | the walk fails only on a missing score, an empty qualifier list or a URI shorter than the file prefix |
| PriReindexer.IndexResourcesSucceeds | dev/Kozani/Microsoft.Kozani.MakeMSIX/CreateKozaniPackageProvider.cpp:127-186 | the walk succeeds exactly when every resource it reaches with its URI still pending (pending at the start and not served by an earlier resource) has resolvable qualifier lists and, if it has a file-path candidate, a URI long enough for the file prefix |
| PriReindexer.IndexResourcesRequiredBounds | dev/Kozani/Microsoft.Kozani.MakeMSIX/CreateKozaniPackageProvider.cpp:161-170 | after the walk the required files lie between (start minus removed) plus (added minus removed) and (start minus removed) plus added, where added are the file-path values and removed the unresolved paths of the visited resources |
| PriReindexer.CreateKozaniResourcePri | dev/Kozani/Microsoft.Kozani.MakeMSIX/CreateKozaniPackageProvider.cpp:81-214 | succeeds exactly when the dump exists, its default qualifiers give a non-empty string, every resource the walk visits can be indexed, and (debug build only) every named resource is found; a missing dump is `FileNotFound`; on success the indexer gets the default qualifiers and the package name, the pending set is as the walk lemmas state, the call log is exactly the walk's reference log (each visited resource's file and string calls with their values and qualifier strings, in dump and candidate order), and the required files hold every starting or added file that is not the unresolved path of a visited resource, and nothing but those and the added files |
| PackageLayout.CopyRequiredFiles | dev/Kozani/Microsoft.Kozani.MakeMSIX/CreateKozaniPackageProvider.cpp:327-353 | the copy fails with E_UNEXPECTED exactly when some file fails to copy and exists or cannot be checked; otherwise the files that copied are all the others |
| PackageLayout.CreateKozaniPackageLayout | dev/Kozani/Microsoft.Kozani.MakeMSIX/CreateKozaniPackageProvider.cpp:383-405 | invalid argument exactly when either path is not a directory or the two are the same string; succeeds exactly when the arguments are valid, the manifest is read, its re-indexing succeeds and no file it requires fails to copy while existing; a re-indexing error is passed on; on success the indexer and required files are the re-indexing's, the manifest is required, and the copied files are the required ones that copied |
| PackageLayout.ReindexManifest | dev/Kozani/Microsoft.Kozani.MakeMSIX/CreateKozaniPackageProvider.cpp:355-381 | a manifest without a package name fails with a parse error; on success the indexer carries that name and `AppxManifest.xml` is among the required files |
| PackageLayout.ExtractedUrisNeverNameManifest | dev/Kozani/Microsoft.Kozani.MakeMSIX/CreateKozaniPackageProvider.cpp:364-370 | no URI taken from the manifest resolves to `AppxManifest.xml`, so the walk never drops the manifest from the required files |
| ManifestConverter.AddUap10Namespace | dev/Kozani/Microsoft.Kozani.MakeMSIX/ManifestConverter.cpp:73-79 | `xmlns:uap10` is added only when absent; an existing value and every other attribute are kept |
| ManifestConverter.AddUap10NamespaceIdempotent | dev/Kozani/Microsoft.Kozani.MakeMSIX/ManifestConverter.cpp:73-79 | declaring the namespace twice is declaring it once |
| ManifestConverter.RemovePackageDependenciesMembers | dev/Kozani/Microsoft.Kozani.MakeMSIX/ManifestConverter.cpp:81-87 | a child survives exactly when it is not a `PackageDependency` |
| ManifestConverter.RemovePackageDependenciesAppend | dev/Kozani/Microsoft.Kozani.MakeMSIX/ManifestConverter.cpp:81-87 | removing from a concatenation is concatenating the removals, so order is kept |
| ManifestConverter.SetMinVersions | dev/Kozani/Microsoft.Kozani.MakeMSIX/ManifestConverter.cpp:89-96 | every `TargetDeviceFamily` gets `MinVersion` `10.0.19003.0` and nothing else changes; a family without the attribute is a null dereference |
| ManifestConverter.SetMinVersionsIdempotent | dev/Kozani/Microsoft.Kozani.MakeMSIX/ManifestConverter.cpp:89-96 | retargeting twice is retargeting once |
| ManifestConverter.ModifyDependencies | dev/Kozani/Microsoft.Kozani.MakeMSIX/ManifestConverter.cpp:81-110 | succeeds exactly when every target device family has a `MinVersion`; the element keeps its name and attributes; its children are the non-`PackageDependency` children in order, each retargeted, followed by the host runtime dependency |
| ManifestConverter.ModifyDependenciesTwice | dev/Kozani/Microsoft.Kozani.MakeMSIX/ManifestConverter.cpp:81-110 | running the rewrite on its own output changes only one thing: a second host runtime dependency is appended |
| ManifestConverter.ModifyFirstDependencies | dev/Kozani/Microsoft.Kozani.MakeMSIX/ManifestConverter.cpp:82-110 | succeeds exactly when a `Dependencies` child exists and its target device families all have `MinVersion`; the first such child is replaced by its rewrite and every other child stays in place; no such child is a null dereference |
| ManifestConverter.FilterPackageChildrenMembers | dev/Kozani/Microsoft.Kozani.MakeMSIX/ManifestConverter.cpp:51-62 | a child survives exactly when it is not an element or its name is in the allow-list |
| ManifestConverter.FilterPackageChildrenAppend | dev/Kozani/Microsoft.Kozani.MakeMSIX/ManifestConverter.cpp:112-123 | filtering a concatenation is concatenating the filtered parts, so order is kept |
| ManifestConverter.FilterPackageChildrenIdempotent | dev/Kozani/Microsoft.Kozani.MakeMSIX/ManifestConverter.cpp:112-123 | filtering twice is filtering once |
| ManifestConverter.RewriteApplication | dev/Kozani/Microsoft.Kozani.MakeMSIX/ManifestConverter.cpp:147-173 | an application ends with exactly `Id` (unchanged), `HostId` = `KozaniHostRuntime` and `Parameters` = `-aumid <PFN>!<Id>`; a missing `Id` is a null dereference |
| ManifestConverter.RewritePackageApplications | dev/Kozani/Microsoft.Kozani.MakeMSIX/ManifestConverter.cpp:146-173 | succeeds exactly when every application under an `Applications` child has an `Id`; the children keep their number and order; an `Applications` child keeps its name, attributes and number of applications, each rewritten with the prefix; any other child is unchanged |
| ManifestConverter.RewritePackageApplicationsIdempotent | dev/Kozani/Microsoft.Kozani.MakeMSIX/ManifestConverter.cpp:146-173 | rewriting the applications a second time with the same prefix changes nothing |
| ManifestConverter.PackageFamilyName | dev/Kozani/Microsoft.Kozani.MakeMSIX/ManifestConverter.cpp:125-143 | succeeds exactly when the identity name and publisher are present and non-empty and the family-name function accepts them |
| ManifestConverter.ApplicationsRewriteKeepsIdentity | dev/Kozani/Microsoft.Kozani.MakeMSIX/ManifestConverter.cpp:126-147 | rewriting the applications does not change what the identity queries select |
| ManifestConverter.ModifyManifest | dev/Kozani/Microsoft.Kozani.MakeMSIX/ManifestConverter.cpp:64-182 | succeeds exactly when the root is `Package` with a `Dependencies` child whose target device families all have `MinVersion`, the trimmed package has a family name, and every application has an `Id`; on success the root keeps its name and gets the uap10 namespace, its children are the trimmed children in order with only the applications rewritten to the family name, no disallowed child is left, and the dependencies are in the Kozani form; the errors are null dereferences and parse errors |
| ManifestConverter.TrimPackage | dev/Kozani/Microsoft.Kozani.MakeMSIX/ManifestConverter.cpp:81-123 | succeeds exactly when the root is `Package` with a first `Dependencies` child that can be rewritten; the children become the allowed children before it, the rewritten dependencies, and the allowed children after it, in order |
| FileSystemUtilities.GetPackageTypeFromPath | dev/Kozani/Microsoft.Kozani.MakeMSIX/FileSystemUtilities.cpp:58-85 | a directory is a bundle layout exactly when its bundle manifest exists, a package layout exactly when only its package manifest does, else unrecognised; a file is classified by its extension |
| FileSystemUtilities.DirectoryDetectionByManifests | dev/Kozani/Microsoft.Kozani.MakeMSIX/FileSystemUtilities.cpp:60-70 | for a directory, each detected layout type holds exactly when the matching manifest path is a regular file, the bundle manifest taking precedence |
| FileSystemUtilities.PackageTypeMatchesExtensionTest | dev/Kozani/Microsoft.Kozani.MakeMSIX/FileSystemUtilities.cpp:72-84 | for a file, "package" exactly when the lower-cased extension is `.appx` or `.msix`, and "bundle" exactly for `.msixbundle` and `.appxbundle` |
| FileSystemUtilities.EndsWithMeansEquals | dev/Kozani/Microsoft.Kozani.MakeMSIX/FileSystemUtilities.cpp:75-83 | an extension holds one period, so testing it for a dotted suffix is testing it for equality |
| FileSystemUtilities.GetManifestFilePath | dev/Kozani/Microsoft.Kozani.MakeMSIX/FileSystemUtilities.cpp:87-104 | bundle types give `<p>\AppxMetadata\BundleManifest.xml`, package types `<p>\AppxManifest.xml`, an unrecognised type an invalid argument |
| FileSystemUtilities.LayoutManifestExists | dev/Kozani/Microsoft.Kozani.MakeMSIX/FileSystemUtilities.cpp:60-70 | the manifest path of a detected layout is a regular file |
| FileSystemUtilities.ManifestIsFootprint | dev/Kozani/Microsoft.Kozani.MakeMSIX/FileSystemUtilities.cpp:106-117 | a package manifest, whatever its directory, is a footprint file |
| FileSystemUtilities.FootprintFileByName | dev/Kozani/Microsoft.Kozani.MakeMSIX/FileSystemUtilities.cpp:106-117 | `IsFootprintFile` of an entry in any directory holds exactly when its lower-cased name is `appxmanifest.xml`, `appxblockmap.xml` or `appxsignature.p7x`, so neither the directory nor the case of the name matters |
| FileSystemUtilities.PackageExtensionByName | dev/Kozani/Microsoft.Kozani.MakeMSIX/FileSystemUtilities.cpp:119-129 | `IsFileWithPackageExtension` of an entry depends on its own name only, never on its directory |
| FileSystemUtilities.PackageExtensionExamples | dev/Kozani/Microsoft.Kozani.MakeMSIX/FileSystemUtilities.cpp:119-129 | `.msix` alone has no extension and `app.msixbundle` is a bundle, so neither passes; `App.MSIX` passes, because the extension is folded |
| AppxPackaging.ConvertToQuadVersion | dev/Kozani/Microsoft.Kozani.MakeMSIX/AppxPackagingUtilities.cpp:18-29 | major in bits 0-15, minor in 16-31, build in 32-47, revision in 48-63 of a 64-bit value |
| AppxPackaging.QuadVersionRoundTrip | dev/Kozani/Microsoft.Kozani.MakeMSIX/AppxPackagingUtilities.cpp:23-28 | the fields do not overlap: cutting the value back into 16-bit fields gives the four parts |
| AppxPackaging.QuadVersionRoundTripInverse | dev/Kozani/Microsoft.Kozani.MakeMSIX/AppxPackagingUtilities.cpp:23-28 | every 64-bit value is the quad version of its four fields |
| AppxPackaging.QuadVersionExample | dev/Kozani/Microsoft.Kozani.MakeMSIX/AppxPackagingUtilities.cpp:20-22 | version 4.2.5.6 becomes `0x0006000500020004` |
| AppxPackaging.QuadVersionOrder | dev/Kozani/Microsoft.Kozani.MakeMSIX/AppxPackagingUtilities.cpp:23-28 | quad versions compare as (revision, build, minor, major), lexicographically |
| AppxPackaging.GetPackageIdentityFromManifest | dev/Kozani/Microsoft.Kozani.MakeMSIX/AppxPackagingUtilities.cpp:46-87 | name, family name, full name, publisher and resource id are copied; the version is 1.1.1.0 and the architecture is Unknown, whatever the manifest says |
| AppxPackaging.IdentityIgnoresVersionAndArchitecture | dev/Kozani/Microsoft.Kozani.MakeMSIX/AppxPackagingUtilities.cpp:69-75 | two manifests that differ only in version and architecture give the same identity |
| AppxPackaging.GetPackageInformationFromPackageManifest | dev/Kozani/Microsoft.Kozani.MakeMSIX/AppxPackagingUtilities.cpp:89-98 | the information of a package is its manifest identity, with no languages and no scale factors |
| AppxPackaging.GetPackageInformationFromBundleManifest | dev/Kozani/Microsoft.Kozani.MakeMSIX/AppxPackagingUtilities.cpp:100-143 | languages and scales are appended pairwise, once per qualified resource, in enumeration order |
| AppxPackaging.ExtractBlocks | dev/Kozani/Microsoft.Kozani.MakeMSIX/AppxPackagingUtilities.cpp:164-181 | the blocks read concatenate to the stream, each is at most the block size, all but the last are full, and their number is the ceiling of size over block size |
| ContentTypes.GetContentTypeByExtension | dev/Kozani/Microsoft.Kozani.MakeMSIX/ContentType.cpp:110-117 | the table entry for a known extension, `application/octet-stream` with normal compression for any other |
| ContentTypes.LookupIsCaseSensitive | dev/Kozani/Microsoft.Kozani.MakeMSIX/ContentType.cpp:112 | `.png` is a key and `.PNG` is not |
| ContentTypes.OtherCaseGetsDefault | dev/Kozani/Microsoft.Kozani.MakeMSIX/ContentType.cpp:110-117 | `.PNG` and `.Html` get the default content type |
| ContentTypes.CompressedImagesAreStored | dev/Kozani/Microsoft.Kozani.MakeMSIX/ContentType.cpp:91-101 | `.gif`, `.jpg`, `.jpeg` and `.png` are stored without compression |
| ContentTypes.OtherImagesAreCompressed | dev/Kozani/Microsoft.Kozani.MakeMSIX/ContentType.cpp:91-101 | `.bmp`, `.svg` and `.tif` are compressed |
| ContentTypes.HtmlExtensionsShareType | dev/Kozani/Microsoft.Kozani.MakeMSIX/ContentType.cpp:67-80 | `.htm` and `.html` both map to compressed `text/html` |
| ContentTypes.SourceTextTypesAreCompressed | dev/Kozani/Microsoft.Kozani.MakeMSIX/ContentType.cpp:67-80 | the source-code and stylesheet text types are compressed |
| ContentTypes.MarkupTextTypesAreCompressed | dev/Kozani/Microsoft.Kozani.MakeMSIX/ContentType.cpp:67-80 | the markup and plain text types are compressed |
| ContentTypes.GetPayloadFileContentType | dev/Kozani/Microsoft.Kozani.MakeMSIX/ContentType.cpp:120-136 | manifest, block map and signature get their content types; any other footprint type is an invalid argument |
| ContentTypes.GetBundlePayloadFileContentType | dev/Kozani/Microsoft.Kozani.MakeMSIX/ContentType.cpp:138-154 | the same for a bundle, with the bundle manifest type; any other footprint type is an invalid argument |
| ContentTypes.PayloadContentTypeRoundTrip | dev/Kozani/Microsoft.Kozani.MakeMSIX/ContentType.cpp:120-154 | each footprint type can be read back from the content type it gets |
| ContentTypes.FootprintFileRoundTrip | dev/Kozani/Microsoft.Kozani.MakeMSIX/ContentType.cpp:120-154 | each footprint content type is the one its footprint type gets |
| ContentTypes.BundleDiffersOnlyInManifest | dev/Kozani/Microsoft.Kozani.MakeMSIX/ContentType.cpp:120-154 | bundle and package footprint types get the same content type exactly when the file is not the manifest |
| MakeMsixManager.PackArguments | dev/Kozani/Microsoft.Kozani.MakeMSIX/MakeMSIXManager.cpp:114-136 | `pack /d <dir> /p <path>`, then `/o` or `/no`, then `/nv /nfv` exactly when validation is off; switches appear only where the builder puts them |
| MakeMsixManager.PackArgumentsRoundTrip | dev/Kozani/Microsoft.Kozani.MakeMSIX/MakeMSIXManager.cpp:114-136 | the directory and all options can be read back from a pack argument list |
| MakeMsixManager.PackArgumentsAreCanonical | dev/Kozani/Microsoft.Kozani.MakeMSIX/MakeMSIXManager.cpp:114-136 | every list that reads as a pack request is the one the builder produces for it |
| MakeMsixManager.UnpackArguments | dev/Kozani/Microsoft.Kozani.MakeMSIX/MakeMSIXManager.cpp:137-154 | six elements: `unpack /p <pkg> /d <dir>` and one overwrite switch |
| MakeMsixManager.UnbundleArguments | dev/Kozani/Microsoft.Kozani.MakeMSIX/MakeMSIXManager.cpp:155-172 | six elements: `unbundle /p <bundle> /d <dir>` and one overwrite switch |
| MakeMsixManager.ExtractArgumentsRoundTrip | dev/Kozani/Microsoft.Kozani.MakeMSIX/MakeMSIXManager.cpp:137-172 | file, directory and overwrite flag can be read back from an unpack or unbundle list |
| MakeMsixManager.ExtractArgumentsAreCanonical | dev/Kozani/Microsoft.Kozani.MakeMSIX/MakeMSIXManager.cpp:137-172 | every list that reads as an unpack or unbundle request is the one built for it |
| MakeMsixManager.BundleArguments | dev/Kozani/Microsoft.Kozani.MakeMSIX/MakeMSIXManager.cpp:173-190 | `bundle /d <dir> /p <path>` and one overwrite switch, never a validation switch |
| MakeMsixManager.BundleArgumentsRoundTrip | dev/Kozani/Microsoft.Kozani.MakeMSIX/MakeMSIXManager.cpp:173-190 | directory and options can be read back from a bundle list |
| MakeMsixManager.BundleArgumentsAreCanonical | dev/Kozani/Microsoft.Kozani.MakeMSIX/MakeMSIXManager.cpp:173-190 | every list that reads as a bundle request is the one built for it |
| MakeMsixManager.MakeAppxPath | dev/Kozani/Microsoft.Kozani.MakeMSIX/MakeMSIXManager.cpp:95-99 | the launched file is `makeappx.exe`, at the relative path `bin\<version>.0\x64\makeappx.exe` under the SDK installation folder |
| MakeMsixManager.BuildCommandLine | dev/Kozani/Microsoft.Kozani.MakeMSIX/MakeMSIXManager.cpp:100-104 | the tool path followed by every argument in order, each after a single space |
| MakeMsixManager.SplitJoinRoundTrip | dev/Kozani/Microsoft.Kozani.MakeMSIX/MakeMSIXManager.cpp:100-104 | space-free parts joined by single spaces are recovered by cutting at the spaces |
| MakeMsixManager.CommandLineSeparates | dev/Kozani/Microsoft.Kozani.MakeMSIX/MakeMSIXManager.cpp:100-104 | when no part holds a space, the command line splits back into the tool path and the arguments |
| MakeMsixManager.CreateProcessAndWaitForExitCode | dev/Kozani/Microsoft.Kozani.MakeMSIX/MakeMSIXManager.cpp:18-61 | an exit code only for a process that ran to its end; a failed call gives its last error, and an abandoned or timed-out wait gives E_UNEXPECTED |
| MakeMsixManager.LaunchMakeAppxWithArguments | dev/Kozani/Microsoft.Kozani.MakeMSIX/MakeMSIXManager.cpp:63-112 | succeeds exactly when the registry reads succeed and the process exits with a code other than 1; exit code 1 alone is E_FAIL; the command line is the SDK's makeappx.exe followed by the arguments |
| MakeMsixManager.LaunchFollowsProcess | dev/Kozani/Microsoft.Kozani.MakeMSIX/MakeMSIXManager.cpp:100-111 | once the registry reads succeed, an error from starting or waiting for the process is passed on unchanged, exit code 1 gives E_FAIL, and any other exit gives the same command line whatever the code |
| MakeMsixManager.LaunchMakeAppxWithArgumentsAsWritten | dev/Kozani/Microsoft.Kozani.MakeMSIX/MakeMSIXManager.cpp:63-112 | as written, a registry status stops the launch only when it is negative, with that status as the error; when none is negative the launch behaves as the checked one with successful reads: the same command line, process error or E_FAIL |
| MakeMsixManager.MissingRegistryKeyIsIgnored | dev/Kozani/Microsoft.Kozani.MakeMSIX/MakeMSIXManager.cpp:67-92 | a missing SDK registry key (`ERROR_FILE_NOT_FOUND`) does not stop the launch as written; the checked version stops with that error |
| MakeMsixManager.ConversionKindByExtension | dev/Kozani/Microsoft.Kozani.MakeMSIX/MakeMSIXManager.cpp:303-347 | a bundle is converted exactly for `.msixbundle`/`.appxbundle`, a package exactly for `.appx`/`.msix`, compared after lower-casing |
| MakeMsixManager.CreateKozaniPackageFromPackage | dev/Kozani/Microsoft.Kozani.MakeMSIX/MakeMSIXManager.cpp:275-295 | unpack into the first temporary directory, build the layout from it into the second, pack the second into the output file, always overwriting; fails when a temporary directory cannot be created |
| MakeMsixManager.CreateKozaniPackageFromPackageAsWritten | dev/Kozani/Microsoft.Kozani.MakeMSIX/MakeMSIXManager.cpp:275-295 | as written, a failed unpack directory stops with E_UNEXPECTED, a failed layout directory reaches the layout step and stops there with E_INVALIDARG, and with both directories the plan is the checked one |
| MakeMsixManager.LayoutDirectoryFailureMisreported | dev/Kozani/Microsoft.Kozani.MakeMSIX/MakeMSIXManager.cpp:286-287 | as written, a layout directory that cannot be created is reported as E_INVALIDARG by the layout step; checked, it is E_UNEXPECTED |
| MakeMsixManager.PackageChildren | dev/Kozani/Microsoft.Kozani.MakeMSIX/MakeMSIXManager.cpp:320-336 | the unbundled files converted are exactly those with a package extension |
| MakeMsixManager.PackageChildrenAppend | dev/Kozani/Microsoft.Kozani.MakeMSIX/MakeMSIXManager.cpp:320-336 | filtering a concatenation of listings is concatenating the filtered parts, so the packages keep the listing order |
| MakeMsixManager.BundleChildrenAreThePackages | dev/Kozani/Microsoft.Kozani.MakeMSIX/MakeMSIXManager.cpp:320-336 | skipping inside the loop is converting the filtered list, in order |
| MakeMsixManager.CreateKozaniPackage | dev/Kozani/Microsoft.Kozani.MakeMSIX/MakeMSIXManager.cpp:297-350 | an unrecognised file does nothing; a package is converted directly; a bundle succeeds exactly when both bundle directories exist and every package in it converts, and is then unbundled first, its packages converted in order, and the results bundled into the output file last; every makeappx run overwrites |

## Left out

- Reading and writing files, the XML parser and serializer, XPath evaluation in general, COM,
  the OPC stream API, process creation, the registry and temporary-directory creation. Their
  results are parameters: a parsed tree, a PRI dump, file-system sets, a `ProcessOutcome`, a
  `RegistryRead`, an `Option` directory.
- The MRM indexer itself (creating the resource file, dumping a PRI). Its calls are a log.
- `PackageFamilyNameFromId` is a function parameter, because the family-name hash is Windows
  code that is not part of this model.
- The option classes, the command-line front end, progress reporting, the mountable-image and
  add-to-image operations, and the tests are not part of this model. Operations that return
  E_NOTIMPL are left out too.
- Removing nodes from a live DOM node list is modelled as a filter over the children.
- The XML DOM accepts every attribute name and value. Candidate `Value` nodes and `uri`
  attributes are taken to be present in the dump. Only the missing `ScoreAsDefault` is modelled
  as a null dereference.
- Text.Lower folds ASCII letters only, because `towlower` depends on the locale.
- PriReindexer.CreateKozaniResourcePri: indexer calls never fail, since the MRM functions are
  not modelled. The second dump of the debug build is left out.
- PackageLayout.CreateKozaniPackageLayout: `create_directories` throwing is left out.
- AppxPackaging.ExtractBlocks: `DefaultBlockSize` is a positive parameter, because its
  definition is not part of this model. Stream read and write failures are left out.
- AppxPackaging.ConvertToQuadVersion: the result is stated with `+` and multiplication rather
  than shifts and `|`. QuadVersionRoundTrip shows the fields do not overlap, which is why the
  two agree.
- ContentTypes.GetContentTypeByExtension: the table's properties are stated for the named
  extensions, not quantified over all strings, because a symbolic lookup over the 88-entry table
  is too expensive to verify.
- MakeMsixManager.CreateKozaniPackage: the plans list the makeappx runs and layout builds in
  order; whether each run succeeds is not threaded through. Arguments are not quoted on the
  command line, as in the source; CommandLineSeparates names the case where that is harmless.
- MakeMsixManager.CreateKozaniPackage: each package, alone or inside a bundle, goes through the
  checked CreateKozaniPackageFromPackage, while lines 335 and 346 of MakeMSIXManager.cpp call the
  unchecked one. The two differ only when a layout directory cannot be created: then the source
  reports E_INVALIDARG, not E_UNEXPECTED (LayoutDirectoryFailureMisreported).
- PackageLayout.ReindexManifest: the required files are tied to the manifest through
  CreateKozaniResourcePri's bounds, not restated in ReindexManifest's own contract.
- The GUID that names a temporary directory is part of the `TemporaryDirectories` input.

## Findings

| source | as written | input that shows it | evidently intended | confidence | as-written member | corrected member |
|---|---|---|---|---|---|---|
| dev/Kozani/Microsoft.Kozani.MakeMSIX/MakeMSIXManager.cpp:67-92 | the registry calls return a Win32 status (`LSTATUS`), which is passed to `RETURN_IF_FAILED`; that macro fires only on negative values | `RegOpenKeyEx` returns `ERROR_FILE_NOT_FOUND` (2) because no Windows SDK is installed | a Win32 check, for example converting the status with `HRESULT_FROM_WIN32`, so the launch stops with that error | not executed | MakeMsixManager.LaunchMakeAppxWithArgumentsAsWritten, MakeMsixManager.MissingRegistryKeyIsIgnored | MakeMsixManager.LaunchMakeAppxWithArguments |
| dev/Kozani/Microsoft.Kozani.MakeMSIX/MakeMSIXManager.cpp:286-287 | the result of `CreateTempDirectory` for the layout directory is not checked, unlike the unpack directory's; the empty path then reaches `CreateKozaniPackageLayout`, whose directory check rejects it | the second temporary directory cannot be created | a check of the result, as for the first directory, so the failure is reported as E_UNEXPECTED and not as an invalid argument of the layout step | not executed | MakeMsixManager.CreateKozaniPackageFromPackageAsWritten, MakeMsixManager.LayoutDirectoryFailureMisreported | MakeMsixManager.CreateKozaniPackageFromPackage |

=== FILE: appx_packaging.dfy ===
/** Package identity and version helpers, bundle resource accumulation and the block-wise
    extraction of a package file. The packaging API readers and streams become plain values. */
module AppxPackaging {

  newtype uint16 = x: int | 0 <= x < 0x1_0000
  newtype uint32 = x: int | 0 <= x < 0x1_0000_0000
  newtype uint64 = x: int | 0 <= x < 0x1_0000_0000_0000_0000
  newtype byte = x: int | 0 <= x < 0x100

  /** One 16-bit word of a quad version. */
  const WordSize: int := 0x1_0000

  /** `Windows::ApplicationModel::PackageVersion`. */
  datatype PackageVersion = PackageVersion(major: uint16, minor: uint16, build: uint16, revision: uint16)

  /** One step of packing: `high` shifted up by one word, `low` in the freed word. */
  function Pack(high: int, low: uint16): int
  {
    high * WordSize + low as int
  }

  lemma PackBound(high: int, low: uint16, bound: int)
    requires 0 <= high < bound
    ensures 0 <= Pack(high, low) < bound * WordSize
  {
  }

  /** Packing keeps both halves: the low word is the remainder and the high part the quotient. */
  lemma PackUnpack(high: int, low: uint16)
    requires 0 <= high
    ensures Pack(high, low) % WordSize == low as int && Pack(high, low) / WordSize == high
  {
  }

  /** Packing orders by the high part first, then by the low word. */
  lemma PackOrder(high1: int, low1: uint16, high2: int, low2: uint16)
    ensures Pack(high1, low1) < Pack(high2, low2) <==> high1 < high2 || (high1 == high2 && low1 < low2)
  {
  }

  /** The source's `ConvertToQuadVersion`: the major version in bits 0-15, minor in 16-31,
      build in 32-47 and revision in 48-63. */
  function ConvertToQuadVersion(v: PackageVersion): (q: uint64)
    ensures q as int == v.revision as int * 0x1_0000_0000_0000 + v.build as int * 0x1_0000_0000
                        + v.minor as int * 0x1_0000 + v.major as int
  {
    PackBound(v.revision as int, v.build, WordSize);
    PackBound(Pack(v.revision as int, v.build), v.minor, WordSize * WordSize);
    PackBound(Pack(Pack(v.revision as int, v.build), v.minor), v.major, WordSize * WordSize * WordSize);
    Pack(Pack(Pack(v.revision as int, v.build), v.minor), v.major) as uint64
  }

  /** Reading the four words back out of a quad version. */
  function DecodeQuadVersion(q: uint64): PackageVersion
  {
    var n := q as int;
    PackageVersion((n % WordSize) as uint16,
                   (n / WordSize % WordSize) as uint16,
                   (n / WordSize / WordSize % WordSize) as uint16,
                   (n / WordSize / WordSize / WordSize) as uint16)
  }

  /** The fields never overlap: every version comes back unchanged from its quad version. */
  lemma {:induction false} QuadVersionRoundTrip(v: PackageVersion)
    ensures DecodeQuadVersion(ConvertToQuadVersion(v)) == v
  {
    var high := Pack(v.revision as int, v.build);
    var middle := Pack(high, v.minor);
    PackUnpack(middle, v.major);
    PackUnpack(high, v.minor);
    PackUnpack(v.revision as int, v.build);
  }

  /** ... and every 64-bit value is the quad version of its decoding, so the encoding is a bijection. */
  lemma {:induction false} QuadVersionRoundTripInverse(q: uint64)
    ensures ConvertToQuadVersion(DecodeQuadVersion(q)) == q
  {
    var n := q as int;
    var v := DecodeQuadVersion(q);
    assert n == Pack(n / WordSize, v.major);
    assert n / WordSize == Pack(n / WordSize / WordSize, v.minor);
    assert n / WordSize / WordSize == Pack(n / WordSize / WordSize / WordSize, v.build);
  }

  /** The worked example of the source: version 4.2.5.6 is 0x0006000500020004. */
  lemma QuadVersionExample()
    ensures ConvertToQuadVersion(PackageVersion(4, 2, 5, 6)) == 0x0006_0005_0002_0004
  {
  }

  /** Quad versions compare by revision first, then build, minor and major. */
  lemma {:induction false} QuadVersionOrder(a: PackageVersion, b: PackageVersion)
    ensures ConvertToQuadVersion(a) < ConvertToQuadVersion(b) <==>
              || a.revision < b.revision
              || (a.revision == b.revision && a.build < b.build)
              || (a.revision == b.revision && a.build == b.build && a.minor < b.minor)
              || (a.revision == b.revision && a.build == b.build && a.minor == b.minor && a.major < b.major)
  {
    var ha := Pack(a.revision as int, a.build);
    var hb := Pack(b.revision as int, b.build);
    PackOrder(Pack(ha, a.minor), a.major, Pack(hb, b.minor), b.major);
    PackOrder(ha, a.minor, hb, b.minor);
    PackOrder(a.revision as int, a.build, b.revision as int, b.build);
  }

  // ---------------------------------------------------------------------------------------------
  // Identity

  /** `Windows::System::ProcessorArchitecture`. */
  datatype ProcessorArchitecture = X86 | Arm | X64 | Neutral | Arm64 | X86OnArm64 | Unknown

  /** What the manifest reader reports about a package id. */
  datatype ManifestPackageId = ManifestPackageId(
    name: string, familyName: string, fullName: string, publisher: string, resourceId: string,
    version: uint64, architecture: ProcessorArchitecture)

  /** The identity handed back to callers. */
  datatype PackageIdentity = PackageIdentity(
    name: string, familyName: string, fullName: string, publisher: string, resourceId: string,
    version: PackageVersion, architecture: ProcessorArchitecture)

  /** The version every identity carries, whatever the manifest says. */
  const IdentityVersion: PackageVersion := PackageVersion(1, 1, 1, 0)

  /** The source's `GetPackageIdentityFromManifest`: the names are copied, the version is fixed at
      1.1.1.0 and the architecture is Unknown. */
  function GetPackageIdentityFromManifest(id: ManifestPackageId): (r: PackageIdentity)
    ensures r.name == id.name && r.familyName == id.familyName && r.fullName == id.fullName
    ensures r.publisher == id.publisher && r.resourceId == id.resourceId
    ensures r.version == IdentityVersion && r.architecture == Unknown
  {
    PackageIdentity(id.name, id.familyName, id.fullName, id.publisher, id.resourceId, IdentityVersion, Unknown)
  }

  /** The manifest's version and architecture never reach the identity. */
  lemma IdentityIgnoresVersionAndArchitecture(a: ManifestPackageId, b: ManifestPackageId)
    requires a.(version := b.version, architecture := b.architecture) == b
    ensures GetPackageIdentityFromManifest(a) == GetPackageIdentityFromManifest(b)
  {
  }

  // ---------------------------------------------------------------------------------------------
  // Package information

  /** One qualified resource of a bundled package. */
  datatype QualifiedResource = QualifiedResource(language: string, scale: uint32)

  /** `PackageInformation`: an identity with the languages and scale factors of a bundle. */
  datatype PackageInformation = PackageInformation(identity: PackageIdentity, languages: seq<string>, scaleFactors: seq<uint32>)

  /** The source's `GetPackageInformationFromPackageManifest`: the identity, no languages or scales. */
  function GetPackageInformationFromPackageManifest(id: ManifestPackageId): (r: PackageInformation)
    ensures r.identity == GetPackageIdentityFromManifest(id)
    ensures r.languages == [] && r.scaleFactors == []
  {
    PackageInformation(GetPackageIdentityFromManifest(id), [], [])
  }

  /** All qualified resources of all bundled packages, in enumeration order. */
  function Flatten(packages: seq<seq<QualifiedResource>>): seq<QualifiedResource>
  {
    if |packages| == 0 then [] else Flatten(packages[..|packages| - 1]) + packages[|packages| - 1]
  }

  /** The languages and scales hold, position by position, the fields of the same resource. */
  predicate Paired(languages: seq<string>, scales: seq<uint32>, resources: seq<QualifiedResource>)
  {
    && |languages| == |resources| && |scales| == |resources|
    && forall k :: 0 <= k < |resources| ==> languages[k] == resources[k].language && scales[k] == resources[k].scale
  }

  lemma PairedAppend(languages: seq<string>, scales: seq<uint32>, resources: seq<QualifiedResource>, r: QualifiedResource)
    requires Paired(languages, scales, resources)
    ensures Paired(languages + [r.language], scales + [r.scale], resources + [r])
  {
  }

  /** The source's `GetPackageInformationFromBundleManifest`: for every package of the bundle and
      every qualified resource of that package, its language and its scale are appended. */
  method GetPackageInformationFromBundleManifest(packages: seq<seq<QualifiedResource>>, id: ManifestPackageId)
    returns (info: PackageInformation)
    ensures info.identity == GetPackageIdentityFromManifest(id)
    ensures Paired(info.languages, info.scaleFactors, Flatten(packages))
  {
    var languages: seq<string> := [];
    var scales: seq<uint32> := [];
    var i := 0;
    while i < |packages|
      invariant 0 <= i <= |packages|
      invariant Paired(languages, scales, Flatten(packages[..i]))
    {
      var resources := packages[i];
      var j := 0;
      while j < |resources|
        invariant 0 <= j <= |resources|
        invariant Paired(languages, scales, Flatten(packages[..i]) + resources[..j])
      {
        PairedAppend(languages, scales, Flatten(packages[..i]) + resources[..j], resources[j]);
        assert resources[..j + 1] == resources[..j] + [resources[j]];
        languages := languages + [resources[j].language];
        scales := scales + [resources[j].scale];
        j := j + 1;
      }
      assert packages[..i + 1][..i] == packages[..i];
      assert resources[..j] == resources;
      i := i + 1;
    }
    assert packages[..i] == packages;
    info := PackageInformation(GetPackageIdentityFromManifest(id), languages, scales);
  }

  // ---------------------------------------------------------------------------------------------
  // Extraction

  /** The blocks, written one after the other. */
  function Concat(blocks: seq<seq<byte>>): seq<byte>
  {
    if |blocks| == 0 then [] else Concat(blocks[..|blocks| - 1]) + blocks[|blocks| - 1]
  }

  /** Every block holds between one and `size` bytes, and all but the last hold exactly `size`. */
  predicate WellCut(blocks: seq<seq<byte>>, size: int)
  {
    && (forall k :: 0 <= k < |blocks| ==> 0 < |blocks[k]| <= size)
    && (forall k :: 0 <= k < |blocks| - 1 ==> |blocks[k]| == size)
  }

  lemma WellCutAppend(blocks: seq<seq<byte>>, size: int, block: seq<byte>)
    requires WellCut(blocks, size) && 0 < |block| <= size
    requires |blocks| > 0 ==> |blocks[|blocks| - 1]| == size
    ensures WellCut(blocks + [block], size)
  {
  }

  /** The state of the extraction loop with `left` bytes still to read: the blocks so far are
      the content read, all full while bytes remain, and rounded up once nothing is left. */
  predicate Extracting(content: seq<byte>, size: int, blocks: seq<seq<byte>>, left: int)
  {
    && 0 <= left <= |content|
    && Concat(blocks) == content[..|content| - left]
    && WellCut(blocks, size)
    && (left > 0 && |blocks| > 0 ==> |blocks[|blocks| - 1]| == size)
    && (left > 0 ==> |content| - left == |blocks| * size)
    && (left == 0 ==> (|blocks| - 1) * size < |content| <= |blocks| * size)
  }

  /** Before the loop nothing is read. */
  lemma ExtractStart(content: seq<byte>, size: int)
    requires size > 0
    ensures Extracting(content, size, [], |content|)
  {
    assert content[..0] == [];
  }

  /** Reading one more block keeps the loop's state. */
  lemma ExtractStep(content: seq<byte>, size: int, blocks: seq<seq<byte>>, left: int, count: int, block: seq<byte>)
    requires size > 0 && left > 0 && Extracting(content, size, blocks, left)
    requires count == if left > size then size else left
    requires block == content[|content| - left..|content| - left + count]
    ensures Extracting(content, size, blocks + [block], left - count)
  {
    var done := |content| - left;
    ConcatAppend(blocks, block);
    assert content[..done + count] == content[..done] + block;
    BlockStep(|blocks|, size, |content|, left, count);
    WellCutAppend(blocks, size, block);
  }

  /** The loop of the source's `ExtractAppxFileToDirectory`: the stream is read in blocks of
      `blockSize` bytes (`DefaultBlockSize`), the last one shorter, and every block is written. */
  method ExtractBlocks(content: seq<byte>, blockSize: uint32) returns (blocks: seq<seq<byte>>)
    requires blockSize > 0
    ensures Concat(blocks) == content
    ensures forall k :: 0 <= k < |blocks| ==> 0 < |blocks[k]| <= blockSize as int
    ensures forall k :: 0 <= k < |blocks| - 1 ==> |blocks[k]| == blockSize as int
    ensures (|blocks| - 1) * blockSize as int < |content| <= |blocks| * blockSize as int
  {
    var size := blockSize as int;
    var bytesToRead := |content|;
    var done := 0;
    blocks := [];
    ExtractStart(content, size);
    while bytesToRead > 0
      invariant done == |content| - bytesToRead
      invariant Extracting(content, size, blocks, bytesToRead)
      decreases bytesToRead
    {
      var count := if bytesToRead > size then size else bytesToRead;
      var block := content[done..done + count];
      ExtractStep(content, size, blocks, bytesToRead, count, block);
      blocks := blocks + [block];
      bytesToRead := bytesToRead - count;
      done := done + count;
    }
    ExtractDone(content, size, blocks);
  }

  /** Once nothing is left to read, the blocks are the content, cut into rounded-up full blocks. */
  lemma ExtractDone(content: seq<byte>, size: int, blocks: seq<seq<byte>>)
    requires Extracting(content, size, blocks, 0)
    ensures Concat(blocks) == content
    ensures forall k :: 0 <= k < |blocks| ==> 0 < |blocks[k]| <= size
    ensures forall k :: 0 <= k < |blocks| - 1 ==> |blocks[k]| == size
    ensures (|blocks| - 1) * size < |content| <= |blocks| * size
  {
    assert content[..|content|] == content;
  }

  lemma ConcatAppend(blocks: seq<seq<byte>>, block: seq<byte>)
    ensures Concat(blocks + [block]) == Concat(blocks) + block
  {
    assert (blocks + [block])[..|blocks|] == blocks;
  }

  /** The arithmetic of one block: after it, either the blocks so far are all full, or the
      content is used up and the block count is the rounded-up quotient. */
  lemma BlockStep(full: nat, size: int, total: int, left: int, count: int)
    requires size > 0 && 0 < left && total - left == full * size
    requires count == if left > size then size else left
    ensures left - count > 0 ==> total - (left - count) == (full + 1) * size
    ensures left - count == 0 ==> full * size < total <= (full + 1) * size
  {
    assert (full + 1) * size == full * size + size;
  }
}

=== FILE: constants.dfy ===
/** The fixed names, schemes and query paths shared by the Kozani components. */
module Constants {
  import opened Outcomes
  import Xml

  const ManifestFileName: string := "AppxManifest.xml"
  const ResourcesPriFileName: string := "resources.pri"
  const MsResourceScheme: string := "ms-resource:"
  const MsResourceFileUriPath: string := "Files"
  const MsResourceResourceUriPath: string := "Resources"
  const PriPathCandidateTypeName: string := "Path"
  const PriStringCandidateTypeName: string := "String"
  const PriDefaultQualifierScore: string := "1.0"
  const ManifestUap10Namespace: string := "http://schemas.microsoft.com/appx/manifest/uap/windows10/10"
  const ManifestKozaniHostRuntime: string := "KozaniHostRuntime"

  /** `Package/Identity/@Name`. */
  const PackageIdentityNameQuery: Xml.Query := Xml.Query(["Package", "Identity"], Some("Name"))
  /** `Package/Identity/@Publisher`. */
  const PackageIdentityPublisherQuery: Xml.Query := Xml.Query(["Package", "Identity"], Some("Publisher"))
}

=== FILE: content_type.dfy ===
/** The MIME content type and compression option a file gets inside a package, and the content
    types of the footprint files of packages and bundles. */
module ContentTypes {
  import opened Outcomes

  /** `APPX_COMPRESSION_OPTION`, the two values the table uses. */
  datatype CompressionOption = NoCompression | Normal

  /** A MIME content type with its compression option. */
  datatype ContentType = ContentType(mime: string, compression: CompressionOption)

  /** The table of well-known extensions: an exact match on the lower-case dotted extension. */
  function WellKnownContentType(ext: string): Option<ContentType>
  {
    match ext
      // Application types
      case ".atom" => Some(ContentType("application/atom+xml", Normal))
      case ".appx" => Some(ContentType("application/vnd.ms-appx", NoCompression))
      case ".b64" => Some(ContentType("application/base64", Normal))
      case ".cab" => Some(ContentType("application/vnd.ms-cab-compressed", NoCompression))
      case ".doc" => Some(ContentType("application/msword", Normal))
      case ".dot" => Some(ContentType("application/msword", Normal))
      case ".docm" => Some(ContentType("application/vnd.ms-word.document.macroenabled.12", NoCompression))
      case ".docx" => Some(ContentType("application/vnd.openxmlformats-officedocument.wordprocessingml.document", NoCompression))
      case ".dotm" => Some(ContentType("application/vnd.ms-word.document.macroenabled.12", NoCompression))
      case ".dotx" => Some(ContentType("application/vnd.openxmlformats-officedocument.wordprocessingml.document", NoCompression))
      case ".dll" => Some(ContentType("application/x-msdownload", Normal))
      case ".dtd" => Some(ContentType("application/xml-dtd", Normal))
      case ".exe" => Some(ContentType("application/x-msdownload", Normal))
      case ".gz" => Some(ContentType("application/x-gzip-compressed", NoCompression))
      case ".java" => Some(ContentType("application/java", Normal))
      case ".json" => Some(ContentType("application/json", Normal))
      case ".p7s" => Some(ContentType("application/x-pkcs7-signature", Normal))
      case ".pdf" => Some(ContentType("application/pdf", Normal))
      case ".ps" => Some(ContentType("application/postscript", Normal))
      case ".potm" => Some(ContentType("application/vnd.ms-powerpoint.template.macroenabled.12", NoCompression))
      case ".potx" => Some(ContentType("application/vnd.openxmlformats-officedocument.presentationml.template", NoCompression))
      case ".ppam" => Some(ContentType("application/vnd.ms-powerpoint.addin.macroenabled.12", NoCompression))
      case ".ppsm" => Some(ContentType("application/vnd.ms-powerpoint.slideshow.macroenabled.12", NoCompression))
      case ".ppsx" => Some(ContentType("application/vnd.openxmlformats-officedocument.presentationml.slideshow", NoCompression))
      case ".ppt" => Some(ContentType("application/vnd.ms-powerpoint", Normal))
      case ".pot" => Some(ContentType("application/vnd.ms-powerpoint", Normal))
      case ".pps" => Some(ContentType("application/vnd.ms-powerpoint", Normal))
      case ".ppa" => Some(ContentType("application/vnd.ms-powerpoint", Normal))
      case ".pptm" => Some(ContentType("application/vnd.ms-powerpoint.presentation.macroenabled.12", NoCompression))
      case ".pptx" => Some(ContentType("application/vnd.openxmlformats-officedocument.presentationml.presentation", NoCompression))
      case ".rar" => Some(ContentType("application/x-rar-compressed", NoCompression))
      case ".rss" => Some(ContentType("application/rss+xml", Normal))
      case ".soap" => Some(ContentType("application/soap+xml", Normal))
      case ".tar" => Some(ContentType("application/x-tar", NoCompression))
      case ".xaml" => Some(ContentType("application/xaml+xml", Normal))
      case ".xap" => Some(ContentType("application/x-silverlight-app", NoCompression))
      case ".xbap" => Some(ContentType("application/x-ms-xbap", Normal))
      case ".xhtml" => Some(ContentType("application/xhtml+xml", Normal))
      case ".xlam" => Some(ContentType("application/vnd.ms-excel.addin.macroenabled.12", NoCompression))
      case ".xls" => Some(ContentType("application/vnd.ms-excel", Normal))
      case ".xlt" => Some(ContentType("application/vnd.ms-excel", Normal))
      case ".xla" => Some(ContentType("application/vnd.ms-excel", Normal))
      case ".xlsb" => Some(ContentType("application/vnd.ms-excel.sheet.binary.macroEnabled.12", NoCompression))
      case ".xlsm" => Some(ContentType("application/vnd.ms-excel.sheet.macroEnabled.12", NoCompression))
      case ".xlsx" => Some(ContentType("application/vnd.openxmlformats-officedocument.spreadsheetml.sheet", NoCompression))
      case ".xltm" => Some(ContentType("application/vnd.ms-excel.template.macroEnabled.12", NoCompression))
      case ".xltx" => Some(ContentType("application/vnd.openxmlformats-officedocument.spreadsheetml.template", NoCompression))
      case ".xsl" => Some(ContentType("application/xslt+xml", Normal))
      case ".xslt" => Some(ContentType("application/xslt+xml", Normal))
      case ".zip" => Some(ContentType("application/x-zip-compressed", NoCompression))
      // Text types
      case ".c" => Some(ContentType("text/plain", Normal))
      case ".cpp" => Some(ContentType("text/plain", Normal))
      case ".cs" => Some(ContentType("text/plain", Normal))
      case ".css" => Some(ContentType("text/css", Normal))
      case ".csv" => Some(ContentType("text/csv", Normal))
      case ".h" => Some(ContentType("text/plain", Normal))
      case ".htm" => Some(ContentType("text/html", Normal))
      case ".html" => Some(ContentType("text/html", Normal))
      case ".js" => Some(ContentType("application/x-javascript", Normal))
      case ".rtf" => Some(ContentType("text/richtext", Normal))
      case ".sct" => Some(ContentType("text/scriptlet", Normal))
      case ".txt" => Some(ContentType("text/plain", Normal))
      case ".xml" => Some(ContentType("text/xml", Normal))
      case ".xsd" => Some(ContentType("text/xml", Normal))
      // Audio types
      case ".aiff" => Some(ContentType("audio/x-aiff", Normal))
      case ".au" => Some(ContentType("audio/basic", Normal))
      case ".m4a" => Some(ContentType("audio/mp4", NoCompression))
      case ".mid" => Some(ContentType("audio/mid", Normal))
      case ".mp3" => Some(ContentType("audio/mpeg", NoCompression))
      case ".smf" => Some(ContentType("audio/mid", Normal))
      case ".wav" => Some(ContentType("audio/wav", Normal))
      case ".wma" => Some(ContentType("audio/x-ms-wma", NoCompression))
      // Image types
      case ".bmp" => Some(ContentType("image/bmp", Normal))
      case ".emf" => Some(ContentType("image/x-emf", Normal))
      case ".gif" => Some(ContentType("image/gif", NoCompression))
      case ".ico" => Some(ContentType("image/vnd.microsoft.icon", Normal))
      case ".jpg" => Some(ContentType("image/jpeg", NoCompression))
      case ".jpeg" => Some(ContentType("image/jpeg", NoCompression))
      case ".png" => Some(ContentType("image/png", NoCompression))
      case ".svg" => Some(ContentType("image/svg+xml", Normal))
      case ".tif" => Some(ContentType("image/tiff", Normal))
      case ".tiff" => Some(ContentType("image/tiff", Normal))
      case ".wmf" => Some(ContentType("image/x-wmf", Normal))
      // Video types
      case ".avi" => Some(ContentType("video/avi", NoCompression))
      case ".mpeg" => Some(ContentType("video/mpeg", NoCompression))
      case ".mpg" => Some(ContentType("video/mpeg", NoCompression))
      case ".mov" => Some(ContentType("video/quicktime", NoCompression))
      case ".wmv" => Some(ContentType("video/x-ms-wmv", NoCompression))
      case _ => None
  }

  /** What a file whose extension is not in the table gets. */
  const DefaultContentType: ContentType := ContentType("application/octet-stream", Normal)

  /** The source's `GetContentTypeByExtension`: the table's entry, or the default for a miss. */
  function GetContentTypeByExtension(ext: string): (r: ContentType)
    ensures WellKnownContentType(ext).None? ==> r == DefaultContentType
    ensures WellKnownContentType(ext).Some? ==> r == WellKnownContentType(ext).value
  {
    WellKnownContentType(ext).GetOr(DefaultContentType)
  }

  /** The lookup does not fold case, so upper-case spellings of listed extensions get the default. */
  lemma LookupIsCaseSensitive()
    ensures WellKnownContentType(".png").Some? && WellKnownContentType(".PNG").None?
  {
  }

  /** An extension spelled in another case than the table's falls back to the default. */
  lemma OtherCaseGetsDefault()
    ensures GetContentTypeByExtension(".PNG") == DefaultContentType
    ensures GetContentTypeByExtension(".Html") == DefaultContentType
  {
  }

  /** Images that are already compressed are stored as they are. */
  lemma CompressedImagesAreStored()
    ensures forall ext :: ext in [".gif", ".jpg", ".jpeg", ".png"] ==>
              WellKnownContentType(ext).Some? && GetContentTypeByExtension(ext).compression == NoCompression
  {
  }

  /** Other images are compressed. */
  lemma OtherImagesAreCompressed()
    ensures forall ext :: ext in [".bmp", ".svg", ".tif"] ==>
              WellKnownContentType(ext).Some? && GetContentTypeByExtension(ext).compression == Normal
  {
  }

  /** Both HTML extensions share the `text/html` type. */
  lemma HtmlExtensionsShareType()
    ensures GetContentTypeByExtension(".htm") == GetContentTypeByExtension(".html") == ContentType("text/html", Normal)
  {
  }

  /** Every extension of the text group is compressed. */
  lemma SourceTextTypesAreCompressed()
    ensures forall ext :: ext in [".c", ".cpp", ".cs", ".css", ".csv", ".h", ".htm"] ==>
              WellKnownContentType(ext).Some? && GetContentTypeByExtension(ext).compression == Normal
  {
  }

  /** ... and so is the rest of it. */
  lemma MarkupTextTypesAreCompressed()
    ensures forall ext :: ext in [".html", ".js", ".rtf", ".sct", ".txt", ".xml", ".xsd"] ==>
              WellKnownContentType(ext).Some? && GetContentTypeByExtension(ext).compression == Normal
  {
  }

  // ---------------------------------------------------------------------------------------------
  // Footprint files

  /** `APPX_FOOTPRINT_FILE_TYPE` and `APPX_BUNDLE_FOOTPRINT_FILE_TYPE` share these three values;
      the package enumeration has more (code integrity 3, content group map 4). */
  const FootprintManifest: int := 0
  const FootprintBlockMap: int := 1
  const FootprintSignature: int := 2

  const ManifestContentType: string := "application/vnd.ms-appx.manifest+xml"
  const BundleManifestContentType: string := "application/vnd.ms-appx.bundlemanifest+xml"
  const BlockMapContentType: string := "application/vnd.ms-appx.blockmap+xml"
  const SignatureContentType: string := "application/vnd.ms-appx.signature"

  /** The source's `GetPayloadFileContentType`: the manifest, block map and signature have a
      content type; any other footprint file is an invalid argument. */
  function GetPayloadFileContentType(footprintFile: int): (r: Result<string>)
    ensures r.Ok? <==> 0 <= footprintFile <= 2
    ensures r.Err? ==> r.error == InvalidArgument
  {
    if footprintFile == FootprintManifest then Ok(ManifestContentType)
    else if footprintFile == FootprintBlockMap then Ok(BlockMapContentType)
    else if footprintFile == FootprintSignature then Ok(SignatureContentType)
    else Err(InvalidArgument)
  }

  /** The source's `GetBundlePayloadFileContentType`: as for a package, with the bundle manifest's
      own content type. */
  function GetBundlePayloadFileContentType(footprintFile: int): (r: Result<string>)
    ensures r.Ok? <==> 0 <= footprintFile <= 2
    ensures r.Err? ==> r.error == InvalidArgument
  {
    if footprintFile == FootprintManifest then Ok(BundleManifestContentType)
    else if footprintFile == FootprintBlockMap then Ok(BlockMapContentType)
    else if footprintFile == FootprintSignature then Ok(SignatureContentType)
    else Err(InvalidArgument)
  }

  /** Which footprint file a content type belongs to, in a package or in a bundle. */
  function FootprintFileOf(contentType: string, bundle: bool): Option<int>
  {
    if contentType == (if bundle then BundleManifestContentType else ManifestContentType) then Some(FootprintManifest)
    else if contentType == BlockMapContentType then Some(FootprintBlockMap)
    else if contentType == SignatureContentType then Some(FootprintSignature)
    else None
  }

  /** Distinct footprint files get distinct content types: the footprint file can be read back. */
  lemma PayloadContentTypeRoundTrip(footprintFile: int, bundle: bool)
    ensures var r := if bundle then GetBundlePayloadFileContentType(footprintFile) else GetPayloadFileContentType(footprintFile);
            r.Ok? ==> FootprintFileOf(r.value, bundle) == Some(footprintFile)
  {
  }

  /** ... and every content type that names a footprint file is the one that file gets. */
  lemma FootprintFileRoundTrip(contentType: string, bundle: bool)
    requires FootprintFileOf(contentType, bundle).Some?
    ensures var t := FootprintFileOf(contentType, bundle).value;
            (if bundle then GetBundlePayloadFileContentType(t) else GetPayloadFileContentType(t)) == Ok(contentType)
  {
  }

  /** A bundle's footprint files get the package's content types, except for the manifest. */
  lemma BundleDiffersOnlyInManifest(footprintFile: int)
    ensures GetBundlePayloadFileContentType(footprintFile) == GetPayloadFileContentType(footprintFile)
            <==> footprintFile != FootprintManifest
  {
  }
}

=== FILE: file_system.dfy ===
/** Package-kind detection from a path and the few path questions the tool asks. Paths are
    Windows paths held as strings; the file system is a parameter listing what exists. */
module FileSystemUtilities {
  import opened Outcomes
  import opened Text
  import opened Constants

  /** The kinds of input the tool accepts. */
  datatype PackageType = Unrecognized | LayoutBundleDirectory | LayoutPackageDirectory | Bundle | Package

  /** The part of the file system the detection looks at. */
  datatype FileSystem = FileSystem(directories: set<string>, regularFiles: set<string>)

  const BundleManifestRelativePath: string := "AppxMetadata\\BundleManifest.xml"

  predicate IsSeparator(c: char)
  {
    c == '\\' || c == '/'
  }

  /** `path / name` for a relative `name`: one separator between them unless `path` already ends
      in one or is empty. A bare drive such as `C:` also gets the separator here, where
      `std::filesystem` would give the drive-relative `C:name`; the tool only appends to
      directories it created or was given as full paths. */
  function AppendPath(path: string, name: string): string
  {
    if |path| == 0 then name
    else if IsSeparator(path[|path| - 1]) then path + name
    else path + "\\" + name
  }

  /** `path::filename`: the longest suffix without a separator. */
  function FileName(path: string): (r: string)
    ensures |r| <= |path| && r == path[|path| - |r|..]
    ensures forall i :: 0 <= i < |r| ==> !IsSeparator(r[i])
    ensures |r| < |path| ==> IsSeparator(path[|path| - |r| - 1])
  {
    if |path| == 0 || IsSeparator(path[|path| - 1]) then ""
    else FileName(path[..|path| - 1]) + [path[|path| - 1]]
  }

  /** The position of the last `c` in `s`. */
  function LastIndexOf(s: string, c: char): (r: Option<nat>)
    ensures r.Some? ==> r.value < |s| && s[r.value] == c && forall j :: r.value < j < |s| ==> s[j] != c
    ensures r.None? ==> forall j :: 0 <= j < |s| ==> s[j] != c
  {
    if |s| == 0 then None
    else if s[|s| - 1] == c then Some(|s| - 1)
    else LastIndexOf(s[..|s| - 1], c)
  }

  /** `path::extension`: the file name from its last period on, or "" when there is no period,
      the only period leads the name, or the name is `.` or `..`. */
  function Extension(path: string): string
  {
    NameExtension(FileName(path))
  }

  /** The extension of a file name. */
  function NameExtension(name: string): string
  {
    if name == "." || name == ".." then ""
    else
      match LastIndexOf(name, '.')
      case None => ""
      case Some(i) => if i > 0 then name[i..] else ""
  }

  /** An extension is empty or one period followed by a period-free, separator-free rest. */
  predicate IsExtensionShaped(e: string)
  {
    e == "" || (e[0] == '.' && forall j :: 1 <= j < |e| ==> e[j] != '.' && !IsSeparator(e[j]))
  }

  lemma ExtensionIsShaped(path: string)
    ensures IsExtensionShaped(Extension(path))
    ensures Extension(path) != "" ==> EndsWith(FileName(path), Extension(path)) && |Extension(path)| < |FileName(path)|
  {
    var name := FileName(path);
    var found := LastIndexOf(name, '.');
    if found.Some? && found.value > 0 && name != "." && name != ".." {
      LastPeriodSuffix(name, found.value);
    }
  }

  /** The suffix of a separator-free name from its last period on is extension-shaped. */
  lemma LastPeriodSuffix(name: string, i: nat)
    requires 0 < i < |name| && name[i] == '.' && forall j :: i < j < |name| ==> name[j] != '.'
    requires forall j :: 0 <= j < |name| ==> !IsSeparator(name[j])
    ensures IsExtensionShaped(name[i..]) && EndsWith(name, name[i..]) && |name[i..]| < |name|
  {
    var e := name[i..];
    forall j | 1 <= j < |e| ensures e[j] != '.' && !IsSeparator(e[j]) {
      assert e[j] == name[i + j];
    }
  }

  /** Because an extension holds a single leading period, testing it for a suffix that starts with
      a period is the same as testing it for equality: `ends_with(".msix")` cannot match more. */
  lemma {:induction false} EndsWithMeansEquals(e: string, suffix: string)
    requires IsExtensionShaped(e) && |suffix| > 0 && suffix[0] == '.'
    ensures EndsWith(Lower(e), suffix) <==> Lower(e) == suffix
  {
  }

  /** The source's `GetManifestFilePath`: the bundle manifest for bundles and bundle layouts, the
      package manifest for packages and package layouts; an unrecognised type is an invalid argument. */
  function GetManifestFilePath(path: string, packageType: PackageType): (r: Result<string>)
    ensures r.Err? <==> packageType == Unrecognized
    ensures r.Err? ==> r.error == InvalidArgument
    ensures packageType in {Bundle, LayoutBundleDirectory} ==> r == Ok(AppendPath(path, BundleManifestRelativePath))
    ensures packageType in {Package, LayoutPackageDirectory} ==> r == Ok(AppendPath(path, ManifestFileName))
  {
    match packageType
    case LayoutBundleDirectory => Ok(AppendPath(path, BundleManifestRelativePath))
    case Bundle => Ok(AppendPath(path, BundleManifestRelativePath))
    case LayoutPackageDirectory => Ok(AppendPath(path, ManifestFileName))
    case Package => Ok(AppendPath(path, ManifestFileName))
    case Unrecognized => Err(InvalidArgument)
  }

  /** The layout test of `GetPackageTypeFromPath`: is the manifest of `packageType` a regular file? */
  predicate HasManifest(fs: FileSystem, path: string, packageType: PackageType)
  {
    var manifest := GetManifestFilePath(path, packageType);
    manifest.Ok? && manifest.value in fs.regularFiles
  }

  /** The source's `GetPackageTypeFromPath`: a directory is a layout when its bundle manifest or,
      failing that, its package manifest exists; anything else is classified by its lower-cased
      extension, bundles first. */
  function GetPackageTypeFromPath(fs: FileSystem, path: string): (r: PackageType)
    ensures path in fs.directories ==> r in {LayoutBundleDirectory, LayoutPackageDirectory, Unrecognized}
    ensures path !in fs.directories ==> r in {Bundle, Package, Unrecognized}
    ensures r in {LayoutBundleDirectory, LayoutPackageDirectory} ==> HasManifest(fs, path, r)
    ensures r == LayoutPackageDirectory ==> !HasManifest(fs, path, LayoutBundleDirectory)
    ensures path in fs.directories ==> (r == LayoutBundleDirectory <==> HasManifest(fs, path, LayoutBundleDirectory))
    ensures path in fs.directories ==>
              (r == LayoutPackageDirectory <==>
                 !HasManifest(fs, path, LayoutBundleDirectory) && HasManifest(fs, path, LayoutPackageDirectory))
  {
    if path in fs.directories then
      if HasManifest(fs, path, LayoutBundleDirectory) then LayoutBundleDirectory
      else if HasManifest(fs, path, LayoutPackageDirectory) then LayoutPackageDirectory
      else Unrecognized
    else ExtensionPackageType(Lower(Extension(path)))
  }

  /** The extension test of `GetPackageTypeFromPath` on a lower-cased extension. */
  function ExtensionPackageType(extension: string): (r: PackageType)
    ensures r in {Bundle, Package, Unrecognized}
  {
    if EndsWith(extension, ".msixbundle") || EndsWith(extension, ".appxbundle") then Bundle
    else if EndsWith(extension, ".msix") || EndsWith(extension, ".appx") then Package
    else Unrecognized
  }

  /** The source's `IsFootprintFile`: the manifest, block map or signature, in any case. */
  predicate IsFootprintFile(path: string)
  {
    Lower(FileName(path)) in {"appxmanifest.xml", "appxblockmap.xml", "appxsignature.p7x"}
  }

  /** The source's `IsFileWithPackageExtension`: the lower-cased extension is `.appx` or `.msix`. */
  predicate IsFileWithPackageExtension(path: string)
  {
    Lower(Extension(path)) in {".appx", ".msix"}
  }

  /** For a path that is not a directory, detection says "package" exactly when the bundle
      scan's package-extension test accepts it, and "bundle" exactly for the two bundle extensions. */
  lemma PackageTypeMatchesExtensionTest(fs: FileSystem, path: string)
    requires path !in fs.directories
    ensures GetPackageTypeFromPath(fs, path) == Package <==> IsFileWithPackageExtension(path)
    ensures GetPackageTypeFromPath(fs, path) == Bundle <==> Lower(Extension(path)) in {".msixbundle", ".appxbundle"}
  {
    var e := Extension(path);
    ExtensionIsShaped(path);
    EndsWithMeansEquals(e, ".msixbundle");
    EndsWithMeansEquals(e, ".appxbundle");
    EndsWithMeansEquals(e, ".msix");
    EndsWithMeansEquals(e, ".appx");
    ExtensionPackageTypeByEquality(Lower(e));
  }

  lemma ExtensionPackageTypeByEquality(l: string)
    requires EndsWith(l, ".msixbundle") <==> l == ".msixbundle"
    requires EndsWith(l, ".appxbundle") <==> l == ".appxbundle"
    requires EndsWith(l, ".msix") <==> l == ".msix"
    requires EndsWith(l, ".appx") <==> l == ".appx"
    ensures ExtensionPackageType(l) == Package <==> l in {".appx", ".msix"}
    ensures ExtensionPackageType(l) == Bundle <==> l in {".msixbundle", ".appxbundle"}
  {
  }

  /** A detected layout can be opened: its manifest path is a regular file. */
  lemma LayoutManifestExists(fs: FileSystem, path: string)
    requires GetPackageTypeFromPath(fs, path) in {LayoutBundleDirectory, LayoutPackageDirectory}
    ensures GetManifestFilePath(path, GetPackageTypeFromPath(fs, path)).Ok?
    ensures GetManifestFilePath(path, GetPackageTypeFromPath(fs, path)).value in fs.regularFiles
  {
  }

  /** Detection of a directory in terms of the two manifest files themselves: a bundle layout
      exactly when the bundle manifest exists, a package layout exactly when only the package
      manifest does, and unrecognised exactly when neither does. */
  lemma DirectoryDetectionByManifests(fs: FileSystem, path: string)
    requires path in fs.directories
    ensures GetPackageTypeFromPath(fs, path) == LayoutBundleDirectory <==>
              AppendPath(path, BundleManifestRelativePath) in fs.regularFiles
    ensures GetPackageTypeFromPath(fs, path) == LayoutPackageDirectory <==>
              AppendPath(path, BundleManifestRelativePath) !in fs.regularFiles && AppendPath(path, ManifestFileName) in fs.regularFiles
    ensures GetPackageTypeFromPath(fs, path) == Unrecognized <==>
              AppendPath(path, BundleManifestRelativePath) !in fs.regularFiles && AppendPath(path, ManifestFileName) !in fs.regularFiles
  {
    assert GetManifestFilePath(path, LayoutBundleDirectory) == Ok(AppendPath(path, BundleManifestRelativePath));
    assert GetManifestFilePath(path, LayoutPackageDirectory) == Ok(AppendPath(path, ManifestFileName));
  }

  /** The file name of a separator-free name after a separator (or at the start) is that name:
      a longer suffix would hold the separator, a shorter one would start after a separator
      inside the name. */
  lemma FileNameAfterSeparator(prefix: string, name: string)
    requires |prefix| == 0 || IsSeparator(prefix[|prefix| - 1])
    requires forall i :: 0 <= i < |name| ==> !IsSeparator(name[i])
    ensures FileName(prefix + name) == name
  {
    var full := prefix + name;
    var r := FileName(full);
    assert |r| == |name|;
    assert r == full[|prefix|..];
  }

  /** Appending two names one after the other is appending them joined by a backslash, when the
      first does not end with a separator. */
  lemma AppendPathJoins(path: string, first: string, second: string)
    requires |first| > 0 && !IsSeparator(first[|first| - 1])
    ensures AppendPath(AppendPath(path, first), second) == AppendPath(path, first + "\\" + second)
  {
    if |path| > 0 && !IsSeparator(path[|path| - 1]) {
      assert path + "\\" + first + "\\" + second == path + "\\" + (first + "\\" + second);
    } else if |path| > 0 {
      assert path + first + "\\" + second == path + (first + "\\" + second);
    }
  }

  /** Appending several names in turn, as repeated `/=` does. */
  function AppendPaths(path: string, names: seq<string>): string
    decreases |names|
  {
    if |names| == 0 then path else AppendPaths(AppendPath(path, names[0]), names[1..])
  }

  /** Appending names in turn is appending their backslash-joined path at once, when every name
      but the last is non-empty and does not end with a separator. */
  lemma {:induction false} AppendPathsJoin(path: string, names: seq<string>)
    requires |names| > 0
    requires forall i :: 0 <= i < |names| - 1 ==> |names[i]| > 0 && !IsSeparator(names[i][|names[i]| - 1])
    ensures AppendPaths(path, names) == AppendPath(path, Join("\\", names))
    decreases |names|
  {
    if |names| > 1 {
      var rest := names[1..];
      assert forall i :: 0 <= i < |rest| - 1 ==> rest[i] == names[i + 1];
      AppendPathsJoin(AppendPath(path, names[0]), rest);
      AppendPathJoins(path, names[0], Join("\\", rest));
    }
  }

  /** The file name of a name appended to a directory is that name, when it holds no separator. */
  lemma FileNameOfAppendPath(path: string, name: string)
    requires forall i :: 0 <= i < |name| ==> !IsSeparator(name[i])
    ensures FileName(AppendPath(path, name)) == name
  {
    if |path| == 0 {
      FileNameAfterSeparator("", name);
      assert "" + name == name;
    } else if IsSeparator(path[|path| - 1]) {
      FileNameAfterSeparator(path, name);
    } else {
      FileNameAfterSeparator(path + "\\", name);
      assert path + "\\" + name == (path + "\\") + name;
    }
  }

  lemma LowerManifestFileName()
    ensures Lower(ManifestFileName) == "appxmanifest.xml"
  {
    var folded := Lower(ManifestFileName);
    var expected := "appxmanifest.xml";
    forall i | 0 <= i < |expected| ensures folded[i] == expected[i] {
      assert folded[i] == LowerChar(ManifestFileName[i]);
    }
  }

  /** The manifest of a package layout is a footprint file. */
  lemma ManifestIsFootprint(path: string)
    ensures IsFootprintFile(AppendPath(path, ManifestFileName))
  {
    FileNameOfAppendPath(path, ManifestFileName);
    LowerManifestFileName();
  }

  /** Whether a directory entry is a footprint file depends on its name alone, in any case: the
      directory it sits in does not matter, and neither does the case of the name. */
  lemma FootprintFileByName(dir: string, name: string)
    requires forall i :: 0 <= i < |name| ==> !IsSeparator(name[i])
    ensures IsFootprintFile(AppendPath(dir, name)) <==>
              Lower(name) in {"appxmanifest.xml", "appxblockmap.xml", "appxsignature.p7x"}
    ensures IsFootprintFile(AppendPath(dir, name)) <==> IsFootprintFile(AppendPath(dir, Lower(name)))
  {
    FileNameOfAppendPath(dir, name);
    var folded := Lower(name);
    assert forall i :: 0 <= i < |folded| ==> !IsSeparator(folded[i]) by {
      forall i | 0 <= i < |folded| ensures !IsSeparator(folded[i]) {
        assert folded[i] == LowerChar(name[i]);
      }
    }
    FileNameOfAppendPath(dir, folded);
    LowerIdempotent(name);
  }

  /** The package-extension test looks only at the entry's own name, never at its directory. */
  lemma PackageExtensionByName(dir: string, name: string)
    requires forall i :: 0 <= i < |name| ==> !IsSeparator(name[i])
    ensures IsFileWithPackageExtension(AppendPath(dir, name)) <==> IsFileWithPackageExtension(name)
  {
    FileNameOfAppendPath(dir, name);
    FileNameOfAppendPath("", name);
    assert AppendPath("", name) == name;
  }

  /** A name that is only an extension has none, a bundle is not a package, and the test folds case. */
  lemma PackageExtensionExamples()
    ensures !IsFileWithPackageExtension(".msix")
    ensures !IsFileWithPackageExtension("app.msixbundle")
    ensures IsFileWithPackageExtension("App.MSIX")
  {
    FileNameOfAppendPath("", ".msix");
    LastPeriodAt(".msix", 0);
    FileNameOfAppendPath("", "app.msixbundle");
    LastPeriodAt("app.msixbundle", 3);
    FileNameOfAppendPath("", "App.MSIX");
    LastPeriodAt("App.MSIX", 3);
    assert NameExtension("App.MSIX") == ".MSIX";
    LowerMsix();
  }

  lemma LastPeriodAt(s: string, k: nat)
    requires k < |s| && s[k] == '.'
    requires forall j :: k < j < |s| ==> s[j] != '.'
    ensures LastIndexOf(s, '.') == Some(k)
  {
  }

  lemma LowerMsix()
    ensures Lower(".MSIX") == ".msix"
  {
    var folded := Lower(".MSIX");
    var expected := ".msix";
    forall i | 0 <= i < |expected| ensures folded[i] == expected[i] {
      assert folded[i] == LowerChar(".MSIX"[i]);
    }
  }
}

=== FILE: make_msix.dfy ===
/** The `MakeMSIXManager` runtime class: the makeappx.exe argument lists, the launch of
    makeappx.exe, and the conversion of a package or bundle into a Kozani package as the sequence
    of makeappx runs and layout builds it performs. Processes, the registry and temporary
    directories are inputs. */
module MakeMsixManager {
  import opened Outcomes
  import Text
  import opened FileSystemUtilities

  // ---------------------------------------------------------------------------------------------
  // Options

  /** The fields of `PackOptions` the argument list reads. A default-constructed `PackOptions`
      has both flags false. */
  datatype PackOptions = PackOptions(packageFilePath: string, overwriteFiles: bool, validateFiles: bool)

  datatype UnpackOptions = UnpackOptions(unpackedPackageRootDirectory: string, overwriteFiles: bool)

  datatype BundleOptions = BundleOptions(bundleFilePath: string, overwriteFiles: bool)

  datatype UnbundleOptions = UnbundleOptions(unbundledPackageRootDirectory: string, overwriteFiles: bool)

  // ---------------------------------------------------------------------------------------------
  // Argument lists

  const OverwriteSwitch: string := "/o"
  const NoOverwriteSwitch: string := "/no"
  const NoValidationSwitches: seq<string> := ["/nv", "/nfv"]

  function OverwriteFlag(overwrite: bool): string
  {
    if overwrite then OverwriteSwitch else NoOverwriteSwitch
  }

  /** The overwrite choice a switch encodes, if it is one of the two overwrite switches. */
  function ParseOverwriteFlag(flag: string): Option<bool>
  {
    if flag == OverwriteSwitch then Some(true)
    else if flag == NoOverwriteSwitch then Some(false)
    else None
  }

  /** Every overwrite switch of `arguments` sits at one of the `allowed` positions. */
  predicate SwitchesOnlyAt(arguments: seq<string>, allowed: set<int>)
  {
    forall i :: 0 <= i < |arguments| && ParseOverwriteFlag(arguments[i]).Some? ==> i in allowed
  }

  /** The source's `GetCommandLineArgumentsForMakeAppxPack`. */
  function PackArguments(directoryToPack: string, options: PackOptions): (r: seq<string>)
    ensures |r| == if options.validateFiles then 6 else 8
    ensures r[..5] == ["pack", "/d", directoryToPack, "/p", options.packageFilePath]
    ensures ParseOverwriteFlag(r[5]) == Some(options.overwriteFiles)
    ensures !options.validateFiles ==> r[6..] == NoValidationSwitches
    ensures SwitchesOnlyAt(r, {2, 4, 5})
  {
    ["pack", "/d", directoryToPack, "/p", options.packageFilePath, OverwriteFlag(options.overwriteFiles)]
    + (if options.validateFiles then [] else NoValidationSwitches)
  }

  /** Reading a pack argument list back. */
  function ParsePackArguments(arguments: seq<string>): Option<(string, PackOptions)>
  {
    if (|arguments| == 6 || (|arguments| == 8 && arguments[6..] == NoValidationSwitches))
       && arguments[0] == "pack" && arguments[1] == "/d" && arguments[3] == "/p"
       && ParseOverwriteFlag(arguments[5]).Some?
    then Some((arguments[2], PackOptions(arguments[4], ParseOverwriteFlag(arguments[5]).value, |arguments| == 6)))
    else None
  }

  /** A pack argument list says everything about its directory and options ... */
  lemma PackArgumentsRoundTrip(directoryToPack: string, options: PackOptions)
    ensures ParsePackArguments(PackArguments(directoryToPack, options)) == Some((directoryToPack, options))
  {
  }

  /** ... and every list that reads as a pack request is the one built for it. */
  lemma PackArgumentsAreCanonical(arguments: seq<string>)
    requires ParsePackArguments(arguments).Some?
    ensures PackArguments(ParsePackArguments(arguments).value.0, ParsePackArguments(arguments).value.1) == arguments
  {
    var r := PackArguments(ParsePackArguments(arguments).value.0, ParsePackArguments(arguments).value.1);
    assert r[..6] == arguments[..6];
    if |arguments| == 8 {
      assert arguments == arguments[..6] + arguments[6..];
    }
  }

  /** The argument list shared by unpack and unbundle: `<verb> /p <file> /d <directory>` and an
      overwrite switch. */
  function ExtractArguments(verb: string, file: string, directory: string, overwrite: bool): (r: seq<string>)
    ensures |r| == 6 && r[..5] == [verb, "/p", file, "/d", directory]
    ensures ParseOverwriteFlag(r[5]) == Some(overwrite)
    ensures SwitchesOnlyAt(r, {0, 2, 4, 5})
  {
    [verb, "/p", file, "/d", directory, OverwriteFlag(overwrite)]
  }

  /** The source's `GetCommandLineArgumentsForMakeAppxUnpack`. */
  function UnpackArguments(packageToUnpack: string, options: UnpackOptions): (r: seq<string>)
    ensures |r| == 6 && r[..5] == ["unpack", "/p", packageToUnpack, "/d", options.unpackedPackageRootDirectory]
    ensures ParseOverwriteFlag(r[5]) == Some(options.overwriteFiles)
    ensures SwitchesOnlyAt(r, {2, 4, 5})
  {
    ExtractArguments("unpack", packageToUnpack, options.unpackedPackageRootDirectory, options.overwriteFiles)
  }

  /** The source's `GetCommandLineArgumentsForMakeAppxUnbundle`. */
  function UnbundleArguments(bundleToUnbundle: string, options: UnbundleOptions): (r: seq<string>)
    ensures |r| == 6 && r[..5] == ["unbundle", "/p", bundleToUnbundle, "/d", options.unbundledPackageRootDirectory]
    ensures ParseOverwriteFlag(r[5]) == Some(options.overwriteFiles)
    ensures SwitchesOnlyAt(r, {2, 4, 5})
  {
    ExtractArguments("unbundle", bundleToUnbundle, options.unbundledPackageRootDirectory, options.overwriteFiles)
  }

  /** Reading an unpack or unbundle argument list back: the file, the directory and the overwrite choice. */
  function ParseExtractArguments(verb: string, arguments: seq<string>): Option<(string, string, bool)>
  {
    if |arguments| == 6 && arguments[0] == verb && arguments[1] == "/p" && arguments[3] == "/d"
       && ParseOverwriteFlag(arguments[5]).Some?
    then Some((arguments[2], arguments[4], ParseOverwriteFlag(arguments[5]).value))
    else None
  }

  lemma ExtractArgumentsRoundTrip(verb: string, file: string, directory: string, overwrite: bool)
    ensures ParseExtractArguments(verb, ExtractArguments(verb, file, directory, overwrite)) == Some((file, directory, overwrite))
  {
  }

  lemma ExtractArgumentsAreCanonical(verb: string, arguments: seq<string>)
    requires ParseExtractArguments(verb, arguments).Some?
    ensures var (file, directory, overwrite) := ParseExtractArguments(verb, arguments).value;
            ExtractArguments(verb, file, directory, overwrite) == arguments
  {
  }

  /** The source's `GetCommandLineArgumentsForMakeAppxBundle`: never any validation switch. */
  function BundleArguments(directoryToBundle: string, options: BundleOptions): (r: seq<string>)
    ensures |r| == 6 && r[..5] == ["bundle", "/d", directoryToBundle, "/p", options.bundleFilePath]
    ensures ParseOverwriteFlag(r[5]) == Some(options.overwriteFiles)
    ensures SwitchesOnlyAt(r, {2, 4, 5})
    ensures forall i :: 0 <= i < |r| && r[i] in NoValidationSwitches ==> i in {2, 4}
  {
    ["bundle", "/d", directoryToBundle, "/p", options.bundleFilePath, OverwriteFlag(options.overwriteFiles)]
  }

  /** Reading a bundle argument list back. */
  function ParseBundleArguments(arguments: seq<string>): Option<(string, BundleOptions)>
  {
    if |arguments| == 6 && arguments[0] == "bundle" && arguments[1] == "/d" && arguments[3] == "/p"
       && ParseOverwriteFlag(arguments[5]).Some?
    then Some((arguments[2], BundleOptions(arguments[4], ParseOverwriteFlag(arguments[5]).value)))
    else None
  }

  lemma BundleArgumentsRoundTrip(directoryToBundle: string, options: BundleOptions)
    ensures ParseBundleArguments(BundleArguments(directoryToBundle, options)) == Some((directoryToBundle, options))
  {
  }

  lemma BundleArgumentsAreCanonical(arguments: seq<string>)
    requires ParseBundleArguments(arguments).Some?
    ensures BundleArguments(ParseBundleArguments(arguments).value.0, ParseBundleArguments(arguments).value.1) == arguments
  {
  }

  // ---------------------------------------------------------------------------------------------
  // Launching makeappx.exe

  /** The makeappx.exe of the installed Windows SDK: `<installation folder>\bin\<product version>.0\x64\makeappx.exe`. */
  function MakeAppxPath(installationFolder: string, productVersion: string): (r: string)
    ensures FileName(r) == "makeappx.exe"
    ensures r == AppendPath(installationFolder, Text.Join("\\", ["bin", productVersion + ".0", "x64", "makeappx.exe"]))
  {
    MakeAppxPathFacts(installationFolder, productVersion);
    AppendPath(AppendPath(AppendPath(AppendPath(installationFolder, "bin"), productVersion + ".0"), "x64"), "makeappx.exe")
  }

  lemma MakeAppxPathFacts(installationFolder: string, productVersion: string)
    ensures var r := AppendPath(AppendPath(AppendPath(AppendPath(installationFolder, "bin"), productVersion + ".0"), "x64"), "makeappx.exe");
            && FileName(r) == "makeappx.exe"
            && r == AppendPath(installationFolder, Text.Join("\\", ["bin", productVersion + ".0", "x64", "makeappx.exe"]))
  {
    var directory := AppendPath(AppendPath(AppendPath(installationFolder, "bin"), productVersion + ".0"), "x64");
    FileNameOfAppendPath(directory, "makeappx.exe");
    MakeAppxPathUnderFolder(installationFolder, productVersion);
  }

  /** The four appends of `MakeAppxPath` put the relative path `bin\<version>.0\x64\makeappx.exe`
      under the installation folder. */
  lemma MakeAppxPathUnderFolder(installationFolder: string, productVersion: string)
    ensures AppendPath(AppendPath(AppendPath(AppendPath(installationFolder, "bin"), productVersion + ".0"), "x64"), "makeappx.exe")
            == AppendPath(installationFolder, Text.Join("\\", ["bin", productVersion + ".0", "x64", "makeappx.exe"]))
  {
    var version := productVersion + ".0";
    var names := ["bin", version, "x64", "makeappx.exe"];
    assert version[|version| - 1] == '0';
    var bin := AppendPath(installationFolder, "bin");
    var versioned := AppendPath(bin, version);
    var platform := AppendPath(versioned, "x64");
    assert names[1..] == [version, "x64", "makeappx.exe"];
    assert names[1..][1..] == ["x64", "makeappx.exe"];
    assert names[1..][1..][1..] == ["makeappx.exe"];
    assert AppendPaths(installationFolder, names) == AppendPaths(bin, [version, "x64", "makeappx.exe"]);
    assert AppendPaths(bin, [version, "x64", "makeappx.exe"]) == AppendPaths(versioned, ["x64", "makeappx.exe"]);
    assert AppendPaths(versioned, ["x64", "makeappx.exe"]) == AppendPaths(platform, ["makeappx.exe"]);
    assert AppendPaths(platform, ["makeappx.exe"]) == AppendPath(platform, "makeappx.exe");
    AppendPathsJoin(installationFolder, names);
  }

  /** Joining one more part onto a non-empty list puts one separator in front of it. */
  lemma {:induction false} JoinSnoc(sep: string, parts: seq<string>, part: string)
    requires |parts| > 0
    ensures Text.Join(sep, parts + [part]) == Text.Join(sep, parts) + sep + part
  {
    if |parts| > 1 {
      assert (parts + [part])[1..] == parts[1..] + [part];
      JoinSnoc(sep, parts[1..], part);
    } else {
      assert (parts + [part])[1..] == [part];
    }
  }

  /** The command-line loop of the source's `LaunchMakeAppxWithArguments`: the tool path, then
      every argument in order, each after one space. No argument is quoted. */
  method BuildCommandLine(makeAppxPath: string, arguments: seq<string>) returns (commandLine: string)
    ensures commandLine == Text.Join(" ", [makeAppxPath] + arguments)
  {
    commandLine := makeAppxPath;
    var i := 0;
    while i < |arguments|
      invariant 0 <= i <= |arguments|
      invariant commandLine == Text.Join(" ", [makeAppxPath] + arguments[..i])
    {
      JoinSnoc(" ", [makeAppxPath] + arguments[..i], arguments[i]);
      assert [makeAppxPath] + arguments[..i + 1] == [makeAppxPath] + arguments[..i] + [arguments[i]];
      commandLine := commandLine + " " + arguments[i];
      i := i + 1;
    }
    assert arguments[..i] == arguments;
  }

  /** Cutting a string at every space. */
  function SplitAtSpaces(s: string): (r: seq<string>)
    ensures |r| > 0
  {
    if |s| == 0 then [""]
    else
      var rest := SplitAtSpaces(s[1..]);
      if s[0] == ' ' then [""] + rest else [[s[0]] + rest[0]] + rest[1..]
  }

  predicate HasNoSpace(s: string)
  {
    forall i :: 0 <= i < |s| ==> s[i] != ' '
  }

  /** A space-free prefix stays in the first piece. */
  lemma {:induction false} SplitSpaceFreePrefix(prefix: string, s: string)
    requires HasNoSpace(prefix)
    ensures SplitAtSpaces(prefix + s) == [prefix + SplitAtSpaces(s)[0]] + SplitAtSpaces(s)[1..]
  {
    if |prefix| > 0 {
      var t := prefix + s;
      assert t[1..] == prefix[1..] + s;
      SplitSpaceFreePrefix(prefix[1..], s);
      var rest := SplitAtSpaces(t[1..]);
      assert rest[0] == prefix[1..] + SplitAtSpaces(s)[0] && rest[1..] == SplitAtSpaces(s)[1..];
      assert t[0] == prefix[0] != ' ';
      assert SplitAtSpaces(t) == [[t[0]] + rest[0]] + rest[1..];
      assert [prefix[0]] + (prefix[1..] + SplitAtSpaces(s)[0]) == prefix + SplitAtSpaces(s)[0];
    } else {
      assert prefix + s == s;
      var r := SplitAtSpaces(s);
      assert r == [r[0]] + r[1..];
      assert prefix + r[0] == r[0];
    }
  }

  /** Joining space-free parts with single spaces and cutting at the spaces gives the parts back. */
  lemma {:induction false} SplitJoinRoundTrip(parts: seq<string>)
    requires |parts| > 0
    requires forall k :: 0 <= k < |parts| ==> HasNoSpace(parts[k])
    ensures SplitAtSpaces(Text.Join(" ", parts)) == parts
  {
    if |parts| == 1 {
      SplitSpaceFreePrefix(parts[0], "");
      assert parts[0] + "" == parts[0];
    } else {
      var tail := Text.Join(" ", parts[1..]);
      SplitJoinRoundTrip(parts[1..]);
      assert Text.Join(" ", parts) == parts[0] + (" " + tail);
      SplitSpaceFreePrefix(parts[0], " " + tail);
      assert (" " + tail)[1..] == tail;
      assert SplitAtSpaces(" " + tail) == [""] + parts[1..];
      assert parts[0] + "" == parts[0];
      assert parts == [parts[0]] + parts[1..];
    }
  }

  /** When no part has a space, the command line separates back into the tool path and the
      arguments; a part with a space would be cut in two, since nothing is quoted. */
  lemma CommandLineSeparates(makeAppxPath: string, arguments: seq<string>)
    requires HasNoSpace(makeAppxPath) && forall k :: 0 <= k < |arguments| ==> HasNoSpace(arguments[k])
    ensures SplitAtSpaces(Text.Join(" ", [makeAppxPath] + arguments)) == [makeAppxPath] + arguments
  {
    var parts := [makeAppxPath] + arguments;
    forall k | 0 <= k < |parts|
      ensures HasNoSpace(parts[k])
    {
      if k > 0 {
        assert parts[k] == arguments[k - 1];
      }
    }
    SplitJoinRoundTrip(parts);
  }

  /** `EXIT_FAILURE`, the only exit code of makeappx.exe taken as failure. */
  const ExitFailure: int := 1

  /** `ERROR_SUCCESS` and `ERROR_FILE_NOT_FOUND`, two of the Win32 status codes the registry calls return. */
  const ErrorSuccess: int := 0
  const ErrorFileNotFound: int := 2

  /** What happened to the makeappx.exe process, as `CreateProcess`, `WaitForSingleObject` and
      `GetExitCodeProcess` report it. */
  datatype ProcessOutcome =
    | CreateFailed(lastError: int)
    | WaitFailed(lastError: int)
    | WaitAbandoned
    | WaitTimedOut
    | ExitCodeUnavailable(lastError: int)
    | Exited(exitCode: int)

  /** The source's `CreateProcessAndWaitForExitCode`: the exit code of a process that ran to its
      end; a failing call gives its last error and an abandoned or timed-out wait gives E_UNEXPECTED. */
  function CreateProcessAndWaitForExitCode(outcome: ProcessOutcome): (r: Result<int>)
    ensures r.Ok? <==> outcome.Exited?
    ensures r.Ok? ==> r.value == outcome.exitCode
    ensures outcome.WaitAbandoned? || outcome.WaitTimedOut? ==> r == Err(Unexpected)
    ensures outcome.CreateFailed? || outcome.WaitFailed? || outcome.ExitCodeUnavailable? ==> r == Err(Win32Error(outcome.lastError))
  {
    match outcome
    case CreateFailed(e) => Err(Win32Error(e))
    case WaitFailed(e) => Err(Win32Error(e))
    case WaitAbandoned => Err(Unexpected)
    case WaitTimedOut => Err(Unexpected)
    case ExitCodeUnavailable(e) => Err(Win32Error(e))
    case Exited(code) => Ok(code)
  }

  /** A registry value as `RegGetValueW` delivers it: its Win32 status and the string read. */
  datatype RegistryRead = RegistryRead(status: int, value: string)

  /** `FAILED(hr)`: a negative HRESULT. */
  predicate Failed(hr: int)
  {
    hr < 0
  }

  /** `RETURN_IF_FAILED` applied to a Win32 status code, as the source does with the registry
      calls: positive Win32 error codes are not negative, so they pass. */
  function CheckStatusAsWritten(status: int): (r: Result<()>)
    ensures r.Ok? <==> !Failed(status)
  {
    if Failed(status) then Err(Win32Error(status)) else Ok(())
  }

  /** A Win32 status check: anything but `ERROR_SUCCESS` fails with that error. */
  function CheckStatus(status: int): (r: Result<()>)
    ensures r.Ok? <==> status == ErrorSuccess
    ensures r.Err? ==> r.error == Win32Error(status)
  {
    if status != ErrorSuccess then Err(Win32Error(status)) else Ok(())
  }

  /** The source's `LaunchMakeAppxWithArguments` with the registry statuses checked as Win32
      errors: the command line that ran, or why it did not run or failed. */
  function LaunchMakeAppxWithArguments(openStatus: int, installationFolder: RegistryRead, productVersion: RegistryRead,
                                       arguments: seq<string>, outcome: ProcessOutcome): (r: Result<string>)
    ensures r.Ok? <==> (&& openStatus == ErrorSuccess && installationFolder.status == ErrorSuccess
                        && productVersion.status == ErrorSuccess && outcome.Exited? && outcome.exitCode != ExitFailure)
    ensures r == Err(Fail) <==> (&& openStatus == ErrorSuccess && installationFolder.status == ErrorSuccess
                                 && productVersion.status == ErrorSuccess && outcome == Exited(ExitFailure))
    ensures openStatus != ErrorSuccess ==> r == Err(Win32Error(openStatus))
    ensures r.Ok? ==> r.value == Text.Join(" ", [MakeAppxPath(installationFolder.value, productVersion.value)] + arguments)
  {
    var _ :- CheckStatus(openStatus);
    var _ :- CheckStatus(installationFolder.status);
    var _ :- CheckStatus(productVersion.status);
    var commandLine := Text.Join(" ", [MakeAppxPath(installationFolder.value, productVersion.value)] + arguments);
    var exitCode :- CreateProcessAndWaitForExitCode(outcome);
    if exitCode == ExitFailure then Err(Fail) else Ok(commandLine)
  }

  /** Once the registry lookups succeed, the process alone decides the launch: an error from
      starting or waiting for it is passed on unchanged, an exit code of 1 gives E_FAIL, and every
      other exit gives the same command line whatever the code. */
  lemma LaunchFollowsProcess(installationFolder: RegistryRead, productVersion: RegistryRead, arguments: seq<string>,
                             outcome: ProcessOutcome, other: ProcessOutcome)
    requires installationFolder.status == ErrorSuccess && productVersion.status == ErrorSuccess
    ensures CreateProcessAndWaitForExitCode(outcome).Err? ==>
              LaunchMakeAppxWithArguments(ErrorSuccess, installationFolder, productVersion, arguments, outcome)
              == Err(CreateProcessAndWaitForExitCode(outcome).error)
    ensures CreateProcessAndWaitForExitCode(outcome) == Ok(ExitFailure) ==>
              LaunchMakeAppxWithArguments(ErrorSuccess, installationFolder, productVersion, arguments, outcome) == Err(Fail)
    ensures LaunchMakeAppxWithArguments(ErrorSuccess, installationFolder, productVersion, arguments, outcome).Ok?
            && LaunchMakeAppxWithArguments(ErrorSuccess, installationFolder, productVersion, arguments, other).Ok? ==>
              LaunchMakeAppxWithArguments(ErrorSuccess, installationFolder, productVersion, arguments, outcome)
              == LaunchMakeAppxWithArguments(ErrorSuccess, installationFolder, productVersion, arguments, other)
  {
  }

  /** `LaunchMakeAppxWithArguments` exactly as written, with `RETURN_IF_FAILED` on the registry statuses. */
  function LaunchMakeAppxWithArgumentsAsWritten(openStatus: int, installationFolder: RegistryRead, productVersion: RegistryRead,
                                                arguments: seq<string>, outcome: ProcessOutcome): (r: Result<string>)
    ensures r.Ok? <==> (&& !Failed(openStatus) && !Failed(installationFolder.status)
                        && !Failed(productVersion.status) && outcome.Exited? && outcome.exitCode != ExitFailure)
    ensures Failed(openStatus) ==> r == Err(Win32Error(openStatus))
    ensures !Failed(openStatus) && Failed(installationFolder.status) ==> r == Err(Win32Error(installationFolder.status))
    ensures !Failed(openStatus) && !Failed(installationFolder.status) && Failed(productVersion.status) ==>
              r == Err(Win32Error(productVersion.status))
    ensures !Failed(openStatus) && !Failed(installationFolder.status) && !Failed(productVersion.status) ==>
              r == LaunchMakeAppxWithArguments(ErrorSuccess, installationFolder.(status := ErrorSuccess),
                                               productVersion.(status := ErrorSuccess), arguments, outcome)
  {
    var _ :- CheckStatusAsWritten(openStatus);
    var _ :- CheckStatusAsWritten(installationFolder.status);
    var _ :- CheckStatusAsWritten(productVersion.status);
    var commandLine := Text.Join(" ", [MakeAppxPath(installationFolder.value, productVersion.value)] + arguments);
    var exitCode :- CreateProcessAndWaitForExitCode(outcome);
    if exitCode == ExitFailure then Err(Fail) else Ok(commandLine)
  }

  /** A missing SDK registry key does not stop the launch as written: makeappx.exe is started from
      whatever the unread buffers hold, where the status check stops with the Win32 error. */
  lemma MissingRegistryKeyIsIgnored(installationFolder: RegistryRead, productVersion: RegistryRead, arguments: seq<string>)
    requires installationFolder.status == ErrorSuccess && productVersion.status == ErrorSuccess
    ensures LaunchMakeAppxWithArgumentsAsWritten(ErrorFileNotFound, installationFolder, productVersion, arguments, Exited(0)).Ok?
    ensures LaunchMakeAppxWithArguments(ErrorFileNotFound, installationFolder, productVersion, arguments, Exited(0))
            == Err(Win32Error(ErrorFileNotFound))
  {
  }

  // ---------------------------------------------------------------------------------------------
  // Conversion into a Kozani package

  /** The extension test of `CreateKozaniPackage`: the lower-cased extension ends with a bundle
      extension, or else with a package extension, or neither. */
  function ConversionKind(packageFile: string): (r: PackageType)
    ensures r in {Bundle, Package, Unrecognized}
  {
    ExtensionPackageType(Text.Lower(Extension(packageFile)))
  }

  /** Since an extension holds a single period, "ends with" is "equals": a bundle is converted
      exactly for `.msixbundle`/`.appxbundle`, and a package exactly for the extensions whose
      files the bundle path converts. */
  lemma ConversionKindByExtension(packageFile: string)
    ensures ConversionKind(packageFile) == Bundle <==> Text.Lower(Extension(packageFile)) in {".msixbundle", ".appxbundle"}
    ensures ConversionKind(packageFile) == Package <==> IsFileWithPackageExtension(packageFile)
  {
    PackageTypeMatchesExtensionTest(FileSystem({}, {}), packageFile);
  }

  /** One step of a conversion: a makeappx.exe run, or building a Kozani layout from an unpacked
      package into a directory. */
  datatype Invocation = RunMakeAppx(arguments: seq<string>) | BuildLayout(source: string, output: string)

  /** Every makeappx.exe run of a plan overwrites. */
  predicate AlwaysOverwrites(plan: seq<Invocation>)
  {
    forall i :: 0 <= i < |plan| && plan[i].RunMakeAppx? ==>
      |plan[i].arguments| >= 6 && plan[i].arguments[5] == OverwriteSwitch
  }

  lemma AlwaysOverwritesAppend(a: seq<Invocation>, b: seq<Invocation>)
    requires AlwaysOverwrites(a) && AlwaysOverwrites(b)
    ensures AlwaysOverwrites(a + b)
  {
    assert forall i :: |a| <= i < |a + b| ==> (a + b)[i] == b[i - |a|];
  }

  /** The source's `CreateKozaniPackageFromPackage`, with both temporary directories checked:
      unpack into the first, build the layout from it into the second, pack the second into the
      output file. `None` stands for a temporary directory that could not be created. */
  function CreateKozaniPackageFromPackage(packageFile: string, outputFile: string,
                                          unpackDirectory: Option<string>, layoutDirectory: Option<string>)
    : (r: Result<seq<Invocation>>)
    ensures r.Ok? <==> unpackDirectory.Some? && layoutDirectory.Some?
    ensures r.Err? ==> r.error == Unexpected
    ensures r.Ok? ==> && |r.value| == 3 && r.value[0].RunMakeAppx? && r.value[1].BuildLayout? && r.value[2].RunMakeAppx?
                      && r.value[1] == BuildLayout(unpackDirectory.value, layoutDirectory.value)
                      && ParseExtractArguments("unpack", r.value[0].arguments) == Some((packageFile, r.value[1].source, true))
                      && ParsePackArguments(r.value[2].arguments) == Some((r.value[1].output, PackOptions(outputFile, true, false)))
    ensures r.Ok? ==> AlwaysOverwrites(r.value)
  {
    var unpackTo :- if unpackDirectory.Some? then Ok(unpackDirectory.value) else Err(Unexpected);
    var layoutTo :- if layoutDirectory.Some? then Ok(layoutDirectory.value) else Err(Unexpected);
    ExtractArgumentsRoundTrip("unpack", packageFile, unpackTo, true);
    PackArgumentsRoundTrip(layoutTo, PackOptions(outputFile, true, false));
    Ok([RunMakeAppx(UnpackArguments(packageFile, UnpackOptions(unpackTo, true))),
        BuildLayout(unpackTo, layoutTo),
        RunMakeAppx(PackArguments(layoutTo, PackOptions(outputFile, true, false)))])
  }

  /** `CreateKozaniPackageFromPackage` as written: a failure to create the layout directory is
      not checked, so the directory string stays empty and reaches the layout step, whose argument
      check finds that the empty path is not a directory and reports E_INVALIDARG. */
  function CreateKozaniPackageFromPackageAsWritten(packageFile: string, outputFile: string,
                                                   unpackDirectory: Option<string>, layoutDirectory: Option<string>)
    : (r: Result<seq<Invocation>>)
    ensures r.Ok? <==> unpackDirectory.Some? && layoutDirectory.Some?
    ensures unpackDirectory.None? ==> r == Err(Unexpected)
    ensures unpackDirectory.Some? && layoutDirectory.None? ==> r == Err(InvalidArgument)
    ensures layoutDirectory.Some? ==>
              r == CreateKozaniPackageFromPackage(packageFile, outputFile, unpackDirectory, layoutDirectory)
  {
    var unpackTo :- if unpackDirectory.Some? then Ok(unpackDirectory.value) else Err(Unexpected);
    match layoutDirectory
    case None => Err(InvalidArgument)
    case Some(layoutTo) =>
      ExtractArgumentsRoundTrip("unpack", packageFile, unpackTo, true);
      PackArgumentsRoundTrip(layoutTo, PackOptions(outputFile, true, false));
      Ok([RunMakeAppx(UnpackArguments(packageFile, UnpackOptions(unpackTo, true))),
          BuildLayout(unpackTo, layoutTo),
          RunMakeAppx(PackArguments(layoutTo, PackOptions(outputFile, true, false)))])
  }

  /** As written, a layout directory that could not be created is reported as an invalid argument
      of the layout step; checked like the unpack directory, it is reported as unexpected. Either
      way nothing is packed. */
  lemma LayoutDirectoryFailureMisreported(packageFile: string, outputFile: string, unpackDirectory: string)
    ensures CreateKozaniPackageFromPackageAsWritten(packageFile, outputFile, Some(unpackDirectory), None) == Err(InvalidArgument)
    ensures CreateKozaniPackageFromPackage(packageFile, outputFile, Some(unpackDirectory), None) == Err(Unexpected)
  {
  }

  /** The temporary directories of one package conversion: unpack and layout. */
  type TemporaryDirectories = string -> (Option<string>, Option<string>)

  /** The files of an unbundled bundle that the bundle path converts, in directory order. */
  function PackageChildren(files: seq<string>): (r: seq<string>)
    ensures forall f :: f in r <==> f in files && IsFileWithPackageExtension(f)
  {
    if |files| == 0 then []
    else if IsFileWithPackageExtension(files[0]) then [files[0]] + PackageChildren(files[1..])
    else PackageChildren(files[1..])
  }

  /** Filtering a concatenation is concatenating the filtered parts: the packages keep the order
      of the directory listing. */
  lemma {:induction false} PackageChildrenAppend(a: seq<string>, b: seq<string>)
    ensures PackageChildren(a + b) == PackageChildren(a) + PackageChildren(b)
  {
    if |a| == 0 {
      assert a + b == b;
    } else {
      assert (a + b)[0] == a[0];
      assert (a + b)[1..] == a[1..] + b;
      PackageChildrenAppend(a[1..], b);
      if IsFileWithPackageExtension(a[0]) {
        assert [a[0]] + (PackageChildren(a[1..]) + PackageChildren(b)) == [a[0]] + PackageChildren(a[1..]) + PackageChildren(b);
      }
    }
  }

  /** Converting every given package into the bundle's output directory, one after the other. */
  function ConvertAll(packages: seq<string>, bundleDirectory: string, temporaries: TemporaryDirectories)
    : Result<seq<Invocation>>
  {
    if |packages| == 0 then Ok([])
    else
      var (unpackTo, layoutTo) := temporaries(packages[0]);
      var first :- CreateKozaniPackageFromPackage(packages[0], AppendPath(bundleDirectory, FileName(packages[0])), unpackTo, layoutTo);
      var rest :- ConvertAll(packages[1..], bundleDirectory, temporaries);
      Ok(first + rest)
  }

  /** The loop over the unbundled files in the source's `CreateKozaniPackage`: a file whose
      lower-cased extension is not `.appx` or `.msix` is skipped, every other one is converted into
      the bundle's output directory under its own file name. */
  function ConvertBundleChildren(files: seq<string>, bundleDirectory: string, temporaries: TemporaryDirectories)
    : (r: Result<seq<Invocation>>)
    ensures r.Err? ==> r.error == Unexpected
    ensures r.Ok? ==> |r.value| == 3 * |PackageChildren(files)| && AlwaysOverwrites(r.value)
  {
    if |files| == 0 then Ok([])
    else if !IsFileWithPackageExtension(files[0]) then ConvertBundleChildren(files[1..], bundleDirectory, temporaries)
    else
      var (unpackTo, layoutTo) := temporaries(files[0]);
      var first :- CreateKozaniPackageFromPackage(files[0], AppendPath(bundleDirectory, FileName(files[0])), unpackTo, layoutTo);
      var rest :- ConvertBundleChildren(files[1..], bundleDirectory, temporaries);
      AlwaysOverwritesAppend(first, rest);
      Ok(first + rest)
  }

  /** Skipping inside the loop is converting the filtered list: exactly the `.appx`/`.msix` files
      are converted, in order. */
  lemma {:induction false} BundleChildrenAreThePackages(files: seq<string>, bundleDirectory: string, temporaries: TemporaryDirectories)
    ensures ConvertBundleChildren(files, bundleDirectory, temporaries) == ConvertAll(PackageChildren(files), bundleDirectory, temporaries)
  {
    if |files| > 0 {
      BundleChildrenAreThePackages(files[1..], bundleDirectory, temporaries);
      if IsFileWithPackageExtension(files[0]) {
        assert PackageChildren(files)[1..] == PackageChildren(files[1..]);
      }
    }
  }

  /** The source's `CreateKozaniPackage`: a bundle is unbundled, its packages converted and the
      results bundled into the output file; a package is converted directly; any other file is
      left alone. */
  function CreateKozaniPackage(packageFile: string, outputFile: string, unbundleDirectory: Option<string>,
                               bundleDirectory: Option<string>, unbundledFiles: seq<string>,
                               temporaries: TemporaryDirectories): (r: Result<seq<Invocation>>)
    ensures ConversionKind(packageFile) == Unrecognized ==> r == Ok([])
    ensures ConversionKind(packageFile) == Package ==>
              r == CreateKozaniPackageFromPackage(packageFile, outputFile, temporaries(packageFile).0, temporaries(packageFile).1)
    ensures ConversionKind(packageFile) == Bundle ==>
              (r.Ok? <==> && unbundleDirectory.Some? && bundleDirectory.Some?
                          && ConvertAll(PackageChildren(unbundledFiles), bundleDirectory.value, temporaries).Ok?)
    ensures ConversionKind(packageFile) == Bundle && r.Ok? ==>
              && unbundleDirectory.Some? && bundleDirectory.Some? && |r.value| >= 2
              && r.value[0].RunMakeAppx?
              && ParseExtractArguments("unbundle", r.value[0].arguments) == Some((packageFile, unbundleDirectory.value, true))
              && r.value[|r.value| - 1].RunMakeAppx?
              && ParseBundleArguments(r.value[|r.value| - 1].arguments) == Some((bundleDirectory.value, BundleOptions(outputFile, true)))
              && Ok(r.value[1..|r.value| - 1]) == ConvertAll(PackageChildren(unbundledFiles), bundleDirectory.value, temporaries)
    ensures r.Err? ==> r.error == Unexpected
    ensures r.Ok? ==> AlwaysOverwrites(r.value)
  {
    match ConversionKind(packageFile)
    case Bundle =>
      var unbundleTo :- if unbundleDirectory.Some? then Ok(unbundleDirectory.value) else Err(Unexpected);
      var bundleFrom :- if bundleDirectory.Some? then Ok(bundleDirectory.value) else Err(Unexpected);
      BundleChildrenAreThePackages(unbundledFiles, bundleFrom, temporaries);
      var converted :- ConvertBundleChildren(unbundledFiles, bundleFrom, temporaries);
      ExtractArgumentsRoundTrip("unbundle", packageFile, unbundleTo, true);
      BundleArgumentsRoundTrip(bundleFrom, BundleOptions(outputFile, true));
      var plan := [RunMakeAppx(UnbundleArguments(packageFile, UnbundleOptions(unbundleTo, true)))] + converted
                  + [RunMakeAppx(BundleArguments(bundleFrom, BundleOptions(outputFile, true)))];
      assert plan[1..|plan| - 1] == converted;
      AlwaysOverwritesAppend([plan[0]], converted);
      AlwaysOverwritesAppend([plan[0]] + converted, [plan[|plan| - 1]]);
      Ok(plan)
    case Package =>
      CreateKozaniPackageFromPackage(packageFile, outputFile, temporaries(packageFile).0, temporaries(packageFile).1)
    case _ =>
      Ok([])
  }
}

=== FILE: manifest_converter.dfy ===
/** Rewriting an application manifest into a Kozani manifest: the package keeps only the
    elements a remote application needs, loses its framework dependencies, depends on the Kozani
    host runtime, and every application is started through that host. */
module ManifestConverter {
  import opened Outcomes
  import opened Xml
  import opened Constants

  /** The `Package` child elements that survive, by qualified node name. */
  const AllowedPackageChildren: set<string> :=
    {"Identity", "Properties", "Dependencies", "Resources", "Applications", "Capabilities"}

  const Uap10NamespaceAttribute: string := "xmlns:uap10"
  const KozaniTargetMinVersion: string := "10.0.19003.0"
  const HostRuntimePublisher: string := "CN=Microsoft Windows, O=Microsoft Corporation, L=Redmond, S=Washington, C=US"
  const HostRuntimeMinVersion: string := "1.0.0.0"

  /** The `uap10:HostRuntimeDependency` element appended to the dependencies. */
  const HostRuntimeDependency: Node :=
    Element("uap10" + ":" + "HostRuntimeDependency",
            map["Name" := ManifestKozaniHostRuntime, "Publisher" := HostRuntimePublisher, "MinVersion" := HostRuntimeMinVersion],
            [])

  // ---------------------------------------------------------------------------------------------
  // The package element's own attributes

  /** Declares the uap10 namespace on the package element unless it is already declared. */
  function AddUap10Namespace(attributes: map<string, string>): (r: map<string, string>)
    ensures Uap10NamespaceAttribute in r
    ensures Uap10NamespaceAttribute in attributes ==> r == attributes
    ensures Uap10NamespaceAttribute !in attributes ==> r[Uap10NamespaceAttribute] == ManifestUap10Namespace
    ensures forall k :: k != Uap10NamespaceAttribute ==> (k in r <==> k in attributes)
    ensures forall k :: k in attributes ==> k in r && r[k] == attributes[k]
  {
    if Uap10NamespaceAttribute in attributes then attributes
    else attributes[Uap10NamespaceAttribute := ManifestUap10Namespace]
  }

  /** Declaring the namespace twice is declaring it once. */
  lemma AddUap10NamespaceIdempotent(attributes: map<string, string>)
    ensures AddUap10Namespace(AddUap10Namespace(attributes)) == AddUap10Namespace(attributes)
  {
  }

  // ---------------------------------------------------------------------------------------------
  // The dependencies element

  predicate IsPackageDependency(n: Node)
  {
    IsElementNamed(n, "PackageDependency")
  }

  predicate IsTargetDeviceFamily(n: Node)
  {
    IsElementNamed(n, "TargetDeviceFamily")
  }

  /** Removes every `PackageDependency` child, keeping the other children in order. */
  function RemovePackageDependencies(children: seq<Node>): (r: seq<Node>)
    ensures |r| <= |children|
    ensures forall i :: 0 <= i < |r| ==> !IsPackageDependency(r[i])
  {
    if |children| == 0 then []
    else
      var rest := RemovePackageDependencies(children[1..]);
      if IsPackageDependency(children[0]) then rest else [children[0]] + rest
  }

  /** A child survives the removal exactly when it is not a package dependency. */
  lemma {:induction false} RemovePackageDependenciesMembers(children: seq<Node>)
    ensures forall n :: n in RemovePackageDependencies(children) <==> n in children && !IsPackageDependency(n)
  {
    if |children| > 0 {
      RemovePackageDependenciesMembers(children[1..]);
      assert forall n :: n in children <==> n == children[0] || n in children[1..];
    }
  }

  /** One step of the removal. */
  lemma RemovePackageDependenciesUnfold(children: seq<Node>)
    requires |children| > 0
    ensures RemovePackageDependencies(children) ==
              (if IsPackageDependency(children[0]) then [] else [children[0]]) + RemovePackageDependencies(children[1..])
  {
    if IsPackageDependency(children[0]) {
      assert [] + RemovePackageDependencies(children[1..]) == RemovePackageDependencies(children[1..]);
    }
  }

  lemma Associate(h: seq<Node>, x: seq<Node>, y: seq<Node>)
    ensures h + (x + y) == (h + x) + y
  {
  }

  /** Removing distributes over concatenation: the removal keeps the order of what it keeps. */
  lemma {:induction false} RemovePackageDependenciesAppend(a: seq<Node>, b: seq<Node>)
    ensures RemovePackageDependencies(a + b) == RemovePackageDependencies(a) + RemovePackageDependencies(b)
  {
    if |a| == 0 {
      assert a + b == b;
    } else {
      RemovePackageDependenciesAppend(a[1..], b);
      var ab := a + b;
      assert ab[1..] == a[1..] + b;
      var h := if IsPackageDependency(a[0]) then [] else [a[0]];
      RemovePackageDependenciesUnfold(ab);
      assert RemovePackageDependencies(ab) == h + RemovePackageDependencies(a[1..] + b);
      RemovePackageDependenciesUnfold(a);
      Associate(h, RemovePackageDependencies(a[1..]), RemovePackageDependencies(b));
    }
  }

  /** A single child is kept exactly when it is not a package dependency. */
  lemma RemovePackageDependenciesSingle(n: Node)
    ensures RemovePackageDependencies([n]) == if IsPackageDependency(n) then [] else [n]
  {
    assert [n][1..] == [];
  }

  /** Children without a package dependency pass through unchanged. */
  lemma {:induction false} RemovePackageDependenciesKeepsAll(children: seq<Node>)
    requires forall i :: 0 <= i < |children| ==> !IsPackageDependency(children[i])
    ensures RemovePackageDependencies(children) == children
  {
    if |children| > 0 {
      assert forall i :: 0 <= i < |children[1..]| ==> children[1..][i] == children[i + 1];
      RemovePackageDependenciesKeepsAll(children[1..]);
      assert children == [children[0]] + children[1..];
    }
  }

  /** A `TargetDeviceFamily` element whose `MinVersion` is the Kozani minimum, all else as in `n`. */
  predicate IsRetargeted(original: Node, n: Node)
  {
    && original.Element? && n.Element?
    && n.name == original.name && n.children == original.children
    && "MinVersion" in n.attributes && n.attributes["MinVersion"] == KozaniTargetMinVersion
    && n.attributes.Keys == original.attributes.Keys
    && (forall k :: k in original.attributes && k != "MinVersion" ==> n.attributes[k] == original.attributes[k])
  }

  /** Retargets one child: a `TargetDeviceFamily` gets the Kozani `MinVersion`, which it must
      already carry (the source rewrites the attribute without checking it exists). */
  function SetMinVersion(n: Node): (r: Result<Node>)
    ensures r.Ok? <==> !IsTargetDeviceFamily(n) || "MinVersion" in n.attributes
    ensures r.Err? ==> r.error == NullNode
    ensures r.Ok? && IsTargetDeviceFamily(n) ==> IsRetargeted(n, r.value) && IsTargetDeviceFamily(r.value)
    ensures r.Ok? && !IsTargetDeviceFamily(n) ==> r.value == n
  {
    if !IsTargetDeviceFamily(n) then Ok(n)
    else if "MinVersion" !in n.attributes then Err(NullNode)
    else Ok(n.(attributes := n.attributes["MinVersion" := KozaniTargetMinVersion]))
  }

  /** What `SetMinVersions` does to the child at one position. */
  predicate Retargeted(original: Node, n: Node)
  {
    if IsTargetDeviceFamily(original) then IsRetargeted(original, n) && IsTargetDeviceFamily(n) else n == original
  }

  predicate AllTargetsVersioned(children: seq<Node>)
  {
    forall i :: 0 <= i < |children| && IsTargetDeviceFamily(children[i]) ==> "MinVersion" in children[i].attributes
  }

  /** Every `TargetDeviceFamily` must carry a `MinVersion` attribute; its value becomes the
      Kozani minimum version and nothing else changes. */
  function SetMinVersions(children: seq<Node>): (r: Result<seq<Node>>)
    ensures r.Ok? <==> AllTargetsVersioned(children)
    ensures r.Err? ==> r.error == NullNode
    ensures r.Ok? ==> |r.value| == |children| && forall i :: 0 <= i < |children| ==> Retargeted(children[i], r.value[i])
  {
    if |children| == 0 then Ok([])
    else
      var head := SetMinVersion(children[0]);
      var tail := SetMinVersions(children[1..]);
      assert AllTargetsVersioned(children) <==> head.Ok? && AllTargetsVersioned(children[1..]) by {
        if head.Ok? && AllTargetsVersioned(children[1..]) {
          forall i | 0 < i < |children| && IsTargetDeviceFamily(children[i]) ensures "MinVersion" in children[i].attributes {
            assert children[i] == children[1..][i - 1];
          }
        }
      }
      if head.Err? then Err(head.error)
      else if tail.Err? then Err(tail.error)
      else
        var r := [head.value] + tail.value;
        assert forall i :: 0 < i < |children| ==> r[i] == tail.value[i - 1] && children[i] == children[1..][i - 1];
        Ok(r)
  }

  /** Retargeting twice is retargeting once. */
  lemma {:induction false} SetMinVersionsIdempotent(children: seq<Node>)
    requires SetMinVersions(children).Ok?
    ensures SetMinVersions(SetMinVersions(children).value) == SetMinVersions(children)
  {
    if |children| > 0 {
      SetMinVersionsIdempotent(children[1..]);
      var once := SetMinVersions(children).value;
      assert once[1..] == SetMinVersions(children[1..]).value;
      var h := once[0];
      assert SetMinVersion(h) == Ok(h) by {
        if IsTargetDeviceFamily(h) {
          assert h.attributes["MinVersion" := KozaniTargetMinVersion] == h.attributes;
        }
      }
    }
  }

  /** Children whose target device families already carry the Kozani minimum are left as they are. */
  lemma {:induction false} SetMinVersionsKeepsKozani(children: seq<Node>)
    requires forall i :: 0 <= i < |children| && IsTargetDeviceFamily(children[i]) ==>
               "MinVersion" in children[i].attributes && children[i].attributes["MinVersion"] == KozaniTargetMinVersion
    ensures SetMinVersions(children) == Ok(children)
  {
    if |children| > 0 {
      assert forall i :: 0 <= i < |children[1..]| ==> children[1..][i] == children[i + 1];
      SetMinVersionsKeepsKozani(children[1..]);
      var h := children[0];
      assert SetMinVersion(h) == Ok(h) by {
        if IsTargetDeviceFamily(h) {
          assert h.attributes["MinVersion" := KozaniTargetMinVersion] == h.attributes;
        }
      }
      assert children == [h] + children[1..];
    }
  }

  /** Every `TargetDeviceFamily` child of the element carries a `MinVersion`. */
  predicate DependenciesVersioned(dependencies: Node)
  {
    dependencies.Element? && forall n :: n in dependencies.children && IsTargetDeviceFamily(n) ==> "MinVersion" in n.attributes
  }

  /** The source's treatment of the `Dependencies` element: framework dependencies removed, target
      device families retargeted, host runtime dependency appended. */
  function ModifyDependencies(dependencies: Node): (r: Result<Node>)
    requires dependencies.Element?
    ensures r.Ok? <==> DependenciesVersioned(dependencies)
    ensures r.Err? ==> r.error == NullNode
    ensures r.Ok? ==> IsKozaniDependencies(r.value) && r.value.name == dependencies.name
    ensures r.Ok? ==>
              var kept := RemovePackageDependencies(dependencies.children);
              && r.value.attributes == dependencies.attributes
              && |r.value.children| == |kept| + 1
              && r.value.children[|kept|] == HostRuntimeDependency
              && forall i :: 0 <= i < |kept| ==> Retargeted(kept[i], r.value.children[i])
  {
    var kept := RemovePackageDependencies(dependencies.children);
    KeptTargetsVersioned(dependencies.children, kept);
    var retargeted :- SetMinVersions(kept);
    RetargetedDependencies(kept, retargeted);
    var children := retargeted + [HostRuntimeDependency];
    assert forall i :: 0 <= i < |kept| ==> children[i] == retargeted[i];
    Ok(dependencies.(children := children))
  }

  /** Converting converted dependencies again only appends a second host runtime dependency: the
      conversion is not idempotent, and it changes nothing else on a second run. */
  lemma ModifyDependenciesTwice(dependencies: Node)
    requires dependencies.Element? && ModifyDependencies(dependencies).Ok?
    ensures var once := ModifyDependencies(dependencies).value;
            ModifyDependencies(once) == Ok(once.(children := once.children + [HostRuntimeDependency]))
  {
    var once := ModifyDependencies(dependencies).value;
    var c := once.children;
    RemovePackageDependenciesKeepsAll(c);
    SetMinVersionsKeepsKozani(c);
    assert DependenciesVersioned(once) by {
      forall n | n in c && IsTargetDeviceFamily(n) ensures "MinVersion" in n.attributes {
        var i :| 0 <= i < |c| && c[i] == n;
      }
    }
  }

  lemma KeptTargetsVersioned(children: seq<Node>, kept: seq<Node>)
    requires kept == RemovePackageDependencies(children)
    ensures AllTargetsVersioned(kept) <==> forall n :: n in children && IsTargetDeviceFamily(n) ==> "MinVersion" in n.attributes
  {
    RemovePackageDependenciesMembers(children);
    if !AllTargetsVersioned(kept) {
      var i :| 0 <= i < |kept| && IsTargetDeviceFamily(kept[i]) && "MinVersion" !in kept[i].attributes;
      assert kept[i] in kept;
    }
  }

  /** The appended element is neither a package dependency nor a target device family. */
  lemma HostRuntimeDependencyKind()
    ensures !IsPackageDependency(HostRuntimeDependency) && !IsTargetDeviceFamily(HostRuntimeDependency)
  {
    var name := HostRuntimeDependency.name;
    assert name == "uap10:" + "HostRuntimeDependency";
    assert name[5] == ':' && ':' in name;
    assert name[..5] == "uap10";
    Xml.AfterFirstColonOfPrefix("uap10", "HostRuntimeDependency");
    assert |LocalName(name)| == 21;
  }

  /** One retargeted child keeps its kind and, as a target device family, has the Kozani version. */
  lemma RetargetedChild(original: Node, n: Node)
    requires !IsPackageDependency(original) && Retargeted(original, n)
    ensures !IsPackageDependency(n)
    ensures IsTargetDeviceFamily(n) ==> "MinVersion" in n.attributes && n.attributes["MinVersion"] == KozaniTargetMinVersion
  {
  }

  lemma RetargetedDependencies(kept: seq<Node>, retargeted: seq<Node>)
    requires forall i :: 0 <= i < |kept| ==> !IsPackageDependency(kept[i])
    requires |retargeted| == |kept| && forall i :: 0 <= i < |kept| ==> Retargeted(kept[i], retargeted[i])
    ensures IsKozaniDependencies(Element("Dependencies", map[], retargeted + [HostRuntimeDependency]))
  {
    forall i | 0 <= i < |retargeted|
      ensures !IsPackageDependency(retargeted[i])
      ensures IsTargetDeviceFamily(retargeted[i]) ==>
                "MinVersion" in retargeted[i].attributes && retargeted[i].attributes["MinVersion"] == KozaniTargetMinVersion
    {
      RetargetedChild(kept[i], retargeted[i]);
    }
    HostRuntimeDependencyAppended(retargeted);
  }

  /** Children in the Kozani form followed by the host runtime dependency make a Kozani `Dependencies`. */
  lemma HostRuntimeDependencyAppended(children: seq<Node>)
    requires forall i :: 0 <= i < |children| ==> !IsPackageDependency(children[i])
    requires forall i :: 0 <= i < |children| && IsTargetDeviceFamily(children[i]) ==>
               "MinVersion" in children[i].attributes && children[i].attributes["MinVersion"] == KozaniTargetMinVersion
    ensures IsKozaniDependencies(Element("Dependencies", map[], children + [HostRuntimeDependency]))
  {
    HostRuntimeDependencyKind();
    var all := children + [HostRuntimeDependency];
    assert forall i :: 0 <= i < |children| ==> all[i] == children[i];
  }

  /** A rewritten `Dependencies` element: no framework dependency, every target device family at
      the Kozani minimum version, and the host runtime dependency last. */
  predicate IsKozaniDependencies(n: Node)
  {
    && n.Element?
    && |n.children| > 0
    && n.children[|n.children| - 1] == HostRuntimeDependency
    && (forall i :: 0 <= i < |n.children| ==> !IsPackageDependency(n.children[i]))
    && (forall i :: 0 <= i < |n.children| && IsTargetDeviceFamily(n.children[i]) ==>
          "MinVersion" in n.children[i].attributes && n.children[i].attributes["MinVersion"] == KozaniTargetMinVersion)
  }

  /** The position of the first child element with local name `local`, the one `SelectSingleNode`
      picks. */
  function FirstNamed(children: seq<Node>, local: string): (r: Option<nat>)
    ensures r.Some? ==> r.value < |children| && IsElementNamed(children[r.value], local)
    ensures r.Some? ==> forall j :: 0 <= j < r.value ==> !IsElementNamed(children[j], local)
    ensures r.None? ==> forall j :: 0 <= j < |children| ==> !IsElementNamed(children[j], local)
  {
    if |children| == 0 then None
    else if IsElementNamed(children[0], local) then Some(0)
    else
      match FirstNamed(children[1..], local)
      case None => None
      case Some(i) => Some(i + 1)
  }

  /** Rewrites the first `Dependencies` child of the package; its absence is a null dereference. */
  function ModifyFirstDependencies(children: seq<Node>): (r: Result<seq<Node>>)
    ensures FirstNamed(children, "Dependencies").None? ==> r == Err(NullNode)
    ensures r.Ok? <==> && FirstNamed(children, "Dependencies").Some?
                       && DependenciesVersioned(children[FirstNamed(children, "Dependencies").value])
    ensures r.Ok? ==>
              var i := FirstNamed(children, "Dependencies").value;
              r.value == children[i := ModifyDependencies(children[i]).value]
    ensures r.Ok? ==>
              var i := FirstNamed(children, "Dependencies").value;
              && |r.value| == |children|
              && IsKozaniDependencies(r.value[i]) && r.value[i].name == children[i].name
              && forall j :: 0 <= j < |children| && j != i ==> r.value[j] == children[j]
  {
    match FirstNamed(children, "Dependencies")
    case None => Err(NullNode)
    case Some(i) =>
      var dependencies :- ModifyDependencies(children[i]);
      Ok(children[i := dependencies])
  }

  // ---------------------------------------------------------------------------------------------
  // The package element's children

  /** An element whose qualified name is not one of the allowed ones; other nodes always stay. */
  predicate IsDisallowedChild(n: Node)
  {
    n.Element? && n.name !in AllowedPackageChildren
  }

  /** Removes the disallowed child elements, keeping everything else in order. */
  function FilterPackageChildren(children: seq<Node>): (r: seq<Node>)
    ensures |r| <= |children|
    ensures forall i :: 0 <= i < |r| ==> !IsDisallowedChild(r[i])
  {
    if |children| == 0 then []
    else
      var rest := FilterPackageChildren(children[1..]);
      if IsDisallowedChild(children[0]) then rest else [children[0]] + rest
  }

  /** A child survives the filter exactly when it is not a disallowed element. */
  lemma {:induction false} FilterPackageChildrenMembers(children: seq<Node>)
    ensures forall n :: n in FilterPackageChildren(children) <==> n in children && !IsDisallowedChild(n)
  {
    if |children| > 0 {
      FilterPackageChildrenMembers(children[1..]);
      assert forall n :: n in children <==> n == children[0] || n in children[1..];
    }
  }

  /** One step of the filter. */
  lemma FilterPackageChildrenUnfold(children: seq<Node>)
    requires |children| > 0
    ensures FilterPackageChildren(children) ==
              (if IsDisallowedChild(children[0]) then [] else [children[0]]) + FilterPackageChildren(children[1..])
  {
    if IsDisallowedChild(children[0]) {
      assert [] + FilterPackageChildren(children[1..]) == FilterPackageChildren(children[1..]);
    }
  }

  /** Filtering distributes over concatenation: the filter keeps the order of what it keeps. */
  lemma {:induction false} FilterPackageChildrenAppend(a: seq<Node>, b: seq<Node>)
    ensures FilterPackageChildren(a + b) == FilterPackageChildren(a) + FilterPackageChildren(b)
  {
    if |a| == 0 {
      assert a + b == b;
    } else {
      FilterPackageChildrenAppend(a[1..], b);
      var ab := a + b;
      assert ab[1..] == a[1..] + b;
      var h := if IsDisallowedChild(a[0]) then [] else [a[0]];
      FilterPackageChildrenUnfold(ab);
      assert FilterPackageChildren(ab) == h + FilterPackageChildren(a[1..] + b);
      FilterPackageChildrenUnfold(a);
      Associate(h, FilterPackageChildren(a[1..]), FilterPackageChildren(b));
    }
  }

  /** A single child is kept exactly when it is allowed. */
  lemma FilterPackageChildrenSingle(n: Node)
    ensures FilterPackageChildren([n]) == if IsDisallowedChild(n) then [] else [n]
  {
    assert [n][1..] == [];
  }

  /** Filtering twice is filtering once. */
  lemma {:induction false} FilterPackageChildrenIdempotent(children: seq<Node>)
    ensures FilterPackageChildren(FilterPackageChildren(children)) == FilterPackageChildren(children)
  {
    if |children| > 0 {
      FilterPackageChildrenIdempotent(children[1..]);
      var rest := FilterPackageChildren(children[1..]);
      if !IsDisallowedChild(children[0]) {
        assert ([children[0]] + rest)[1..] == rest;
      }
    }
  }

  // ---------------------------------------------------------------------------------------------
  // Applications

  /** An application started through the host: exactly its `Id`, the host id and the parameters
      that name its application user model id. */
  predicate IsHostedApplication(n: Node, aumidPrefix: string)
  {
    && n.Element?
    && n.attributes.Keys == {"Id", "HostId", "Parameters"}
    && n.attributes["HostId"] == ManifestKozaniHostRuntime
    && n.attributes["Parameters"] == "-aumid " + aumidPrefix + n.attributes["Id"]
  }

  /** Every `Application` child of `applications` is started through the host. */
  predicate HostsAllApplications(applications: Node, aumidPrefix: string)
  {
    applications.Element? && forall j :: 0 <= j < |applications.children| && IsApplication(applications.children[j]) ==>
      IsHostedApplication(applications.children[j], aumidPrefix)
  }

  /** Replaces all attributes of an `Application` by `Id`, `HostId` and `Parameters`; a missing
      `Id` is a null dereference. */
  function RewriteApplication(application: Node, aumidPrefix: string): (r: Result<Node>)
    requires application.Element?
    ensures r.Ok? <==> "Id" in application.attributes
    ensures r.Err? ==> r.error == NullNode
    ensures r.Ok? ==> IsHostedApplication(r.value, aumidPrefix)
    ensures r.Ok? ==> r.value.attributes["Id"] == application.attributes["Id"]
    ensures r.Ok? ==> r.value.name == application.name && r.value.children == application.children
  {
    if "Id" !in application.attributes then Err(NullNode)
    else
      var id := application.attributes["Id"];
      Ok(application.(attributes := map["Id" := id, "HostId" := ManifestKozaniHostRuntime, "Parameters" := "-aumid " + aumidPrefix + id]))
  }

  predicate IsApplication(n: Node)
  {
    IsElementNamed(n, "Application")
  }

  predicate IsApplications(n: Node)
  {
    IsElementNamed(n, "Applications")
  }

  /** What the rewrite does to one child of an `Applications` element. */
  predicate ApplicationRewritten(original: Node, n: Node, aumidPrefix: string)
  {
    if IsApplication(original) then
      && IsApplication(n) && IsHostedApplication(n, aumidPrefix)
      && n.name == original.name && n.children == original.children
      && "Id" in original.attributes && n.attributes["Id"] == original.attributes["Id"]
    else n == original
  }

  predicate AllApplicationsHaveIds(children: seq<Node>)
  {
    forall i :: 0 <= i < |children| && IsApplication(children[i]) ==> "Id" in children[i].attributes
  }

  /** Rewrites every `Application` among `children`; the other children are untouched. */
  function RewriteApplications(children: seq<Node>, aumidPrefix: string): (r: Result<seq<Node>>)
    ensures r.Ok? <==> AllApplicationsHaveIds(children)
    ensures r.Err? ==> r.error == NullNode
    ensures r.Ok? ==> |r.value| == |children|
    ensures r.Ok? ==> forall i :: 0 <= i < |children| ==> ApplicationRewritten(children[i], r.value[i], aumidPrefix)
  {
    if |children| == 0 then Ok([])
    else
      var n := children[0];
      var head := if IsApplication(n) then RewriteApplication(n, aumidPrefix) else Ok(n);
      var tail := RewriteApplications(children[1..], aumidPrefix);
      assert AllApplicationsHaveIds(children) <==> head.Ok? && AllApplicationsHaveIds(children[1..]) by {
        if head.Ok? && AllApplicationsHaveIds(children[1..]) {
          forall i | 0 < i < |children| && IsApplication(children[i]) ensures "Id" in children[i].attributes {
            assert children[i] == children[1..][i - 1];
          }
        }
      }
      if head.Err? then Err(head.error)
      else if tail.Err? then Err(tail.error)
      else
        var r := [head.value] + tail.value;
        assert forall i :: 0 < i < |children| ==> r[i] == tail.value[i - 1] && children[i] == children[1..][i - 1];
        Ok(r)
  }

  /** What the rewrite does to one child of the package element. */
  predicate ApplicationsRewritten(original: Node, n: Node, aumidPrefix: string)
  {
    if IsApplications(original) then
      && IsApplications(n) && n.name == original.name && n.attributes == original.attributes
      && |n.children| == |original.children|
      && (forall j :: 0 <= j < |original.children| ==> ApplicationRewritten(original.children[j], n.children[j], aumidPrefix))
      && HostsAllApplications(n, aumidPrefix)
    else n == original
  }

  /** Every application under every `Applications` child has an `Id`. */
  predicate AllApplicationIds(children: seq<Node>)
  {
    forall i :: 0 <= i < |children| && IsApplications(children[i]) ==> AllApplicationsHaveIds(children[i].children)
  }

  /** The rewrite of one `Applications` element. */
  function RewriteApplicationsElement(applications: Node, aumidPrefix: string): (r: Result<Node>)
    requires IsApplications(applications)
    ensures r.Ok? <==> AllApplicationsHaveIds(applications.children)
    ensures r.Err? ==> r.error == NullNode
    ensures r.Ok? ==> ApplicationsRewritten(applications, r.value, aumidPrefix)
  {
    var apps :- RewriteApplications(applications.children, aumidPrefix);
    var r := applications.(children := apps);
    assert HostsAllApplications(r, aumidPrefix) by {
      forall j | 0 <= j < |apps| && IsApplication(apps[j]) ensures IsHostedApplication(apps[j], aumidPrefix) {
        assert ApplicationRewritten(applications.children[j], apps[j], aumidPrefix);
      }
    }
    Ok(r)
  }

  /** Rewrites the applications under every `Applications` child of the package, which is what
      the source's `Package/Applications/Application` query selects. */
  function RewritePackageApplications(children: seq<Node>, aumidPrefix: string): (r: Result<seq<Node>>)
    ensures r.Ok? <==> AllApplicationIds(children)
    ensures r.Err? ==> r.error == NullNode
    ensures r.Ok? ==> |r.value| == |children|
    ensures r.Ok? ==> forall i :: 0 <= i < |children| ==> ApplicationsRewritten(children[i], r.value[i], aumidPrefix)
  {
    if |children| == 0 then Ok([])
    else
      var n := children[0];
      var head := if IsApplications(n) then RewriteApplicationsElement(n, aumidPrefix) else Ok(n);
      var tail := RewritePackageApplications(children[1..], aumidPrefix);
      assert AllApplicationIds(children) <==> head.Ok? && AllApplicationIds(children[1..]) by {
        if head.Ok? && AllApplicationIds(children[1..]) {
          forall i | 0 < i < |children| && IsApplications(children[i]) ensures AllApplicationsHaveIds(children[i].children) {
            assert children[i] == children[1..][i - 1];
          }
        }
      }
      if head.Err? then Err(head.error)
      else if tail.Err? then Err(tail.error)
      else
        var r := [head.value] + tail.value;
        assert forall i :: 0 < i < |children| ==> r[i] == tail.value[i - 1] && children[i] == children[1..][i - 1];
        Ok(r)
  }

  /** A hosted application is determined by its name, children, `Id` and the prefix. */
  lemma HostedApplicationsAgree(a: Node, b: Node, aumidPrefix: string)
    requires IsHostedApplication(a, aumidPrefix) && IsHostedApplication(b, aumidPrefix)
    requires a.name == b.name && a.children == b.children && a.attributes["Id"] == b.attributes["Id"]
    ensures a == b
  {
    assert a.attributes == b.attributes;
  }

  /** Rewriting an already rewritten child of the package changes nothing. */
  lemma ApplicationsRewrittenFixed(original: Node, once: Node, twice: Node, aumidPrefix: string)
    requires ApplicationsRewritten(original, once, aumidPrefix) && ApplicationsRewritten(once, twice, aumidPrefix)
    ensures twice == once
  {
    if IsApplications(once) {
      assert IsApplications(original);
      forall j | 0 <= j < |once.children| ensures twice.children[j] == once.children[j] {
        assert ApplicationRewritten(original.children[j], once.children[j], aumidPrefix);
        assert ApplicationRewritten(once.children[j], twice.children[j], aumidPrefix);
        if IsApplication(once.children[j]) {
          HostedApplicationsAgree(once.children[j], twice.children[j], aumidPrefix);
        }
      }
      assert twice.children == once.children;
    }
  }

  /** Rewriting the applications twice is rewriting them once. */
  lemma RewritePackageApplicationsIdempotent(children: seq<Node>, aumidPrefix: string)
    requires RewritePackageApplications(children, aumidPrefix).Ok?
    ensures RewritePackageApplications(RewritePackageApplications(children, aumidPrefix).value, aumidPrefix)
            == RewritePackageApplications(children, aumidPrefix)
  {
    var once := RewritePackageApplications(children, aumidPrefix).value;
    assert AllApplicationIds(once) by {
      forall i | 0 <= i < |once| && IsApplications(once[i]) ensures AllApplicationsHaveIds(once[i].children) {
        assert ApplicationsRewritten(children[i], once[i], aumidPrefix);
        forall j | 0 <= j < |once[i].children| && IsApplication(once[i].children[j])
          ensures "Id" in once[i].children[j].attributes
        {
          assert ApplicationRewritten(children[i].children[j], once[i].children[j], aumidPrefix);
        }
      }
    }
    var twice := RewritePackageApplications(once, aumidPrefix).value;
    forall i | 0 <= i < |once| ensures twice[i] == once[i] {
      ApplicationsRewrittenFixed(children[i], once[i], twice[i], aumidPrefix);
    }
    assert twice == once;
  }

  // ---------------------------------------------------------------------------------------------
  // The operation

  /** The package family name computed from the identity the manifest declares: `Name` and
      `Publisher` are both required, and `familyName` stands for `PackageFamilyNameFromId`
      (None when it rejects the identity). */
  function PackageFamilyName(package: Node, familyName: (string, string) -> Option<string>): (r: Result<string>)
    ensures r.Ok? <==>
              && SelectSingle(package, PackageIdentityNameQuery).GetOr("") != ""
              && SelectSingle(package, PackageIdentityPublisherQuery).GetOr("") != ""
              && familyName(SelectSingle(package, PackageIdentityNameQuery).value,
                            SelectSingle(package, PackageIdentityPublisherQuery).value).Some?
    ensures r.Ok? ==> r == Ok(familyName(SelectSingle(package, PackageIdentityNameQuery).value,
                                         SelectSingle(package, PackageIdentityPublisherQuery).value).value)
    ensures r.Err? ==> r.error in {XmlParseError, InvalidArgument}
  {
    var name :- FindNodeTextValue(package, PackageIdentityNameQuery, true, "");
    var publisher :- FindNodeTextValue(package, PackageIdentityPublisherQuery, true, "");
    match familyName(name, publisher)
    case None => Err(InvalidArgument)
    case Some(f) => Ok(f)
  }

  /** The first `Dependencies` child of `doc` carries no prefix, so the child filter keeps it. */
  predicate UnprefixedDependencies(doc: Node)
  {
    doc.Element? && FirstNamed(doc.children, "Dependencies").Some?
    && doc.children[FirstNamed(doc.children, "Dependencies").value].name == "Dependencies"
  }

  /** Some child is a rewritten `Dependencies` element. */
  predicate HasKozaniDependencies(children: seq<Node>)
  {
    exists i :: 0 <= i < |children| && IsKozaniDependencies(children[i]) && IsElementNamed(children[i], "Dependencies")
  }

  /** The package element after the dependency and child-element edits, before the applications
      are rewritten. */
  function TrimPackage(doc: Node): (r: Result<Node>)
    ensures !IsElementNamed(doc, "Package") ==> r == Err(NullNode)
    ensures IsElementNamed(doc, "Package") && FirstNamed(doc.children, "Dependencies").None? ==> r == Err(NullNode)
    ensures r.Ok? <==> CanTrim(doc)
    ensures r.Err? ==> r.error == NullNode
    ensures r.Ok? ==> IsElementNamed(doc, "Package") && r.value.Element? && r.value.name == doc.name
    ensures r.Ok? ==> r.value.attributes == AddUap10Namespace(doc.attributes)
    ensures r.Ok? ==> forall i :: 0 <= i < |r.value.children| ==> !IsDisallowedChild(r.value.children[i])
    ensures r.Ok? && UnprefixedDependencies(doc) ==> HasKozaniDependencies(r.value.children)
    ensures r.Ok? ==>
              var i := FirstNamed(doc.children, "Dependencies").value;
              r.value.children == FilterPackageChildren(doc.children[..i])
                                  + FilterPackageChildren([ModifyDependencies(doc.children[i]).value])
                                  + FilterPackageChildren(doc.children[i + 1..])
  {
    if !IsElementNamed(doc, "Package") then Err(NullNode)
    else
      var children :- ModifyFirstDependencies(doc.children);
      var kept := FilterPackageChildren(children);
      FilterKeepsDependencies(doc, children);
      var i := FirstNamed(doc.children, "Dependencies").value;
      var d := ModifyDependencies(doc.children[i]).value;
      assert children == doc.children[..i] + [d] + doc.children[i + 1..];
      FilterPackageChildrenAppend(doc.children[..i] + [d], doc.children[i + 1..]);
      FilterPackageChildrenAppend(doc.children[..i], [d]);
      Ok(Element(doc.name, AddUap10Namespace(doc.attributes), kept))
  }

  /** What trimming needs: a `Package` root with a `Dependencies` child whose target device
      families all carry a `MinVersion`. */
  predicate CanTrim(doc: Node)
  {
    && IsElementNamed(doc, "Package")
    && FirstNamed(doc.children, "Dependencies").Some?
    && DependenciesVersioned(doc.children[FirstNamed(doc.children, "Dependencies").value])
  }

  lemma FilterKeepsDependencies(doc: Node, children: seq<Node>)
    requires doc.Element? && ModifyFirstDependencies(doc.children) == Ok(children)
    ensures UnprefixedDependencies(doc) ==> HasKozaniDependencies(FilterPackageChildren(children))
  {
    if UnprefixedDependencies(doc) {
      var kept := FilterPackageChildren(children);
      FilterPackageChildrenMembers(children);
      var d := children[FirstNamed(doc.children, "Dependencies").value];
      assert d in children && d.name == "Dependencies" && LocalName(d.name) == "Dependencies";
      var i :| 0 <= i < |kept| && kept[i] == d;
    }
  }

  lemma RewriteKeepsDependencies(children: seq<Node>, applications: seq<Node>, aumidPrefix: string)
    requires RewritePackageApplications(children, aumidPrefix) == Ok(applications)
    ensures HasKozaniDependencies(children) ==> HasKozaniDependencies(applications)
  {
    if HasKozaniDependencies(children) {
      var i :| 0 <= i < |children| && IsKozaniDependencies(children[i]) && IsElementNamed(children[i], "Dependencies");
      assert ApplicationsRewritten(children[i], applications[i], aumidPrefix);
    }
  }

  /** The source's `ModifyManifest` on the parsed manifest `doc`. Reading and saving the file are
      outside the model; the Ok value is the document that would be written. */
  function ModifyManifest(doc: Node, familyName: (string, string) -> Option<string>): (r: Result<Node>)
    ensures !IsElementNamed(doc, "Package") ==> r == Err(NullNode)
    ensures IsElementNamed(doc, "Package") && FirstNamed(doc.children, "Dependencies").None? ==> r == Err(NullNode)
    ensures r.Err? ==> r.error in {NullNode, XmlParseError, InvalidArgument}
    ensures r.Ok? ==> IsElementNamed(doc, "Package") && r.value.Element? && r.value.name == doc.name
    ensures r.Ok? ==> r.value.attributes == AddUap10Namespace(doc.attributes)
    ensures r.Ok? ==> forall i :: 0 <= i < |r.value.children| ==> !IsDisallowedChild(r.value.children[i])
    ensures r.Ok? && UnprefixedDependencies(doc) ==> HasKozaniDependencies(r.value.children)
    ensures r.Ok? ==> PackageFamilyName(r.value, familyName).Ok?
    ensures r.Ok? ==> forall i :: 0 <= i < |r.value.children| && IsApplications(r.value.children[i]) ==>
              HostsAllApplications(r.value.children[i], PackageFamilyName(r.value, familyName).value + "!")
    ensures r.Ok? <==>
              && CanTrim(doc)
              && PackageFamilyName(TrimPackage(doc).value, familyName).Ok?
              && AllApplicationIds(TrimPackage(doc).value.children)
    ensures r.Ok? ==>
              var trimmed := TrimPackage(doc).value;
              var aumidPrefix := PackageFamilyName(trimmed, familyName).value + "!";
              && |r.value.children| == |trimmed.children|
              && forall i :: 0 <= i < |trimmed.children| ==> ApplicationsRewritten(trimmed.children[i], r.value.children[i], aumidPrefix)
  {
    var package :- TrimPackage(doc);
    var pfn :- PackageFamilyName(package, familyName);
    var applications :- RewritePackageApplications(package.children, pfn + "!");
    RewrittenPackageFacts(package, familyName, pfn, applications);
    Ok(package.(children := applications))
  }

  /** What rewriting the applications of a trimmed package keeps: the family name, the allowed
      children, the Kozani dependencies; and what it establishes: every application is hosted. */
  lemma RewrittenPackageFacts(package: Node, familyName: (string, string) -> Option<string>, pfn: string, applications: seq<Node>)
    requires package.Element? && PackageFamilyName(package, familyName) == Ok(pfn)
    requires RewritePackageApplications(package.children, pfn + "!") == Ok(applications)
    requires forall i :: 0 <= i < |package.children| ==> !IsDisallowedChild(package.children[i])
    ensures PackageFamilyName(package.(children := applications), familyName) == Ok(pfn)
    ensures forall i :: 0 <= i < |applications| ==> !IsDisallowedChild(applications[i])
    ensures forall i :: 0 <= i < |applications| && IsApplications(applications[i]) ==> HostsAllApplications(applications[i], pfn + "!")
    ensures HasKozaniDependencies(package.children) ==> HasKozaniDependencies(applications)
  {
    ApplicationsRewriteKeepsIdentity(package, applications, pfn + "!");
    forall i | 0 <= i < |applications|
      ensures !IsDisallowedChild(applications[i])
      ensures IsApplications(applications[i]) ==> HostsAllApplications(applications[i], pfn + "!")
    {
      assert ApplicationsRewritten(package.children[i], applications[i], pfn + "!");
    }
    RewriteKeepsDependencies(package.children, applications, pfn + "!");
  }

  /** Rewriting applications does not change what the identity queries select. */
  lemma ApplicationsRewriteKeepsIdentity(package: Node, applications: seq<Node>, aumidPrefix: string)
    requires package.Element?
    requires RewritePackageApplications(package.children, aumidPrefix) == Ok(applications)
    ensures SelectSingle(package.(children := applications), PackageIdentityNameQuery) == SelectSingle(package, PackageIdentityNameQuery)
    ensures SelectSingle(package.(children := applications), PackageIdentityPublisherQuery) == SelectSingle(package, PackageIdentityPublisherQuery)
  {
    var rewritten := package.(children := applications);
    assert forall i :: 0 <= i < |applications| ==> ApplicationsRewritten(package.children[i], applications[i], aumidPrefix);
    IdentityFirstMatchUnchanged(package.children, applications, "Name");
    IdentityFirstMatchUnchanged(package.children, applications, "Publisher");
    assert PackageIdentityNameQuery.steps[1..] == ["Identity"];
    assert PackageIdentityPublisherQuery.steps[1..] == ["Identity"];
    SameChildMatchSameSelection(package, rewritten, PackageIdentityNameQuery);
    SameChildMatchSameSelection(package, rewritten, PackageIdentityPublisherQuery);
  }

  /** Two roots with the same name whose children match the rest of a path alike select alike. */
  lemma SameChildMatchSameSelection(root: Node, other: Node, q: Query)
    requires root.Element? && other.Element? && root.name == other.name && |q.steps| >= 2
    requires FirstMatch(other.children, q.steps[1..], q.attribute) == FirstMatch(root.children, q.steps[1..], q.attribute)
    ensures SelectSingle(other, q) == SelectSingle(root, q)
  {
    assert [root][1..] == [] && [other][1..] == [];
    assert MatchBelow(other, q.steps[1..], q.attribute) == MatchBelow(root, q.steps[1..], q.attribute);
  }

  lemma {:induction false} IdentityFirstMatchUnchanged(children: seq<Node>, rewritten: seq<Node>, attribute: string)
    requires |rewritten| == |children|
    requires forall i :: 0 <= i < |children| ==>
               (IsApplications(children[i]) ==> IsApplications(rewritten[i])) && (!IsApplications(children[i]) ==> rewritten[i] == children[i])
    ensures FirstMatch(rewritten, ["Identity"], Some(attribute)) == FirstMatch(children, ["Identity"], Some(attribute))
  {
    if |children| > 0 {
      IdentityFirstMatchUnchanged(children[1..], rewritten[1..], attribute);
      if IsApplications(children[0]) {
        assert !IsElementNamed(children[0], "Identity") && !IsElementNamed(rewritten[0], "Identity");
      }
    }
  }
}

=== FILE: outcomes.dfy ===
/** Failure-carrying results for the HRESULT-returning and throwing calls of the tool. */
module Outcomes {

  datatype Option<+T> = None | Some(value: T) {

    /** The carried value, or `default` when there is none. */
    function GetOr(default: T): T
    {
      match this
      case Some(v) => v
      case None => default
    }
  }

  /** The failure codes the modelled code can produce. */
  datatype Error =
    | InvalidArgument   // E_INVALIDARG
    | XmlParseError     // HRESULT_FROM_WIN32(ERROR_XML_PARSE_ERROR)
    | Unexpected        // E_UNEXPECTED
    | Fail              // E_FAIL
    | OutOfRange        // std::out_of_range thrown by std::wstring::substr
    | NullNode          // a member call on a null XML node (the source does not check for it)
    | FileNotFound      // opening a file that is not there
    | Win32Error(code: int)  // HRESULT_FROM_WIN32(code) for a Win32 error code

  /** Either a value or the first failure met on the way to it; usable with `:-`. */
  datatype Result<+T> = Ok(value: T) | Err(error: Error) {

    predicate IsFailure() { Err? }

    function PropagateFailure<U>(): Result<U>
      requires Err?
    {
      Err(error)
    }

    function Extract(): T
      requires Ok?
    {
      value
    }
  }
}

=== FILE: package_layout.dfy ===
/** The Kozani package layout: a copy of a package directory holding only the manifest, the
    re-indexed resources and the files the manifest needs. The file system is a parameter. */
module PackageLayout {
  import opened Outcomes
  import opened Text
  import Xml
  import opened Constants
  import opened ResourceExtractor
  import opened PriReindexer

  /** What copying reports for each relative path: the copies that fail, the source files that
      exist, and the existence checks that fail themselves. */
  datatype CopyEnvironment = CopyEnvironment(copyFails: set<string>, sourceExists: set<string>, existsCheckFails: set<string>)

  /** A failed copy aborts the whole operation unless the source file is known to be absent. */
  predicate CopyAborts(env: CopyEnvironment, path: string)
  {
    path in env.copyFails && (path in env.existsCheckFails || path in env.sourceExists)
  }

  /** The source's `CopyRequiredFiles`: copies every required file; a file that fails to copy is
      skipped when it does not exist, otherwise the copy stops with an unexpected error. The Ok
      value is the set of files copied. */
  method CopyRequiredFiles(requiredFiles: set<string>, env: CopyEnvironment) returns (r: Result<set<string>>)
    ensures r.Err? <==> exists p :: p in requiredFiles && CopyAborts(env, p)
    ensures r.Err? ==> r.error == Unexpected
    ensures r.Ok? ==> r.value == requiredFiles - env.copyFails
  {
    var remaining := requiredFiles;
    var copied := {};
    while remaining != {}
      invariant remaining <= requiredFiles
      invariant copied == (requiredFiles - remaining) - env.copyFails
      invariant forall p :: p in requiredFiles - remaining ==> !CopyAborts(env, p)
      decreases |remaining|
    {
      var path :| path in remaining;
      if path in env.copyFails {
        if path in env.existsCheckFails || path in env.sourceExists {
          return Err(Unexpected);
        }
      } else {
        copied := copied + {path};
      }
      remaining := remaining - {path};
    }
    return Ok(copied);
  }

  /** A finished layout: the re-indexed resources, the files that had to be copied and those that were. */
  datatype Layout = Layout(indexer: ResourceIndexer, requiredFiles: set<string>, copiedFiles: set<string>)

  /** Whether the layout arguments are usable: two distinct existing directories. */
  predicate ValidLayoutArguments(directories: set<string>, sourceDirectory: string, outputDirectory: string)
  {
    sourceDirectory in directories && outputDirectory in directories && sourceDirectory != outputDirectory
  }

  /** The re-indexing the layout performs on a parsed manifest: the package name (required), the
      resource URIs the manifest names and the files it needs, AppxManifest.xml among them, handed
      to the re-indexer together with the resources.pri dump. */
  ghost function ReindexManifest(manifest: Xml.Node, dump: Option<PriDump>, debugBuild: bool): (r: Result<Reindexed>)
    ensures Xml.SelectSingle(manifest, PackageIdentityNameQuery).GetOr("") == "" ==> r == Err(XmlParseError)
    ensures r.Ok? ==> Xml.SelectSingle(manifest, PackageIdentityNameQuery) == Some(r.value.indexer.packageName)
    ensures r.Ok? ==> ManifestFileName in r.value.requiredFiles
  {
    match Xml.SelectSingle(manifest, PackageIdentityNameQuery)
    case None => Err(XmlParseError)
    case Some(packageName) =>
      if packageName == "" then Err(XmlParseError)
      else
        var vs := QueryValues(manifest);
        var namedResources := MsResourceUris(vs, packageName) + ImageFileUris(vs, packageName);
        ExtractedUrisNeverNameManifest(vs, packageName);
        ManifestSurvivesReindexing(dump, packageName, namedResources, {ManifestFileName} + ImageFiles(vs), debugBuild);
        CreateKozaniResourcePri(dump, packageName, namedResources, {ManifestFileName} + ImageFiles(vs), debugBuild)
  }

  /** A required file that no named resource URI resolves to is still required after re-indexing. */
  lemma ManifestSurvivesReindexing(dump: Option<PriDump>, packageName: string, namedResources: set<string>,
                                   requiredFiles: set<string>, debugBuild: bool)
    requires ManifestFileName in requiredFiles
    requires forall u :: u in namedResources ==> UnresolvedRelativePath(packageName, u) != Ok(ManifestFileName)
    ensures var r := CreateKozaniResourcePri(dump, packageName, namedResources, requiredFiles, debugBuild);
            r.Ok? ==> ManifestFileName in r.value.requiredFiles
  {
  }

  /** The source's `CreateKozaniPackageLayout`, with `CreateKozaniResourcePriFromManifestAndResourcePri`
      inlined. `manifest` is the parsed AppxManifest.xml of the source directory (None when it
      cannot be read) and `dump` the dump of its resources.pri. */
  method CreateKozaniPackageLayout(directories: set<string>, sourceDirectory: string, outputDirectory: string,
                                   manifest: Option<Xml.Node>, dump: Option<PriDump>, env: CopyEnvironment,
                                   debugBuild: bool)
    returns (r: Result<Layout>)
    ensures r == Err(InvalidArgument) <==> !ValidLayoutArguments(directories, sourceDirectory, outputDirectory)
    ensures manifest.None? && ValidLayoutArguments(directories, sourceDirectory, outputDirectory) ==> r == Err(FileNotFound)
    ensures r.Ok? <==> && ValidLayoutArguments(directories, sourceDirectory, outputDirectory) && manifest.Some?
                       && ReindexManifest(manifest.value, dump, debugBuild).Ok?
                       && forall p :: p in ReindexManifest(manifest.value, dump, debugBuild).value.requiredFiles ==> !CopyAborts(env, p)
    ensures (&& ValidLayoutArguments(directories, sourceDirectory, outputDirectory) && manifest.Some?
             && ReindexManifest(manifest.value, dump, debugBuild).Err?) ==>
              r == Err(ReindexManifest(manifest.value, dump, debugBuild).error)
    ensures r.Ok? ==> && r.value.indexer == ReindexManifest(manifest.value, dump, debugBuild).value.indexer
                      && r.value.requiredFiles == ReindexManifest(manifest.value, dump, debugBuild).value.requiredFiles
    ensures r.Ok? ==> ManifestFileName in r.value.requiredFiles
    ensures r.Ok? ==> r.value.copiedFiles == r.value.requiredFiles - env.copyFails
    ensures r.Ok? ==> forall p :: p in r.value.requiredFiles ==> !CopyAborts(env, p)
  {
    if !ValidLayoutArguments(directories, sourceDirectory, outputDirectory) {
      return Err(InvalidArgument);
    }
    if manifest.None? {
      return Err(FileNotFound);
    }
    var start := RequiredResources({}, {ManifestFileName});
    var found := FindResourceInfoInManifest(manifest.value, start);
    if found.Err? {
      return Err(found.error);
    }
    var (packageName, resources) := found.value;
    ExtractedUrisNeverNameManifest(QueryValues(manifest.value), packageName);
    assert resources.namedResources == MsResourceUris(QueryValues(manifest.value), packageName)
                                       + ImageFileUris(QueryValues(manifest.value), packageName);
    assert resources.requiredFiles == {ManifestFileName} + ImageFiles(QueryValues(manifest.value));
    var reindexed := CreateKozaniResourcePri(dump, packageName, resources.namedResources, resources.requiredFiles, debugBuild);
    assert reindexed == ReindexManifest(manifest.value, dump, debugBuild);
    if reindexed.Err? {
      return Err(reindexed.error);
    }
    var copied := CopyRequiredFiles(reindexed.value.requiredFiles, env);
    if copied.Err? {
      return Err(copied.error);
    }
    return Ok(Layout(reindexed.value.indexer, reindexed.value.requiredFiles, copied.value));
  }

  /** No resource URI taken from a manifest stands for the manifest file itself, so re-indexing
      never drops AppxManifest.xml from the required files. */
  lemma ExtractedUrisNeverNameManifest(vs: seq<string>, packageName: string)
    ensures forall u :: u in MsResourceUris(vs, packageName) + ImageFileUris(vs, packageName) ==>
              UnresolvedRelativePath(packageName, u) != Ok(ManifestFileName)
  {
    forall v | v in vs && IsMsResourceReference(v)
      ensures UnresolvedRelativePath(packageName, ResourceUri(v, packageName)) != Ok(ManifestFileName)
    {
      ResourceUriNeverNamesManifest(v, packageName);
    }
    forall v | v in vs && IsImageReference(v)
      ensures UnresolvedRelativePath(packageName, FileUri(v, packageName)) != Ok(ManifestFileName)
    {
      FileUriNeverNamesManifest(v, packageName);
    }
  }

  /** A string resource URI, read as a file URI, starts inside the word "Resources". */
  lemma ResourceUriNeverNamesManifest(v: string, packageName: string)
    requires IsMsResourceReference(v)
    ensures UnresolvedRelativePath(packageName, ResourceUri(v, packageName)) != Ok(ManifestFileName)
  {
    var n := |ResourceFilePrefix(packageName)|;
    var u := ResourceUri(v, packageName);
    assert u == MsResourceScheme + "//" + packageName + "/" + "Resources" + "/" + v[|MsResourceScheme|..];
    assert u[n] == 'c';
    var w := UnresolvedRelativePath(packageName, u);
    assert w.Ok? ==> w.value[0] == 'c';
  }

  /** An image file URI resolves back to a path with an image extension, never to the manifest. */
  lemma FileUriNeverNamesManifest(v: string, packageName: string)
    requires IsImageReference(v)
    ensures UnresolvedRelativePath(packageName, FileUri(v, packageName)) != Ok(ManifestFileName)
  {
    var u := FileUri(v, packageName);
    var w := UnresolvedRelativePath(packageName, u);
    assert u[|ResourceFilePrefix(packageName)|..] == ConvertToForwardSlashes(v);
    var x := ConvertToBackwardSlashes(ConvertToForwardSlashes(v));
    assert w == Ok(x);
    var extension := Lower(v[|v| - 4..]);
    assert extension[3] == 'g' || extension[3] == 'f';
    assert extension[3] == LowerChar(v[|v| - 1]);
    assert x[|x| - 1] == v[|v| - 1];
    assert ManifestFileName[|ManifestFileName| - 1] == 'l';
  }
}

=== FILE: pri_reindexer.dfy ===
/** Re-indexing of the resource index (PRI): only the named resources the manifest needs are
    copied into the new index, and the required-file set is rewritten to the files they resolve to.
    The resource-management API is replaced by a dump datatype in and a log of index calls out. */
module PriReindexer {
  import opened Outcomes
  import opened Text
  import opened Constants
  import opened ResourceExtractor

  /** A `Qualifier` node of the dump; `scoreAsDefault` is None when the attribute is missing. */
  datatype Qualifier = Qualifier(name: string, value: string, scoreAsDefault: Option<string>)

  /** A `Candidate` node: its `type` attribute, its qualifier set and its resolved `Value`. */
  datatype Candidate = Candidate(candidateType: string, qualifiers: seq<Qualifier>, value: string)

  /** A `NamedResource` node: its `uri` attribute and its candidates in document order. */
  datatype NamedResource = NamedResource(uri: string, candidates: seq<Candidate>)

  /** The detailed dump of a resource index: the global qualifiers and every named resource. */
  datatype PriDump = PriDump(qualifiers: seq<Qualifier>, namedResources: seq<NamedResource>)

  /** One call made on the new resource indexer. */
  datatype IndexCall =
    | IndexFile(uri: string, path: string, qualifiers: string)
    | IndexString(uri: string, text: string, qualifiers: string)

  // ---------------------------------------------------------------------------------------------
  // Qualifier strings

  /** Whether the qualifier loop keeps `q`: always, unless only default qualifiers are wanted and
      `q` does not score exactly "1.0" as default. */
  predicate IsKept(q: Qualifier, defaultQualifiersOnly: bool)
    requires q.scoreAsDefault.Some?
  {
    !(q.scoreAsDefault.value != PriDefaultQualifierScore && defaultQualifiersOnly)
  }

  /** Every qualifier carries a `scoreAsDefault` attribute (the source reads it unconditionally). */
  predicate AllScored(qs: seq<Qualifier>)
  {
    forall i :: 0 <= i < |qs| ==> qs[i].scoreAsDefault.Some?
  }

  /** Reference definition: the `name-value` pairs of the kept qualifiers, in order. */
  function KeptPairs(qs: seq<Qualifier>, defaultQualifiersOnly: bool): seq<string>
    requires AllScored(qs)
  {
    if |qs| == 0 then []
    else
      (if IsKept(qs[0], defaultQualifiersOnly) then [qs[0].name + "-" + qs[0].value] else [])
      + KeptPairs(qs[1..], defaultQualifiersOnly)
  }

  /** The loop of `GetResourceQualifierStringFromQualifiersList`, appending to `acc`. */
  function AppendQualifiers(qs: seq<Qualifier>, defaultQualifiersOnly: bool, acc: string): Result<string>
  {
    if |qs| == 0 then Ok(acc)
    else if qs[0].scoreAsDefault.None? then Err(NullNode)
    else if qs[0].scoreAsDefault.value != PriDefaultQualifierScore && defaultQualifiersOnly then
      AppendQualifiers(qs[1..], defaultQualifiersOnly, acc)
    else
      var separated := if acc != "" then acc + "_" else acc;
      AppendQualifiers(qs[1..], defaultQualifiersOnly, separated + qs[0].name + "-" + qs[0].value)
  }

  /** The source's `GetResourceQualifierStringFromQualifiersList`: the kept `name-value` pairs
      joined by `_`, in order; a parse error when nothing is kept. */
  function GetResourceQualifierString(qs: seq<Qualifier>, defaultQualifiersOnly: bool): (r: Result<string>)
    ensures !AllScored(qs) ==> r == Err(NullNode)
    ensures AllScored(qs) ==>
              if |KeptPairs(qs, defaultQualifiersOnly)| == 0 then r == Err(XmlParseError)
              else r == Ok(Join("_", KeptPairs(qs, defaultQualifiersOnly)))
  {
    AppendQualifiersJoins(qs, defaultQualifiersOnly, "");
    var s :- AppendQualifiers(qs, defaultQualifiersOnly, "");
    if s == "" then Err(XmlParseError) else Ok(s)
  }

  /** `acc` followed by the pairs, as the loop separates them. */
  function Extended(acc: string, pairs: seq<string>): string
  {
    if |pairs| == 0 then acc else if acc == "" then Join("_", pairs) else acc + "_" + Join("_", pairs)
  }

  lemma {:induction false} JoinNonEmpty(pairs: seq<string>)
    requires |pairs| > 0 && pairs[0] != ""
    ensures Join("_", pairs) != ""
  {
  }

  /** Appending one pair to the accumulator, as the loop does, and extending by the rest is
      extending by all pairs; the result is never empty. */
  lemma ExtendedStep(acc: string, p: string, ps: seq<string>)
    requires p != ""
    ensures Extended((if acc != "" then acc + "_" else acc) + p, ps) == Extended(acc, [p] + ps)
    ensures Extended(acc, [p] + ps) != ""
  {
    var acc' := (if acc != "" then acc + "_" else acc) + p;
    assert acc' != "" by { assert |acc'| >= |p|; }
    if |ps| > 0 {
      assert ([p] + ps)[1..] == ps;
      assert Join("_", [p] + ps) == p + "_" + Join("_", ps);
      assert Extended(acc', ps) == acc' + "_" + Join("_", ps);
    } else {
      assert Join("_", [p]) == p;
    }
    JoinNonEmpty([p] + ps);
    if acc == "" {
      assert acc' == p;
    } else {
      assert Extended(acc, [p] + ps) == acc + "_" + Join("_", [p] + ps);
      if |ps| > 0 {
        assert acc + "_" + (p + "_" + Join("_", ps)) == (acc + "_" + p) + "_" + Join("_", ps);
      } else {
        assert acc + "_" + Join("_", [p]) == acc + "_" + p;
      }
    }
  }

  /** The loop computes the `_`-join of the kept pairs; it fails exactly when a score is missing. */
  lemma {:induction false} AppendQualifiersJoins(qs: seq<Qualifier>, defaultQualifiersOnly: bool, acc: string)
    ensures !AllScored(qs) ==> AppendQualifiers(qs, defaultQualifiersOnly, acc) == Err(NullNode)
    ensures AllScored(qs) ==>
              AppendQualifiers(qs, defaultQualifiersOnly, acc) == Ok(Extended(acc, KeptPairs(qs, defaultQualifiersOnly)))
    ensures AllScored(qs) && |KeptPairs(qs, defaultQualifiersOnly)| > 0 ==>
              Extended(acc, KeptPairs(qs, defaultQualifiersOnly)) != ""
  {
    if |qs| == 0 {
    } else if qs[0].scoreAsDefault.None? {
    } else {
      var rest := qs[1..];
      AppendQualifiersJoins(rest, defaultQualifiersOnly, if IsKept(qs[0], defaultQualifiersOnly) then
        (if acc != "" then acc + "_" else acc) + qs[0].name + "-" + qs[0].value else acc);
      assert AllScored(qs) ==> AllScored(rest);
      assert !AllScored(qs) ==> !AllScored(rest) by {
        if !AllScored(qs) {
          var i :| 0 <= i < |qs| && qs[i].scoreAsDefault.None?;
          assert rest[i - 1] == qs[i];
        }
      }
      if AllScored(qs) && IsKept(qs[0], defaultQualifiersOnly) {
        var p := qs[0].name + "-" + qs[0].value;
        var ps := KeptPairs(rest, defaultQualifiersOnly);
        assert KeptPairs(qs, defaultQualifiersOnly) == [p] + ps;
        assert p != "" by { assert p[|qs[0].name|] == '-'; }
        var acc' := (if acc != "" then acc + "_" else acc) + qs[0].name + "-" + qs[0].value;
        assert acc' == (if acc != "" then acc + "_" else acc) + p;
        ExtendedStep(acc, p, ps);
        assert AppendQualifiers(qs, defaultQualifiersOnly, acc) == AppendQualifiers(rest, defaultQualifiersOnly, acc');
      } else if AllScored(qs) {
        assert KeptPairs(qs, defaultQualifiersOnly) == KeptPairs(rest, defaultQualifiersOnly);
        assert AppendQualifiers(qs, defaultQualifiersOnly, acc) == AppendQualifiers(rest, defaultQualifiersOnly, acc);
      }
    }
  }

  // ---------------------------------------------------------------------------------------------
  // The re-indexing walk

  /** Only file-path and string candidates can be re-indexed. */
  predicate IsIndexable(c: Candidate)
  {
    c.candidateType == PriPathCandidateTypeName || c.candidateType == PriStringCandidateTypeName
  }

  predicate HasIndexable(cs: seq<Candidate>)
  {
    exists k :: 0 <= k < |cs| && IsIndexable(cs[k])
  }

  /** The URIs of the resources in `rs` that have at least one indexable candidate. */
  ghost function IndexableUris(rs: seq<NamedResource>): set<string>
  {
    set i | 0 <= i < |rs| && HasIndexable(rs[i].candidates) :: rs[i].uri
  }

  /** The URIs named by a sequence of index calls. */
  ghost function CallUris(calls: seq<IndexCall>): set<string>
  {
    set i | 0 <= i < |calls| :: calls[i].uri
  }

  /** The state the walk threads through: pending URIs, required files and the calls made so far. */
  datatype IndexState = IndexState(pending: set<string>, required: set<string>, calls: seq<IndexCall>)

  /** The manifest-relative path a file URI stands for: the URI without the file prefix, with
      backslashes. The source takes the suffix by length, so a shorter URI is out of range. */
  function UnresolvedRelativePath(packageName: string, uri: string): Result<string>
  {
    var n := |ResourceFilePrefix(packageName)|;
    if n > |uri| then Err(OutOfRange) else Ok(ConvertToBackwardSlashes(uri[n..]))
  }

  /** The call made for an indexable candidate of the resource `uri`. */
  function CallFor(uri: string, c: Candidate): IndexCall
    requires IsIndexable(c) && GetResourceQualifierString(c.qualifiers, false).Ok?
  {
    var q := GetResourceQualifierString(c.qualifiers, false).value;
    if c.candidateType == PriPathCandidateTypeName then IndexFile(uri, c.value, q) else IndexString(uri, c.value, q)
  }

  /** One pass of the inner loop of `CreateKozaniResourcePriWithNamedResources`. */
  function IndexCandidate(packageName: string, uri: string, c: Candidate, st: IndexState): Result<IndexState>
  {
    if !IsIndexable(c) then Ok(st)
    else
      var pending := st.pending - {uri};
      var qualifiers :- GetResourceQualifierString(c.qualifiers, false);
      if c.candidateType == PriPathCandidateTypeName then
        var required := st.required + {c.value};
        var unresolved :- UnresolvedRelativePath(packageName, uri);
        Ok(IndexState(pending, required - {unresolved}, st.calls + [IndexFile(uri, c.value, qualifiers)]))
      else
        Ok(IndexState(pending, st.required, st.calls + [IndexString(uri, c.value, qualifiers)]))
  }

  /** The inner loop: every candidate of one resource, in order. */
  function IndexCandidates(packageName: string, uri: string, cs: seq<Candidate>, st: IndexState): Result<IndexState>
  {
    if |cs| == 0 then Ok(st)
    else
      var next :- IndexCandidate(packageName, uri, cs[0], st);
      IndexCandidates(packageName, uri, cs[1..], next)
  }

  /** The outer loop: every named resource, in order, skipping those no longer pending. */
  function IndexResources(packageName: string, rs: seq<NamedResource>, st: IndexState): Result<IndexState>
  {
    if |rs| == 0 then Ok(st)
    else if rs[0].uri !in st.pending then IndexResources(packageName, rs[1..], st)
    else
      var next :- IndexCandidates(packageName, rs[0].uri, rs[0].candidates, st);
      IndexResources(packageName, rs[1..], next)
  }

  // ---------------------------------------------------------------------------------------------
  // Reference definitions for the walk

  predicate IsPath(c: Candidate)
  {
    c.candidateType == PriPathCandidateTypeName
  }

  predicate HasPath(cs: seq<Candidate>)
  {
    exists k :: 0 <= k < |cs| && IsPath(cs[k])
  }

  /** The resolved values of the file-path candidates in `cs`. */
  ghost function PathValues(cs: seq<Candidate>): set<string>
  {
    set k | 0 <= k < |cs| && IsPath(cs[k]) :: cs[k].value
  }

  /** The resolved values of every file-path candidate of every resource in `rs`. */
  ghost function AllPathValues(rs: seq<NamedResource>): set<string>
  {
    set i, k | 0 <= i < |rs| && 0 <= k < |rs[i].candidates| && IsPath(rs[i].candidates[k]) :: rs[i].candidates[k].value
  }

  /** Every indexable candidate has a well-formed qualifier list. */
  predicate QualifiersResolve(cs: seq<Candidate>)
  {
    forall k :: 0 <= k < |cs| && IsIndexable(cs[k]) ==> GetResourceQualifierString(cs[k].qualifiers, false).Ok?
  }

  /** Reference definition: the calls for the indexable candidates of `cs`, in order. */
  function CallsFor(uri: string, cs: seq<Candidate>): seq<IndexCall>
    requires QualifiersResolve(cs)
  {
    if |cs| == 0 then []
    else (if IsIndexable(cs[0]) then [CallFor(uri, cs[0])] else []) + CallsFor(uri, cs[1..])
  }

  // ---------------------------------------------------------------------------------------------
  // One resource

  /** The inner loop fails exactly when a qualifier list is malformed or, for a resource with a
      file-path candidate, the URI is shorter than the file prefix. */
  lemma {:induction false} IndexCandidatesSucceeds(packageName: string, uri: string, cs: seq<Candidate>, st: IndexState)
    ensures IndexCandidates(packageName, uri, cs, st).Ok? <==>
              QualifiersResolve(cs) && (HasPath(cs) ==> UnresolvedRelativePath(packageName, uri).Ok?)
  {
    if |cs| > 0 {
      var first := IndexCandidate(packageName, uri, cs[0], st);
      if first.Ok? {
        IndexCandidatesSucceeds(packageName, uri, cs[1..], first.value);
      }
      TailFacts(cs);
    }
  }

  /** How the per-candidate predicates split over the head and the tail. */
  lemma TailFacts(cs: seq<Candidate>)
    requires |cs| > 0
    ensures HasPath(cs) <==> IsPath(cs[0]) || HasPath(cs[1..])
    ensures HasIndexable(cs) <==> IsIndexable(cs[0]) || HasIndexable(cs[1..])
    ensures QualifiersResolve(cs) <==>
              (IsIndexable(cs[0]) ==> GetResourceQualifierString(cs[0].qualifiers, false).Ok?) && QualifiersResolve(cs[1..])
    ensures PathValues(cs) == (if IsPath(cs[0]) then {cs[0].value} else {}) + PathValues(cs[1..])
  {
    TailHasPath(cs);
    TailHasIndexable(cs);
    TailQualifiersResolve(cs);
    TailPathValues(cs);
  }

  lemma TailHasPath(cs: seq<Candidate>)
    requires |cs| > 0
    ensures HasPath(cs) <==> IsPath(cs[0]) || HasPath(cs[1..])
  {
    if HasPath(cs) && !IsPath(cs[0]) {
      var k :| 0 <= k < |cs| && IsPath(cs[k]);
      assert IsPath(cs[1..][k - 1]);
    }
  }

  lemma TailHasIndexable(cs: seq<Candidate>)
    requires |cs| > 0
    ensures HasIndexable(cs) <==> IsIndexable(cs[0]) || HasIndexable(cs[1..])
  {
    if HasIndexable(cs) && !IsIndexable(cs[0]) {
      var k :| 0 <= k < |cs| && IsIndexable(cs[k]);
      assert IsIndexable(cs[1..][k - 1]);
    }
  }

  lemma TailQualifiersResolve(cs: seq<Candidate>)
    requires |cs| > 0
    ensures QualifiersResolve(cs) <==>
              (IsIndexable(cs[0]) ==> GetResourceQualifierString(cs[0].qualifiers, false).Ok?) && QualifiersResolve(cs[1..])
  {
    if QualifiersResolve(cs[1..]) {
      forall k | 1 <= k < |cs| && IsIndexable(cs[k])
        ensures GetResourceQualifierString(cs[k].qualifiers, false).Ok?
      {
        assert cs[k] == cs[1..][k - 1];
      }
    }
  }

  lemma TailPathValues(cs: seq<Candidate>)
    requires |cs| > 0
    ensures PathValues(cs) == (if IsPath(cs[0]) then {cs[0].value} else {}) + PathValues(cs[1..])
  {
    var tail := PathValues(cs[1..]);
    forall v | v in tail ensures v in PathValues(cs) {
      var k :| 0 <= k < |cs[1..]| && IsPath(cs[1..][k]) && cs[1..][k].value == v;
      assert cs[k + 1] == cs[1..][k];
    }
  }

  /** One candidate: an indexable one drops `uri` from the pending set and appends its call. */
  lemma IndexCandidateEffect(packageName: string, uri: string, c: Candidate, st: IndexState)
    requires IndexCandidate(packageName, uri, c, st).Ok?
    ensures IsIndexable(c) ==> GetResourceQualifierString(c.qualifiers, false).Ok?
    ensures IndexCandidate(packageName, uri, c, st).value.pending == if IsIndexable(c) then st.pending - {uri} else st.pending
    ensures IsIndexable(c) ==> IndexCandidate(packageName, uri, c, st).value.calls == st.calls + [CallFor(uri, c)]
    ensures !IsIndexable(c) ==> IndexCandidate(packageName, uri, c, st).value.calls == st.calls
  {
  }

  /** The inner loop drops `uri` from the pending set exactly when the resource has an
      indexable candidate, and appends exactly the reference calls. */
  lemma {:induction false} IndexCandidatesEffect(packageName: string, uri: string, cs: seq<Candidate>, st: IndexState)
    requires IndexCandidates(packageName, uri, cs, st).Ok?
    ensures QualifiersResolve(cs)
    ensures IndexCandidates(packageName, uri, cs, st).value.pending ==
              if HasIndexable(cs) then st.pending - {uri} else st.pending
    ensures IndexCandidates(packageName, uri, cs, st).value.calls == st.calls + CallsFor(uri, cs)
  {
    if |cs| > 0 {
      var first := IndexCandidate(packageName, uri, cs[0], st);
      assert first.Ok?;
      var next := first.value;
      assert IndexCandidates(packageName, uri, cs, st) == IndexCandidates(packageName, uri, cs[1..], next);
      IndexCandidateEffect(packageName, uri, cs[0], st);
      IndexCandidatesEffect(packageName, uri, cs[1..], next);
      TailQualifiersResolve(cs);
      TailHasIndexable(cs);
      var head := if IsIndexable(cs[0]) then [CallFor(uri, cs[0])] else [];
      assert next.calls == st.calls + head;
      assert CallsFor(uri, cs) == head + CallsFor(uri, cs[1..]);
      assert st.calls + head + CallsFor(uri, cs[1..]) == st.calls + CallsFor(uri, cs);
    }
  }

  /** The inner loop adds every file-path value and then removes the manifest's unresolved path. */
  lemma {:induction false} IndexCandidatesRequired(packageName: string, uri: string, cs: seq<Candidate>, st: IndexState)
    requires IndexCandidates(packageName, uri, cs, st).Ok?
    ensures HasPath(cs) ==>
              && UnresolvedRelativePath(packageName, uri).Ok?
              && IndexCandidates(packageName, uri, cs, st).value.required ==
                   (st.required + PathValues(cs)) - {UnresolvedRelativePath(packageName, uri).value}
    ensures !HasPath(cs) ==> IndexCandidates(packageName, uri, cs, st).value.required == st.required
  {
    IndexCandidatesSucceeds(packageName, uri, cs, st);
    if |cs| > 0 {
      TailFacts(cs);
      var next := IndexCandidate(packageName, uri, cs[0], st).value;
      IndexCandidatesRequired(packageName, uri, cs[1..], next);
    }
  }

  /** Every call names the resource, and there is one per indexable candidate. */
  lemma {:induction false} CallsForFacts(uri: string, cs: seq<Candidate>)
    requires QualifiersResolve(cs)
    ensures CallUris(CallsFor(uri, cs)) == if HasIndexable(cs) then {uri} else {}
    ensures forall k :: 0 <= k < |cs| && IsIndexable(cs[k]) ==> CallFor(uri, cs[k]) in CallsFor(uri, cs)
  {
    if |cs| > 0 {
      TailFacts(cs);
      CallsForFacts(uri, cs[1..]);
      var head := if IsIndexable(cs[0]) then [CallFor(uri, cs[0])] else [];
      CallUrisAppend(head, CallsFor(uri, cs[1..]));
      forall k | 1 <= k < |cs| && IsIndexable(cs[k]) ensures CallFor(uri, cs[k]) in CallsFor(uri, cs) {
        assert cs[k] == cs[1..][k - 1];
      }
    }
  }

  lemma CallUrisAppend(a: seq<IndexCall>, b: seq<IndexCall>)
    ensures CallUris(a + b) == CallUris(a) + CallUris(b)
  {
    forall u | u in CallUris(b) ensures u in CallUris(a + b) {
      var j :| 0 <= j < |b| && b[j].uri == u;
      assert (a + b)[|a| + j] == b[j];
    }
    forall u | u in CallUris(a) ensures u in CallUris(a + b) {
      var j :| 0 <= j < |a| && a[j].uri == u;
      assert (a + b)[j] == a[j];
    }
    forall u | u in CallUris(a + b) ensures u in CallUris(a) + CallUris(b) {
      var j :| 0 <= j < |a + b| && (a + b)[j].uri == u;
      if j < |a| {
        assert a[j] == (a + b)[j];
      } else {
        assert b[j - |a|] == (a + b)[j];
      }
    }
  }

  // ---------------------------------------------------------------------------------------------
  // All resources

  lemma ResourceFacts(rs: seq<NamedResource>)
    requires |rs| > 0
    ensures IndexableUris(rs) == (if HasIndexable(rs[0].candidates) then {rs[0].uri} else {}) + IndexableUris(rs[1..])
    ensures AllPathValues(rs) == PathValues(rs[0].candidates) + AllPathValues(rs[1..])
  {
    forall u | u in IndexableUris(rs[1..]) ensures u in IndexableUris(rs) {
      var i :| 0 <= i < |rs[1..]| && HasIndexable(rs[1..][i].candidates) && rs[1..][i].uri == u;
      assert rs[i + 1] == rs[1..][i];
    }
    forall v | v in AllPathValues(rs[1..]) ensures v in AllPathValues(rs) {
      var i, k :| 0 <= i < |rs[1..]| && 0 <= k < |rs[1..][i].candidates| && IsPath(rs[1..][i].candidates[k])
                  && rs[1..][i].candidates[k].value == v;
      assert rs[i + 1] == rs[1..][i];
    }
    forall v | v in AllPathValues(rs) ensures v in PathValues(rs[0].candidates) + AllPathValues(rs[1..]) {
      var i, k :| 0 <= i < |rs| && 0 <= k < |rs[i].candidates| && IsPath(rs[i].candidates[k]) && rs[i].candidates[k].value == v;
      if i > 0 {
        assert rs[1..][i - 1] == rs[i];
      }
    }
  }

  /** After the walk, a URI is still pending exactly when it was pending and no resource of the
      dump offered an indexable candidate for it. */
  lemma {:induction false} IndexResourcesPending(packageName: string, rs: seq<NamedResource>, st: IndexState)
    requires IndexResources(packageName, rs, st).Ok?
    ensures IndexResources(packageName, rs, st).value.pending == st.pending - IndexableUris(rs)
  {
    if |rs| > 0 {
      ResourceFacts(rs);
      if rs[0].uri !in st.pending {
        IndexResourcesPending(packageName, rs[1..], st);
      } else {
        var next := IndexCandidates(packageName, rs[0].uri, rs[0].candidates, st).value;
        IndexCandidatesEffect(packageName, rs[0].uri, rs[0].candidates, st);
        IndexResourcesPending(packageName, rs[1..], next);
      }
    }
  }

  /** The walk only appends calls, and the URIs it indexes are exactly the pending URIs that some
      resource of the dump can serve. */
  lemma IndexResourcesCalls(packageName: string, rs: seq<NamedResource>, st: IndexState)
    requires IndexResources(packageName, rs, st).Ok?
    ensures st.calls <= IndexResources(packageName, rs, st).value.calls
    ensures CallUris(IndexResources(packageName, rs, st).value.calls[|st.calls|..]) == st.pending * IndexableUris(rs)
  {
    IndexResourcesCallLog(packageName, rs, st);
    var last := IndexResources(packageName, rs, st).value;
    assert last.calls[|st.calls|..] == VisitedCalls(packageName, rs, st.pending);
    VisitedCallUris(packageName, rs, st.pending);
  }

  /** The visited resources' calls name exactly the pending URIs that some resource can serve. */
  lemma {:induction false} VisitedCallUris(packageName: string, rs: seq<NamedResource>, pending: set<string>)
    requires WalkSucceeds(packageName, rs, pending)
    ensures CallUris(VisitedCalls(packageName, rs, pending)) == pending * IndexableUris(rs)
    decreases |rs|
  {
    if |rs| > 0 {
      WalkSucceedsSplit(packageName, rs, pending);
      ResourceFacts(rs);
      var next := NextPending(rs[0], pending);
      VisitedCallUris(packageName, rs[1..], next);
      var own := if rs[0].uri in pending then CallsFor(rs[0].uri, rs[0].candidates) else [];
      CallUrisAppend(own, VisitedCalls(packageName, rs[1..], next));
      if rs[0].uri in pending {
        CallsForFacts(rs[0].uri, rs[0].candidates);
      } else {
        assert CallUris(own) == {};
      }
    }
  }

  /** The walk appends, for each visited resource in order, the calls of its indexable candidates:
      the file or string call, with the resolved value and the qualifier string, per candidate. */
  lemma {:induction false} IndexResourcesCallLog(packageName: string, rs: seq<NamedResource>, st: IndexState)
    requires IndexResources(packageName, rs, st).Ok?
    ensures WalkSucceeds(packageName, rs, st.pending)
    ensures IndexResources(packageName, rs, st).value.calls == st.calls + VisitedCalls(packageName, rs, st.pending)
  {
    IndexResourcesSucceeds(packageName, rs, st);
    if |rs| > 0 {
      WalkSucceedsSplit(packageName, rs, st.pending);
      var rest := VisitedCalls(packageName, rs[1..], NextPending(rs[0], st.pending));
      if rs[0].uri !in st.pending {
        assert NextPending(rs[0], st.pending) == st.pending;
        IndexResourcesCallLog(packageName, rs[1..], st);
      } else {
        var next := IndexCandidates(packageName, rs[0].uri, rs[0].candidates, st).value;
        IndexCandidatesEffect(packageName, rs[0].uri, rs[0].candidates, st);
        IndexResourcesCallLog(packageName, rs[1..], next);
        assert next.calls + rest == st.calls + (CallsFor(rs[0].uri, rs[0].candidates) + rest);
      }
    }
  }

  /** A required file survives the walk unless it is the unresolved path of a pending URI, and
      every file the walk adds is the resolved value of some file-path candidate. */
  lemma {:induction false} IndexResourcesRequired(packageName: string, rs: seq<NamedResource>, st: IndexState)
    requires IndexResources(packageName, rs, st).Ok?
    ensures IndexResources(packageName, rs, st).value.required <= st.required + AllPathValues(rs)
    ensures forall f :: f in st.required && (forall u :: u in st.pending ==> UnresolvedRelativePath(packageName, u) != Ok(f))
              ==> f in IndexResources(packageName, rs, st).value.required
  {
    if |rs| > 0 {
      ResourceFacts(rs);
      if rs[0].uri !in st.pending {
        IndexResourcesRequired(packageName, rs[1..], st);
      } else {
        var uri := rs[0].uri;
        var next := IndexCandidates(packageName, uri, rs[0].candidates, st).value;
        IndexCandidatesEffect(packageName, uri, rs[0].candidates, st);
        IndexCandidatesRequired(packageName, uri, rs[0].candidates, st);
        IndexResourcesRequired(packageName, rs[1..], next);
      }
    }
  }

  // ---------------------------------------------------------------------------------------------
  // Which resources the walk visits

  /** The walk reaches resource `i` with its URI still pending: the URI was pending at the start
      and no earlier resource with an indexable candidate served it. */
  ghost predicate Visited(rs: seq<NamedResource>, i: int, pending: set<string>)
    requires 0 <= i < |rs|
  {
    rs[i].uri in pending && rs[i].uri !in IndexableUris(rs[..i])
  }

  /** The inner loop can index the resource: its qualifier lists are well formed and, when it has
      a file-path candidate, its URI is at least as long as the file prefix. */
  predicate ResourceIndexes(packageName: string, r: NamedResource)
  {
    QualifiersResolve(r.candidates) && (HasPath(r.candidates) ==> UnresolvedRelativePath(packageName, r.uri).Ok?)
  }

  /** Every resource the walk visits can be indexed. */
  ghost predicate WalkSucceeds(packageName: string, rs: seq<NamedResource>, pending: set<string>)
  {
    forall i :: 0 <= i < |rs| && Visited(rs, i, pending) ==> ResourceIndexes(packageName, rs[i])
  }

  /** The pending set after visiting `r`. */
  function NextPending(r: NamedResource, pending: set<string>): set<string>
  {
    if HasIndexable(r.candidates) then pending - {r.uri} else pending
  }

  /** The resolved values of the file-path candidates of the visited resources. */
  ghost function VisitedPathValues(rs: seq<NamedResource>, pending: set<string>): set<string>
  {
    set i, k | 0 <= i < |rs| && Visited(rs, i, pending) && 0 <= k < |rs[i].candidates| && IsPath(rs[i].candidates[k])
      :: rs[i].candidates[k].value
  }

  /** The unresolved paths of the visited resources that have a file-path candidate. */
  ghost function VisitedUnresolvedPaths(packageName: string, rs: seq<NamedResource>, pending: set<string>): set<string>
  {
    set i | 0 <= i < |rs| && Visited(rs, i, pending) && HasPath(rs[i].candidates)
                          && UnresolvedRelativePath(packageName, rs[i].uri).Ok?
      :: UnresolvedRelativePath(packageName, rs[i].uri).value
  }

  lemma VisitedFirst(rs: seq<NamedResource>, pending: set<string>)
    requires |rs| > 0
    ensures Visited(rs, 0, pending) <==> rs[0].uri in pending
  {
    assert rs[..0] == [];
  }

  /** Visiting the tail from the pending set the head leaves behind is visiting the whole. */
  lemma VisitedShift(rs: seq<NamedResource>, pending: set<string>, i: int)
    requires 0 <= i < |rs| - 1
    ensures Visited(rs, i + 1, pending) <==> Visited(rs[1..], i, NextPending(rs[0], pending))
  {
    var prefix := rs[..i + 1];
    ResourceFacts(prefix);
    assert prefix[0] == rs[0];
    assert prefix[1..] == rs[1..][..i];
    assert rs[1..][i] == rs[i + 1];
  }

  lemma WalkSucceedsSplit(packageName: string, rs: seq<NamedResource>, pending: set<string>)
    requires |rs| > 0
    ensures WalkSucceeds(packageName, rs, pending) <==>
              && (rs[0].uri in pending ==> ResourceIndexes(packageName, rs[0]))
              && WalkSucceeds(packageName, rs[1..], NextPending(rs[0], pending))
  {
    VisitedFirst(rs, pending);
    var next := NextPending(rs[0], pending);
    if WalkSucceeds(packageName, rs[1..], next) && (rs[0].uri in pending ==> ResourceIndexes(packageName, rs[0])) {
      forall i | 0 <= i < |rs| && Visited(rs, i, pending) ensures ResourceIndexes(packageName, rs[i]) {
        if i > 0 {
          VisitedShift(rs, pending, i - 1);
          assert rs[i] == rs[1..][i - 1];
        }
      }
    }
    if WalkSucceeds(packageName, rs, pending) {
      forall i | 0 <= i < |rs[1..]| && Visited(rs[1..], i, next) ensures ResourceIndexes(packageName, rs[1..][i]) {
        VisitedShift(rs, pending, i);
        assert rs[1..][i] == rs[i + 1];
      }
    }
  }

  /** Reference definition: the calls the walk makes, the calls of each visited resource in order. */
  ghost function VisitedCalls(packageName: string, rs: seq<NamedResource>, pending: set<string>): seq<IndexCall>
    requires WalkSucceeds(packageName, rs, pending)
    decreases |rs|
  {
    if |rs| == 0 then []
    else
      WalkSucceedsSplit(packageName, rs, pending);
      (if rs[0].uri in pending then CallsFor(rs[0].uri, rs[0].candidates) else [])
      + VisitedCalls(packageName, rs[1..], NextPending(rs[0], pending))
  }

  lemma VisitedPathValuesSplit(rs: seq<NamedResource>, pending: set<string>)
    requires |rs| > 0
    ensures VisitedPathValues(rs, pending) ==
              (if rs[0].uri in pending then PathValues(rs[0].candidates) else {})
              + VisitedPathValues(rs[1..], NextPending(rs[0], pending))
  {
    VisitedFirst(rs, pending);
    var next := NextPending(rs[0], pending);
    var head := if rs[0].uri in pending then PathValues(rs[0].candidates) else {};
    forall v | v in VisitedPathValues(rs, pending) ensures v in head + VisitedPathValues(rs[1..], next) {
      var i, k :| 0 <= i < |rs| && Visited(rs, i, pending) && 0 <= k < |rs[i].candidates| && IsPath(rs[i].candidates[k])
                  && rs[i].candidates[k].value == v;
      if i > 0 {
        VisitedShift(rs, pending, i - 1);
        assert rs[1..][i - 1] == rs[i];
      }
    }
    forall v | v in head ensures v in VisitedPathValues(rs, pending) {
      var k :| 0 <= k < |rs[0].candidates| && IsPath(rs[0].candidates[k]) && rs[0].candidates[k].value == v;
    }
    forall v | v in VisitedPathValues(rs[1..], next) ensures v in VisitedPathValues(rs, pending) {
      var i, k :| 0 <= i < |rs[1..]| && Visited(rs[1..], i, next) && 0 <= k < |rs[1..][i].candidates|
                  && IsPath(rs[1..][i].candidates[k]) && rs[1..][i].candidates[k].value == v;
      VisitedShift(rs, pending, i);
      assert rs[1..][i] == rs[i + 1];
    }
  }

  lemma VisitedUnresolvedPathsSplit(packageName: string, rs: seq<NamedResource>, pending: set<string>)
    requires |rs| > 0
    ensures VisitedUnresolvedPaths(packageName, rs, pending) ==
              (if rs[0].uri in pending && HasPath(rs[0].candidates) && UnresolvedRelativePath(packageName, rs[0].uri).Ok?
               then {UnresolvedRelativePath(packageName, rs[0].uri).value} else {})
              + VisitedUnresolvedPaths(packageName, rs[1..], NextPending(rs[0], pending))
  {
    VisitedFirst(rs, pending);
    var next := NextPending(rs[0], pending);
    forall u | u in VisitedUnresolvedPaths(packageName, rs, pending) && u !in VisitedUnresolvedPaths(packageName, rs[1..], next)
      ensures rs[0].uri in pending && HasPath(rs[0].candidates) && UnresolvedRelativePath(packageName, rs[0].uri) == Ok(u)
    {
      var i :| 0 <= i < |rs| && Visited(rs, i, pending) && HasPath(rs[i].candidates)
               && UnresolvedRelativePath(packageName, rs[i].uri) == Ok(u);
      if i > 0 {
        VisitedShift(rs, pending, i - 1);
      }
    }
    forall u | u in VisitedUnresolvedPaths(packageName, rs[1..], next) ensures u in VisitedUnresolvedPaths(packageName, rs, pending) {
      var i :| 0 <= i < |rs[1..]| && Visited(rs[1..], i, next) && HasPath(rs[1..][i].candidates)
               && UnresolvedRelativePath(packageName, rs[1..][i].uri) == Ok(u);
      VisitedShift(rs, pending, i);
      assert rs[1..][i] == rs[i + 1];
    }
  }

  /** The walk succeeds exactly when every resource it visits can be indexed. */
  lemma {:induction false} IndexResourcesSucceeds(packageName: string, rs: seq<NamedResource>, st: IndexState)
    ensures IndexResources(packageName, rs, st).Ok? <==> WalkSucceeds(packageName, rs, st.pending)
  {
    if |rs| > 0 {
      WalkSucceedsSplit(packageName, rs, st.pending);
      if rs[0].uri !in st.pending {
        assert NextPending(rs[0], st.pending) == st.pending;
        IndexResourcesSucceeds(packageName, rs[1..], st);
      } else {
        var cs := rs[0].candidates;
        IndexCandidatesSucceeds(packageName, rs[0].uri, cs, st);
        var first := IndexCandidates(packageName, rs[0].uri, cs, st);
        if first.Ok? {
          IndexCandidatesEffect(packageName, rs[0].uri, cs, st);
          IndexResourcesSucceeds(packageName, rs[1..], first.value);
        }
      }
    }
  }

  /** The required files after the walk: every starting file that is not the unresolved path of a
      visited resource survives, as does every file added that is not such a path; nothing else
      is there but the added files. When no added file is such a path, the result is exact. */
  lemma {:induction false} IndexResourcesRequiredBounds(packageName: string, rs: seq<NamedResource>, st: IndexState)
    requires IndexResources(packageName, rs, st).Ok?
    ensures var added := VisitedPathValues(rs, st.pending);
            var removed := VisitedUnresolvedPaths(packageName, rs, st.pending);
            var out := IndexResources(packageName, rs, st).value.required;
            && (st.required - removed) + (added - removed) <= out
            && out <= (st.required - removed) + added
  {
    if |rs| == 0 {
      assert VisitedPathValues(rs, st.pending) == {};
      assert VisitedUnresolvedPaths(packageName, rs, st.pending) == {};
    } else {
      VisitedPathValuesSplit(rs, st.pending);
      VisitedUnresolvedPathsSplit(packageName, rs, st.pending);
      if rs[0].uri !in st.pending {
        assert NextPending(rs[0], st.pending) == st.pending;
        IndexResourcesRequiredBounds(packageName, rs[1..], st);
      } else {
        var cs := rs[0].candidates;
        IndexCandidatesEffect(packageName, rs[0].uri, cs, st);
        IndexCandidatesRequired(packageName, rs[0].uri, cs, st);
        var next := IndexCandidates(packageName, rs[0].uri, cs, st).value;
        IndexResourcesRequiredBounds(packageName, rs[1..], next);
        if HasPath(cs) {
          var u := UnresolvedRelativePath(packageName, rs[0].uri).value;
          RequiredBoundsStep(st.required, PathValues(cs), {u}, next.required,
                             VisitedPathValues(rs[1..], next.pending), VisitedUnresolvedPaths(packageName, rs[1..], next.pending),
                             IndexResources(packageName, rs, st).value.required);
        } else {
          assert PathValues(cs) == {};
          RequiredBoundsStep(st.required, {}, {}, next.required,
                             VisitedPathValues(rs[1..], next.pending), VisitedUnresolvedPaths(packageName, rs[1..], next.pending),
                             IndexResources(packageName, rs, st).value.required);
        }
      }
    }
  }

  /** One visited resource in the bounds on the required files: it adds `head` and then removes
      `unresolved`, and the rest of the walk keeps the bounds. */
  lemma RequiredBoundsStep(required: set<string>, head: set<string>, unresolved: set<string>, next: set<string>,
                           added: set<string>, removed: set<string>, out: set<string>)
    requires next == (required + head) - unresolved
    requires (next - removed) + (added - removed) <= out && out <= (next - removed) + added
    ensures (required - (unresolved + removed)) + ((head + added) - (unresolved + removed)) <= out
    ensures out <= (required - (unresolved + removed)) + (head + added)
  {
  }

  /** The manifest's image path comes back from its file URI, provided it holds no forward slash
      (a forward slash would come back as a backslash). */
  lemma FileUriRoundTrip(s: string, packageName: string)
    requires forall i :: 0 <= i < |s| ==> s[i] != '/'
    ensures UnresolvedRelativePath(packageName, FileUri(s, packageName)) == Ok(s)
  {
    var uri := FileUri(s, packageName);
    assert uri[|ResourceFilePrefix(packageName)|..] == ConvertToForwardSlashes(s);
    ReplaceCharRoundTrip(s, '\\', '/');
  }

  /** The walk fails only on a malformed qualifier list or a URI shorter than the file prefix. */
  lemma {:induction false} IndexResourcesErrors(packageName: string, rs: seq<NamedResource>, st: IndexState)
    ensures IndexResources(packageName, rs, st).Err? ==>
              IndexResources(packageName, rs, st).error in {NullNode, XmlParseError, OutOfRange}
  {
    if |rs| > 0 {
      if rs[0].uri !in st.pending {
        IndexResourcesErrors(packageName, rs[1..], st);
      } else {
        IndexCandidatesErrors(packageName, rs[0].uri, rs[0].candidates, st);
        var next := IndexCandidates(packageName, rs[0].uri, rs[0].candidates, st);
        if next.Ok? {
          IndexResourcesErrors(packageName, rs[1..], next.value);
        }
      }
    }
  }

  lemma {:induction false} IndexCandidatesErrors(packageName: string, uri: string, cs: seq<Candidate>, st: IndexState)
    ensures IndexCandidates(packageName, uri, cs, st).Err? ==>
              IndexCandidates(packageName, uri, cs, st).error in {NullNode, XmlParseError, OutOfRange}
  {
    if |cs| > 0 {
      var next := IndexCandidate(packageName, uri, cs[0], st);
      if next.Ok? {
        IndexCandidatesErrors(packageName, uri, cs[1..], next.value);
      }
    }
  }

  // ---------------------------------------------------------------------------------------------
  // The operation

  /** The new resource indexer: the package name and default qualifiers it is created with, and
      the calls made on it. */
  datatype ResourceIndexer = ResourceIndexer(packageName: string, defaultQualifiers: string, calls: seq<IndexCall>)

  /** What the re-indexing leaves behind: the indexer, the URIs never served and the files required. */
  datatype Reindexed = Reindexed(indexer: ResourceIndexer, pendingResources: set<string>, requiredFiles: set<string>)

  /** The source's `CreateKozaniResourcePriWithNamedResources`. `dump` is the detailed dump of the
      package's resources.pri, None when it cannot be produced; `debugBuild` switches on the final
      check that every named resource was found. */
  function CreateKozaniResourcePri(dump: Option<PriDump>, packageName: string, namedResources: set<string>,
                                   requiredFiles: set<string>, debugBuild: bool): (r: Result<Reindexed>)
    ensures dump.None? ==> r == Err(FileNotFound)
    ensures r.Err? ==> r.error in {FileNotFound, NullNode, XmlParseError, OutOfRange, Fail}
    ensures r.Ok? ==>
              && AllScored(dump.value.qualifiers)
              && r.value.indexer.defaultQualifiers == Join("_", KeptPairs(dump.value.qualifiers, true))
              && r.value.indexer.packageName == packageName
              && r.value.pendingResources == namedResources - IndexableUris(dump.value.namedResources)
              && CallUris(r.value.indexer.calls) == namedResources * IndexableUris(dump.value.namedResources)
              && r.value.requiredFiles <= requiredFiles + AllPathValues(dump.value.namedResources)
    ensures r.Ok? ==>
              forall f :: f in requiredFiles && (forall u :: u in namedResources ==> UnresolvedRelativePath(packageName, u) != Ok(f))
                ==> f in r.value.requiredFiles
    ensures r.Ok? && debugBuild ==> namedResources <= IndexableUris(dump.value.namedResources)
    ensures r == Err(Fail) ==> debugBuild && !(namedResources <= IndexableUris(dump.value.namedResources))
    ensures r.Ok? <==> && dump.Some? && AllScored(dump.value.qualifiers) && |KeptPairs(dump.value.qualifiers, true)| > 0
                       && WalkSucceeds(packageName, dump.value.namedResources, namedResources)
                       && (debugBuild ==> namedResources <= IndexableUris(dump.value.namedResources))
    ensures r.Ok? ==>
              var added := VisitedPathValues(dump.value.namedResources, namedResources);
              var removed := VisitedUnresolvedPaths(packageName, dump.value.namedResources, namedResources);
              && (requiredFiles - removed) + (added - removed) <= r.value.requiredFiles
              && r.value.requiredFiles <= (requiredFiles - removed) + added
    ensures r.Ok? ==> r.value.indexer.calls == VisitedCalls(packageName, dump.value.namedResources, namedResources)
  {
    if dump.None? then Err(FileNotFound)
    else
      var defaults :- GetResourceQualifierString(dump.value.qualifiers, true);
      var start := IndexState(namedResources, requiredFiles, []);
      IndexResourcesErrors(packageName, dump.value.namedResources, start);
      IndexResourcesSucceeds(packageName, dump.value.namedResources, start);
      var last :- IndexResources(packageName, dump.value.namedResources, start);
      IndexResourcesRequiredBounds(packageName, dump.value.namedResources, start);
      IndexResourcesPending(packageName, dump.value.namedResources, start);
      IndexResourcesCalls(packageName, dump.value.namedResources, start);
      IndexResourcesCallLog(packageName, dump.value.namedResources, start);
      IndexResourcesRequired(packageName, dump.value.namedResources, start);
      assert last.calls[0..] == last.calls;
      assert last.pending == {} <==> namedResources <= IndexableUris(dump.value.namedResources) by {
        if namedResources <= IndexableUris(dump.value.namedResources) {
          assert last.pending == {};
        }
        if last.pending == {} {
          forall u | u in namedResources ensures u in IndexableUris(dump.value.namedResources) {
            assert u !in last.pending;
          }
        }
      }
      if debugBuild && last.pending != {} then Err(Fail)
      else Ok(Reindexed(ResourceIndexer(packageName, defaults, last.calls), last.pending, last.required))
  }
}

=== FILE: resource_extractor.dfy ===
/** Resource-requirement extraction: which named resources and which files the manifest needs. */
module ResourceExtractor {
  import opened Outcomes
  import opened Text
  import Xml
  import opened Constants

  /** The two sets the extraction fills: fully qualified resource URIs and package-relative file paths. */
  datatype RequiredResources = RequiredResources(namedResources: set<string>, requiredFiles: set<string>)

  /** `ms-resource://<package>/Resources/`. */
  function ResourceStringPrefix(packageName: string): string
  {
    MsResourceScheme + "//" + packageName + "/" + MsResourceResourceUriPath + "/"
  }

  /** `ms-resource://<package>/Files/`. */
  function ResourceFilePrefix(packageName: string): string
  {
    MsResourceScheme + "//" + packageName + "/" + MsResourceFileUriPath + "/"
  }

  function ConvertToForwardSlashes(s: string): string
  {
    ReplaceChar(s, '\\', '/')
  }

  function ConvertToBackwardSlashes(s: string): string
  {
    ReplaceChar(s, '/', '\\')
  }

  /** The image extensions a manifest file reference may carry. */
  const SupportedExtensions: set<string> := {".jpg", ".png", ".gif"}

  /** The source's `EndsWithSupportedExtension`: longer than four characters and the last four,
      folded, are one of the supported image extensions. */
  predicate EndsWithSupportedExtension(fileName: string)
  {
    |fileName| > 4 && Lower(fileName[|fileName| - 4..]) in SupportedExtensions
  }

  /** A manifest value that names a resource through the `ms-resource:` scheme. */
  predicate IsMsResourceReference(s: string)
  {
    |s| > |MsResourceScheme| && CaseInsensitiveStartsWith(s, MsResourceScheme)
  }

  /** A manifest value that names an image file (and is not an `ms-resource:` reference). */
  predicate IsImageReference(s: string)
  {
    !IsMsResourceReference(s) && EndsWithSupportedExtension(s)
  }

  /** The fully qualified URI of an `ms-resource:` reference. */
  function ResourceUri(s: string, packageName: string): string
    requires |s| >= |MsResourceScheme|
  {
    ResourceStringPrefix(packageName) + s[|MsResourceScheme|..]
  }

  /** The fully qualified URI of an image file reference. */
  function FileUri(s: string, packageName: string): string
  {
    ResourceFilePrefix(packageName) + ConvertToForwardSlashes(s)
  }

  /** The source's `EvaluateStringAndAddToSetIfResource`. */
  function EvaluateString(s: string, packageName: string, acc: RequiredResources): (r: RequiredResources)
    ensures r.namedResources == acc.namedResources + MsResourceUris([s], packageName) + ImageFileUris([s], packageName)
    ensures r.requiredFiles == acc.requiredFiles + ImageFiles([s])
  {
    SingletonMsResourceUris(s, packageName);
    SingletonImageFiles(s, packageName);
    if s == "" then acc
    else if |s| > |MsResourceScheme| && CaseInsensitiveStartsWith(s, MsResourceScheme) then
      acc.(namedResources := acc.namedResources + {ResourceStringPrefix(packageName) + s[|MsResourceScheme|..]})
    else if EndsWithSupportedExtension(s) then
      RequiredResources(
        acc.namedResources + {ResourceFilePrefix(packageName) + ConvertToForwardSlashes(s)},
        acc.requiredFiles + {s})
    else acc
  }

  /** The four branches of `EvaluateStringAndAddToSetIfResource`, one by one. */
  lemma EvaluateStringBranches(s: string, packageName: string, acc: RequiredResources)
    ensures s == "" ==> EvaluateString(s, packageName, acc) == acc
    ensures IsMsResourceReference(s) ==>
              EvaluateString(s, packageName, acc)
              == acc.(namedResources := acc.namedResources + {ResourceStringPrefix(packageName) + s[|MsResourceScheme|..]})
    ensures IsImageReference(s) ==>
              EvaluateString(s, packageName, acc)
              == RequiredResources(acc.namedResources + {ResourceFilePrefix(packageName) + ConvertToForwardSlashes(s)},
                                   acc.requiredFiles + {s})
    ensures !IsMsResourceReference(s) && !IsImageReference(s) ==> EvaluateString(s, packageName, acc) == acc
  {
    SingletonMsResourceUris(s, packageName);
    SingletonImageFiles(s, packageName);
  }

  /** Whether a value is an image reference does not depend on the case of its letters. */
  lemma SupportedExtensionIgnoresCase(fileName: string)
    ensures EndsWithSupportedExtension(fileName) <==> EndsWithSupportedExtension(Lower(fileName))
  {
    if |fileName| > 4 {
      assert Lower(fileName)[|fileName| - 4..] == Lower(fileName[|fileName| - 4..]);
      LowerIdempotent(fileName[|fileName| - 4..]);
    }
  }

  /** A bare extension is not a file name, and a four-letter extension is not supported. */
  lemma SupportedExtensionExamples()
    ensures !EndsWithSupportedExtension(".png")
    ensures !EndsWithSupportedExtension("x.jpeg")
    ensures EndsWithSupportedExtension("Assets\\Logo.PNG")
  {
    assert "Assets\\Logo.PNG"[11..] == ".PNG";
    var l := Lower(".PNG");
    assert l[0] == '.' && l[1] == 'p' && l[2] == 'n' && l[3] == 'g';
    assert l == ".png";
    assert Lower("x.jpeg"[2..]) == "jpeg";
  }

  /** The sixteen manifest queries whose values may be resource references, in the source's order. */
  const ManifestQueries: seq<Xml.Query> := [
    Xml.Query(["Package", "Properties", "DisplayName"], None),
    Xml.Query(["Package", "Properties", "Description"], None),
    Xml.Query(["Package", "Properties", "PublisherDisplayName"], None),
    Xml.Query(["Package", "Properties", "Logo"], None),
    Xml.Query(["Package", "Applications", "Application", "VisualElements"], Some("DisplayName")),
    Xml.Query(["Package", "Applications", "Application", "VisualElements"], Some("Logo")),
    Xml.Query(["Package", "Applications", "Application", "VisualElements"], Some("SmallLogo")),
    Xml.Query(["Package", "Applications", "Application", "VisualElements"], Some("Description")),
    Xml.Query(["Package", "Applications", "Application", "VisualElements"], Some("Square150x150Logo")),
    Xml.Query(["Package", "Applications", "Application", "VisualElements"], Some("Square44x44Logo")),
    Xml.Query(["Package", "Applications", "Application", "VisualElements", "DefaultTile"], Some("WideLogo")),
    Xml.Query(["Package", "Applications", "Application", "VisualElements", "DefaultTile"], Some("Wide310x150Logo")),
    Xml.Query(["Package", "Applications", "Application", "VisualElements", "DefaultTile"], Some("Square71x71Logo")),
    Xml.Query(["Package", "Applications", "Application", "VisualElements", "DefaultTile"], Some("Square310x310Logo")),
    Xml.Query(["Package", "Applications", "Application", "VisualElements", "SplashScreen"], Some("Image")),
    Xml.Query(["Package", "Applications", "Application", "VisualElements", "LockScreen"], Some("BadgeLogo"))
  ]

  /** The value each query contributes: the text of its first matching node, or "" when none matches. */
  function QueryValues(manifest: Xml.Node): (vs: seq<string>)
    ensures |vs| == |ManifestQueries|
  {
    seq(|ManifestQueries|, i requires 0 <= i < |ManifestQueries| => Xml.SelectSingle(manifest, ManifestQueries[i]).GetOr(""))
  }

  /** Reference definition of the extraction, independent of the order of the values:
      the URIs of all `ms-resource:` values ... */
  ghost function MsResourceUris(vs: seq<string>, packageName: string): set<string>
  {
    set v | v in vs && IsMsResourceReference(v) :: ResourceUri(v, packageName)
  }

  /** ... the image file values ... */
  ghost function ImageFiles(vs: seq<string>): set<string>
  {
    set v | v in vs && IsImageReference(v)
  }

  /** ... and the file URIs of those image values. */
  ghost function ImageFileUris(vs: seq<string>, packageName: string): set<string>
  {
    set v | v in vs && IsImageReference(v) :: FileUri(v, packageName)
  }

  lemma SingletonMsResourceUris(s: string, packageName: string)
    ensures MsResourceUris([s], packageName) == if IsMsResourceReference(s) then {ResourceUri(s, packageName)} else {}
  {
  }

  lemma SingletonImageFiles(s: string, packageName: string)
    ensures ImageFiles([s]) == if IsImageReference(s) then {s} else {}
    ensures ImageFileUris([s], packageName) == if IsImageReference(s) then {FileUri(s, packageName)} else {}
  {
  }

  /** The reference sets of a concatenation are the unions of the parts' sets. */
  lemma ReferenceSetsAppend(vs: seq<string>, ws: seq<string>, packageName: string)
    ensures MsResourceUris(vs + ws, packageName) == MsResourceUris(vs, packageName) + MsResourceUris(ws, packageName)
    ensures ImageFiles(vs + ws) == ImageFiles(vs) + ImageFiles(ws)
    ensures ImageFileUris(vs + ws, packageName) == ImageFileUris(vs, packageName) + ImageFileUris(ws, packageName)
  {
    assert forall v :: v in vs + ws <==> v in vs || v in ws;
  }

  /** Evaluates every value in order, as the loop of `FindResourceInfoInManifest` does. The result
      is the reference extraction, whatever the order of the values. */
  method EvaluateValues(vs: seq<string>, packageName: string, acc: RequiredResources) returns (r: RequiredResources)
    ensures r.namedResources == acc.namedResources + MsResourceUris(vs, packageName) + ImageFileUris(vs, packageName)
    ensures r.requiredFiles == acc.requiredFiles + ImageFiles(vs)
  {
    r := acc;
    var i := 0;
    while i < |vs|
      invariant 0 <= i <= |vs|
      invariant r.namedResources
                == acc.namedResources + MsResourceUris(vs[..i], packageName) + ImageFileUris(vs[..i], packageName)
      invariant r.requiredFiles == acc.requiredFiles + ImageFiles(vs[..i])
    {
      var v := vs[i];
      if v != "" {
        r := EvaluateString(v, packageName, r);
      } else {
        assert EvaluateString(v, packageName, r) == r;
      }
      assert vs[..i + 1] == vs[..i] + [v];
      ReferenceSetsAppend(vs[..i], [v], packageName);
      i := i + 1;
    }
    assert vs[..i] == vs;
  }

  /** The source's `FindResourceInfoInManifest`: reads the package name (required), then
      evaluates every query's value into `acc`; a query that matches nothing contributes nothing. */
  method FindResourceInfoInManifest(manifest: Xml.Node, acc: RequiredResources)
    returns (r: Result<(string, RequiredResources)>)
    ensures r.Err? <==> Xml.SelectSingle(manifest, PackageIdentityNameQuery).GetOr("") == ""
    ensures r.Err? ==> r.error == XmlParseError
    ensures r.Ok? ==> Xml.SelectSingle(manifest, PackageIdentityNameQuery) == Some(r.value.0)
    ensures r.Ok? ==>
              var vs := QueryValues(manifest);
              && r.value.1.namedResources
                 == acc.namedResources + MsResourceUris(vs, r.value.0) + ImageFileUris(vs, r.value.0)
              && r.value.1.requiredFiles == acc.requiredFiles + ImageFiles(vs)
  {
    var nameResult := Xml.FindNodeTextValue(manifest, PackageIdentityNameQuery, true, "");
    if nameResult.Err? {
      return Err(nameResult.error);
    }
    var packageName := nameResult.value;
    var found := EvaluateValues(QueryValues(manifest), packageName, acc);
    return Ok((packageName, found));
  }
}

=== FILE: text.dfy ===
/** Character and string helpers shared by every component. */
module Text {

  /** `towlower` for the characters the tool compares: ASCII letters are folded, everything else is kept. */
  function LowerChar(c: char): char
  {
    if 'A' <= c <= 'Z' then (c as int + 32) as char else c
  }

  /** The string with `towlower` applied to every character. */
  function Lower(s: string): (r: string)
    ensures |r| == |s|
    ensures forall i :: 0 <= i < |s| ==> r[i] == LowerChar(s[i])
  {
    seq(|s|, i requires 0 <= i < |s| => LowerChar(s[i]))
  }

  /** True when no character of `s` is an upper-case ASCII letter. */
  predicate IsLowerCase(s: string)
  {
    forall i :: 0 <= i < |s| ==> !('A' <= s[i] <= 'Z')
  }

  /** `_wcsicmp(left, right) == 0`. */
  predicate CaseInsensitiveEquals(left: string, right: string)
  {
    Lower(left) == Lower(right)
  }

  /** The source's `CaseInsensitiveStartsWith`: too short is false, otherwise the leading slice is compared. */
  predicate CaseInsensitiveStartsWith(s: string, prefix: string)
  {
    if |s| < |prefix| then false else CaseInsensitiveEquals(s[..|prefix|], prefix)
  }

  predicate StartsWith(s: string, prefix: string)
  {
    |prefix| <= |s| && s[..|prefix|] == prefix
  }

  /** `std::wstring::ends_with`. */
  predicate EndsWith(s: string, suffix: string)
  {
    |suffix| <= |s| && s[|s| - |suffix|..] == suffix
  }

  /** `std::replace(s.begin(), s.end(), from, to)`. */
  function ReplaceChar(s: string, from: char, to: char): (r: string)
    ensures |r| == |s|
    ensures forall i :: 0 <= i < |s| ==> r[i] == (if s[i] == from then to else s[i])
  {
    seq(|s|, i requires 0 <= i < |s| => if s[i] == from then to else s[i])
  }

  /** `parts` joined by `sep`. */
  function Join(sep: string, parts: seq<string>): string
  {
    if |parts| == 0 then "" else if |parts| == 1 then parts[0] else parts[0] + sep + Join(sep, parts[1..])
  }

  /** Folding is idempotent: lower-casing a lower-cased string changes nothing. */
  lemma LowerIdempotent(s: string)
    ensures Lower(Lower(s)) == Lower(s)
  {
  }

  /** Case-insensitive prefix test, character by character: shorter strings never match,
      otherwise every leading character agrees once folded. */
  lemma CaseInsensitiveStartsWithChars(s: string, prefix: string)
    ensures CaseInsensitiveStartsWith(s, prefix) <==>
            |prefix| <= |s| && forall i :: 0 <= i < |prefix| ==> LowerChar(s[i]) == LowerChar(prefix[i])
  {
    if |prefix| <= |s| {
      var a := Lower(s[..|prefix|]);
      var b := Lower(prefix);
      if forall i :: 0 <= i < |prefix| ==> LowerChar(s[i]) == LowerChar(prefix[i]) {
        assert forall i :: 0 <= i < |prefix| ==> a[i] == b[i];
        assert a == b;
      }
    }
  }

  /** An exact prefix is also a case-insensitive one. */
  lemma StartsWithIsCaseInsensitiveStartsWith(s: string, prefix: string)
    requires StartsWith(s, prefix)
    ensures CaseInsensitiveStartsWith(s, prefix)
  {
  }

  /** Replacing `from` by `to` is undone by replacing `to` by `from`, provided `to` did not occur. */
  lemma ReplaceCharRoundTrip(s: string, from: char, to: char)
    requires forall i :: 0 <= i < |s| ==> s[i] != to
    ensures ReplaceChar(ReplaceChar(s, from, to), to, from) == s
  {
  }
}

=== FILE: xml.dfy ===
/** An abstract XML document: the part of the DOM that the manifest code reads and writes.
    XPath evaluation is replaced by the fixed local-name paths the source queries. */
module Xml {
  import opened Outcomes

  /** A DOM node. `name` is the qualified node name (`NodeName()`, prefix included);
      attributes are keyed by their qualified names. */
  datatype Node =
    | Element(name: string, attributes: map<string, string>, children: seq<Node>)
    | Text(value: string)      // a text or CDATA node
    | Other                    // a comment or processing instruction

  /** `local-name()`: the part of a qualified name after its prefix. */
  function LocalName(name: string): string
  {
    if ':' in name then AfterFirstColon(name) else name
  }

  function AfterFirstColon(name: string): string
    requires ':' in name
  {
    if name[0] == ':' then name[1..] else AfterFirstColon(name[1..])
  }

  /** The local name of `prefix:rest` is `rest` when the prefix has no colon. */
  lemma {:induction false} AfterFirstColonOfPrefix(prefix: string, rest: string)
    requires ':' !in prefix
    ensures ':' in prefix + ":" + rest && AfterFirstColon(prefix + ":" + rest) == rest
  {
    var name := prefix + ":" + rest;
    assert name[|prefix|] == ':';
    if |prefix| > 0 {
      assert name[1..] == prefix[1..] + ":" + rest;
      assert ':' !in prefix[1..] by {
        forall i | 0 <= i < |prefix[1..]| ensures prefix[1..][i] != ':' {
          assert prefix[1..][i] == prefix[i + 1];
        }
      }
      AfterFirstColonOfPrefix(prefix[1..], rest);
    }
  }

  /** True for an element whose local name is `local`. */
  predicate IsElementNamed(n: Node, local: string)
  {
    n.Element? && LocalName(n.name) == local
  }

  /** `InnerText`: the concatenated text of all descendant text nodes. */
  function InnerText(n: Node): string
  {
    match n
    case Text(v) => v
    case Other => ""
    case Element(_, _, children) => InnerTextOf(children)
  }

  function InnerTextOf(ns: seq<Node>): string
  {
    if |ns| == 0 then "" else InnerText(ns[0]) + InnerTextOf(ns[1..])
  }

  /** A location path of local-name steps from the document root (`Package`, then `Identity`, ...),
      optionally ending in an attribute step. */
  datatype Query = Query(steps: seq<string>, attribute: Option<string>)

  /** `SelectSingleNode(query).InnerText()` on the document whose root element is `root`,
      or None when no node matches. */
  function SelectSingle(root: Node, q: Query): Option<string>
  {
    if |q.steps| == 0 then None else FirstMatch([root], q.steps, q.attribute)
  }

  /** The first match, in document order, of the child-axis path `steps` whose first step names
      one of `ns`: each further step names a child of the previous match, never a deeper descendant. */
  function FirstMatch(ns: seq<Node>, steps: seq<string>, attribute: Option<string>): Option<string>
    requires |steps| > 0
  {
    if |ns| == 0 then None
    else
      var here := if IsElementNamed(ns[0], steps[0]) then MatchBelow(ns[0], steps[1..], attribute) else None;
      if here.Some? then here else FirstMatch(ns[1..], steps, attribute)
  }

  /** The first match of the rest of the path below the element `e`, which matched the previous step. */
  function MatchBelow(e: Node, rest: seq<string>, attribute: Option<string>): Option<string>
    requires e.Element?
  {
    if |rest| == 0 then
      (match attribute
       case None => Some(InnerText(e))
       case Some(a) => if a in e.attributes then Some(e.attributes[a]) else None)
    else FirstMatch(e.children, rest, attribute)
  }

  /** The source's `FindNodeTextValue`: the text of the first node the query selects, or the
      incoming `nodeText` when nothing matches; a parse error when the text is required and empty. */
  function FindNodeTextValue(root: Node, q: Query, failIfNotFound: bool, nodeText: string): (r: Result<string>)
    ensures SelectSingle(root, q).Some? && r.Ok? ==> r.value == SelectSingle(root, q).value
    ensures SelectSingle(root, q).None? && r.Ok? ==> r.value == nodeText
    ensures r.Err? <==> failIfNotFound && SelectSingle(root, q).GetOr(nodeText) == ""
    ensures r.Err? ==> r.error == XmlParseError
  {
    var text := SelectSingle(root, q).GetOr(nodeText);
    if failIfNotFound && text == "" then Err(XmlParseError) else Ok(text)
  }

  /** A path that no child of the root can start is never matched. */
  lemma {:induction false} SelectMissingChild(root: Node, q: Query)
    requires root.Element? && |q.steps| >= 2
    requires forall i :: 0 <= i < |root.children| ==> !IsElementNamed(root.children[i], q.steps[1])
    ensures SelectSingle(root, q) == None
  {
    NoFirstMatch(root.children, q.steps[1..], q.attribute);
    assert MatchBelow(root, q.steps[1..], q.attribute) == None;
    assert FirstMatch([root][1..], q.steps, q.attribute) == None by {
      assert [root][1..] == [];
    }
  }

  lemma {:induction false} NoFirstMatch(ns: seq<Node>, steps: seq<string>, attribute: Option<string>)
    requires |steps| > 0
    requires forall i :: 0 <= i < |ns| ==> !IsElementNamed(ns[i], steps[0])
    ensures FirstMatch(ns, steps, attribute) == None
  {
    if |ns| > 0 {
      NoFirstMatch(ns[1..], steps, attribute);
    }
  }

}
